=== FILE: README.md ===
# bobcat, modelled in Dafny

bobcat turns a BBC Sounds subscription into a podcast. It works in four stages:

1. It reads the "My Sounds" listing page by page and collects episode links.
2. It makes an `Episode` for each link. Each episode loads its metadata from a `{id}.json` cache, or from the episode page if the cache cannot be used.
3. It downloads each episode's audio and image and converts the audio to MP3.
4. It publishes the feed's files (`podcast.xml`, `logo.png`, and every episode's `.mp3` and `.jpg`) to an S3 bucket. Missing files are uploaded and objects the feed no longer lists are deleted.

This project models the decision logic around those stages. It covers:

- the id and file-name rules;
- the page loop;
- the title, synopsis and image-url shaping;
- the metadata cache;
- the per-episode acquisition steps, which skip work whose file already exists;
- ffmpeg's write-to-a-temporary-file-then-rename commit;
- the three bucket reconcilers.

The repository holds several revisions of the same code side by side, and their cross-file calls do not line up. Each file is modelled on its own terms.

Modules:

- **Wrappers**: `Option`, `Result`, `Outcome` and the exceptions (`Exc`) the code raises.
- **Text**: the Python string operations the code relies on.
  - `split('/')[-1]` is `LastSegment`.
  - `endswith`, and the slice `[:-n]` after it, are `EndsWith`, `StripSuffix` and `PyPrefix`.
  - `str.replace` is `ReplaceAll`.
- **Filenames**: `{id}.m4a/.mp3/.jpg/.json`, and the set of keys a feed publishes (`FeedKeys`).
- **Store**: the working directory as a content store, and its `WorkDir` class. The content store holds:
  - the files that are present;
  - the metadata records among them;
  - the log of calls made to collaborators.

  The collaborators (downloader, streaming downloader, ffmpeg, pydub export) are not modelled. A `World` says how each call turns out.
- **ObjectStore**: the bucket (`Bucket` class), the content type of a key, and the bucket url.
- **Pagination**: the specification of the page loop shared by every version.
- **Models**: `bobcat/models.py`.
- **Episodes**: the `Episode` class shared by `bobcat/__main__.py` and `bobcat.py`, and its metadata cache.
- **PackageMain**: `bobcat/__main__.py`.
- **Script**: `bobcat.py`.
- **S3SyncPkg**: `bobcat/s3sync/__init__.py`.
- **S3Sync**: `bobcat/s3sync.py`.
- **BbcSounds**: `bobcat/bbc_sounds.py`.
- **BbcSoundsPkg**: `bobcat/bbc_sounds/__init__.py`.
- **Audio**: `bobcat/audio.py`.

Code that changes state in place is modelled imperatively: episode fields, the working directory, and the bucket become classes, and loops become `while` loops with invariants. Each such method is tied to a specification function of the old state. The lemmas beside it prove what the program promises of that function.

Some functions exist in more than one copy and are defined once:

- `_get_content_type` and `get_content_type` (three copies) are `ObjectStore.ContentType`.
- `bucket_url` (two copies) is `ObjectStore.BucketUrl`.
- `get_episode_metadata` (two identical copies) is `BbcSounds.GetEpisodeMetadata`.
- `bobcat.py`'s `download_episode_image` is `PackageMain.DownloadEpisodeImage`.
- `bobcat.py`'s `load_episodes` is `PackageMain.LoadEpisodes`.

What the code does, where one might expect otherwise:

- `download_episodes` in both versions has no handler, so the first exception ends the whole run. There is no per-episode isolation.
- No version skips episodes already present in the bucket, and none deletes local copies after upload.
- `bobcat.py` swallows audio-download errors. The conversion then raises FileNotFound on the missing `.m4a` (`Script.SwallowedAudioErrorResurfaces`).
- A failed ffmpeg conversion (`bobcat/audio.py`) leaves a non-zero exit code, and may leave a partial `temporary.mp3`. Its output is left as it was, unless the output path is itself `temporary.mp3` (`Audio.ConvertFailureKeepsOutput`).

## Model

| member | source | states |
|---|---|---|
| Text.LastSegment | bobcat/models.py:25 | the id taken from a url contains no slash, ends the url, and is either the whole url or preceded by a slash |
| Text.LastSegmentUnique | bobcat/models.py:25 | the three properties above determine the segment: any string with them is `url.split('/')[-1]` |
| Text.LastSegmentOfJoin | bobcat/models.py:25 | splitting `base + "/" + id` gives back `id` when `id` has no slash |
| Text.StripSuffix | bobcat.py:143-149 | when the text ends with the suffix, the result followed by the suffix is the text; otherwise the text is unchanged |
| Text.PyPrefix | bobcat.py:221-222 | Python's `s[:n]` is a prefix of `s` whose length is `n` clipped to the length; a negative `n` drops `-n` items from the end |
| Text.ReplaceAllIdentity | bobcat.py:154 | `replace` leaves a string without the pattern unchanged |
| Text.ReplaceAllRemoves | bobcat/bbc_sounds.py:208 | after `replace(pat, rep)` no occurrence of `pat` is left, when `pat` cannot start inside `rep` and `rep` cannot continue `pat` |
| Text.ReplaceAllAt | bobcat.py:154 | at the first occurrence of the pattern the replacement takes its place: the text before it is kept and the rest is replaced in turn |
| Filenames.AudioFilename | bobcat/__main__.py:35-39 | the audio file name ends in `.m4a` and removing the suffix gives the id back |
| Filenames.OutputFilename | bobcat/__main__.py:41-44 | the converted file name ends in `.mp3` and removing the suffix gives the id back |
| Filenames.ImageFilename | bobcat/__main__.py:51-54 | the image file name ends in `.jpg` and removing the suffix gives the id back |
| Filenames.MetadataFilename | bobcat/__main__.py:46-49 | the metadata file name ends in `.json` and removing the suffix gives the id back |
| Filenames.FilenamesInjective | bobcat/__main__.py:35-54 | each kind of file name determines the id |
| Filenames.FilenameKindsDisjoint | bobcat/__main__.py:17-54 | names of different kinds never coincide, whatever the ids, and `podcast.xml` and `logo.png` are no episode's `.mp3` or `.jpg` |
| Filenames.FeedKeysSnoc | bobcat/__main__.py:249-251 | adding one episode adds its `.mp3` and `.jpg` to the feed's key set and nothing else |
| Filenames.FeedKeysCount | bobcat/__main__.py:247-251 | for distinct ids the feed's key set has exactly 2 + 2n keys, so no two files collide |
| Store.AfterCall | bobcat/__main__.py:153-168 | a collaborator call is logged. The file set changes at most by the call's target. Only ffmpeg never raises. Records stay in present files |
| Store.Read | bobcat/__main__.py:96-98 | reading a record succeeds exactly when the file is present and holds one; a missing file raises FileNotFound |
| Store.Write | bobcat/__main__.py:118-119 | after writing, the file reads back the record, and every other file reads as before |
| Store.AfterRename | bobcat/audio.py:99 | a missing source raises and changes nothing. Otherwise the source disappears, the destination holds its content, and no other file changes |
| Store.WorkDir.Exists | bobcat/__main__.py:78-93 | `Path(name).exists()` is true exactly when the file is present |
| Store.WorkDir.Invoke | bobcat/__main__.py:159-168 | the directory after a call is the one `AfterCall` describes |
| Store.WorkDir.ReadRecord | bobcat/__main__.py:97-98 | returns what `Read` specifies for the current directory |
| Store.WorkDir.WriteRecord | bobcat/__main__.py:118-119 | the directory after writing is the one `Write` describes |
| Store.WorkDir.Rename | bobcat/audio.py:99 | the directory after renaming is the one `AfterRename` describes |
| ObjectStore.ContentTypeCases | bobcat/s3sync/__init__.py:25-45 | `.xml`, `.mp3`, `.jpg` and `.png` get their MIME types, tried in that order. A name with none of the four suffixes, and only such a name, raises ValueError |
| ObjectStore.FeedKeysHaveContentType | bobcat.py:357-372 | every key a feed publishes has a content type; the feed is RSS and the logo PNG |
| ObjectStore.BucketUrl | bobcat/s3sync/__init__.py:48-52 | the url starts with `https://` and ends with `.s3.amazonaws.com`, and is exactly as long as those two around the bucket name |
| ObjectStore.BucketUrlRoundTrip | bobcat/s3sync.py:32-35 | the bucket name can be read back out of its url |
| ObjectStore.BucketUrlInjective | bobcat/s3sync.py:35 | different buckets have different urls |
| ObjectStore.Bucket.Keys | bobcat/s3sync/__init__.py:70 | the listing is exactly the bucket's key set |
| ObjectStore.Bucket.Upload | bobcat/s3sync/__init__.py:91-97 | an upload creates or replaces one object and touches nothing else |
| ObjectStore.Bucket.DeleteObjects | bobcat/s3sync/__init__.py:101-102 | a batched delete removes exactly the listed keys and is recorded as one request |
| S3SyncPkg.InitialPartition | bobcat/s3sync/__init__.py:72-74 | `to_upload`, `to_check` and `to_delete` are pairwise disjoint; the first two make up the list and the last two the bucket |
| S3SyncPkg.UploadSetCharacterised | bobcat/s3sync/__init__.py:72-86 | a listed key is uploaded exactly when the bucket lacks it or its stored `md5` differs. A missing `md5` always counts as a change. The uploads stay within the list and never meet the deletes |
| S3SyncPkg.UploadedObject | bobcat/s3sync/__init__.py:91-97 | an uploaded object is public, carries the local digest as `md5`, and is typed by its suffix |
| S3SyncPkg.SyncedIsInSync | bobcat/s3sync/__init__.py:90-103 | after a complete sync the bucket's keys are exactly the list, and every object carries its local digest |
| S3SyncPkg.InSyncPlansNothing | bobcat/s3sync/__init__.py:72-86 | a bucket in sync plans no upload and no delete |
| S3SyncPkg.RerunTransfersNothing | bobcat/s3sync/__init__.py:78-103 | an immediate re-run with unchanged files uploads nothing and deletes nothing |
| S3SyncPkg.PlannedFilesLocal | bobcat/s3sync/__init__.py:72-97 | every listed file is in the working directory exactly when every checked key and every planned upload is |
| S3SyncPkg.PlanSync | bobcat/s3sync/__init__.py:70-86 | the digest-comparison loop completes exactly when every checked key is in the working directory, and then produces exactly the specified upload and delete sets. Otherwise hashing raises FileNotFoundError |
| S3SyncPkg.UploadEach | bobcat/s3sync/__init__.py:90-97 | the upload loop completes exactly when every key has a content type and is in the working directory, and then the bucket holds every key's uploaded object. Otherwise it raises ValueError (always, when every key is local) or FileNotFoundError (always, when every key is typed), the keys sent before stay, and no delete is made |
| S3SyncPkg.FilesWithBucket | bobcat/s3sync/__init__.py:55-103 | a sync completes exactly when every listed file is in the working directory and every planned key has a content type; it then leaves the specified bucket and makes one delete request, only if there are stale keys. Otherwise it raises ValueError or FileNotFoundError, as the two conditions say, and skips the delete |
| S3Sync.GetBucketContents | bobcat/s3sync.py:47-51 | returns exactly the bucket's keys |
| S3Sync.PutAllEffect | bobcat/s3sync.py:60-72 | uploads complete exactly when every name has a content type and is in the working directory, and then every name is a public, typed object. A failure is ValueError when every name is local and FileNotFoundError when every name is typed. Keys that were not named are never touched |
| S3Sync.PutAllStopsAtUnsendable | bobcat/s3sync.py:66-72 | at the first name without a content type or not in the working directory the uploads stop, with ValueError or FileNotFoundError respectively, and the names before it stay uploaded |
| S3Sync.PutAllSingle | bobcat/s3sync.py:54-57 | uploading one file stores it when it has a content type and is in the working directory, and otherwise raises ValueError or FileNotFoundError without change |
| S3Sync.UploadFiles | bobcat/s3sync.py:60-72 | the loop leaves the bucket and outcome that `PutAll` specifies and makes no delete |
| S3Sync.UploadFile | bobcat/s3sync.py:54-57 | `upload_file(f)` has exactly the effect of `upload_files([f])` |
| S3Sync.DeleteFiles | bobcat/s3sync.py:75-82 | one request removes exactly the named keys and leaves every other key |
| Audio.DurationInSeconds | bobcat/audio.py:9-46 | the probe command is the fixed options followed by the file name. A non-zero exit gives None. Otherwise the result is the whole seconds plus one, and unreadable output raises ValueError, which the `except KeyError` does not catch |
| Audio.ConvertCommandShape | bobcat/audio.py:52-81 | the command starts `ffmpeg -y -i input -i cover` and names the title via `-metadata title=...`. Its last argument, the output, is always `temporary.mp3` |
| Audio.BuildCommand | bobcat/audio.py:52-81 | building the command one option group at a time gives exactly `ConvertCommand` |
| Audio.ConvertFailureKeepsOutput | bobcat/audio.py:91-96 | a non-zero exit raises CalledProcessError with that code. When the output is not `temporary.mp3`, the output path is present with the same content exactly when it was before |
| Audio.ConvertSuccessCommits | bobcat/audio.py:95-99 | after exit code 0 the conversion completes exactly when ffmpeg wrote `temporary.mp3` or one was left from before. It then leaves the output and no temporary file, and otherwise raises FileNotFound from the rename |
| Audio.ConvertCallsFfmpegOnce | bobcat/audio.py:85-91 | a conversion runs ffmpeg exactly once, with the conversion command |
| Audio.ConvertToMp3 | bobcat/audio.py:49-101 | the directory and outcome after the call are those `Converted` specifies |
| Pagination.CollectedBound | bobcat/bbc_sounds.py:170-172 | with a non-negative limit at most `max_episodes` links are returned |
| Pagination.CollectedIsPrefix | bobcat/bbc_sounds.py:147-174 | the result is a prefix of the links of the pages before the first empty page |
| Pagination.CollectedAll | bobcat/bbc_sounds.py:164-174 | a limit at least the number of links returns every link before the first empty page |
| Pagination.CollectedIgnoresAfterEmpty | bobcat/bbc_sounds.py:164-165 | pages after an empty page have no influence on the result |
| Pagination.StopAtEmptyPage | bobcat/bbc_sounds.py:164-165 | leaving the loop at an empty page returns exactly the specified links |
| Pagination.StopAtLimit | bobcat/bbc_sounds.py:170-172 | leaving the loop at the limit and slicing returns exactly the specified links |
| BbcSounds.Hrefs | bobcat/bbc_sounds.py:156-160 | the kept links are never empty and are no more than the anchors |
| BbcSounds.HrefsMembership | bobcat/bbc_sounds.py:156-160 | a link is kept exactly when some anchor carries it and it is non-empty |
| BbcSounds.HrefsEmpty | bobcat/bbc_sounds.py:154-165 | a page counts as empty exactly when every anchor's `href` is missing or empty |
| BbcSounds.PageLinks | bobcat/bbc_sounds.py:154-160 | the filtering loop keeps exactly `Hrefs` of the anchors, in order |
| BbcSounds.OpenPage | bobcat/bbc_sounds.py:148-160 | opening page `n` yields that page's kept links; pages past the end are empty |
| BbcSounds.GetEpisodeUrls | bobcat/bbc_sounds.py:140-174 | the loop returns the specified prefix of the filtered pages' links, and no link is empty. The last page opened is at most one past the end, and every page before it had links. The crawl stops at the first page without links or at the first page where `max_episodes` links are held |
| BbcSounds.CollectedLinksNonEmpty | bobcat/bbc_sounds.py:156-174 | no returned link is empty |
| BbcSounds.FullTitleShape | bobcat/bbc_sounds.py:186-193 | the title starts with the primary title and equals it exactly when the other two are absent. Otherwise it continues with ` - ` |
| BbcSounds.JoinTitles | bobcat/bbc_sounds.py:186-193 | the `+=` sequence builds exactly primary, then ` - secondary` and ` - tertiary` when present |
| BbcSounds.ChooseSynopsis | bobcat/bbc_sounds.py:195-203 | the description is the first present synopsis among long, medium and short, and None exactly when all three are absent. The `synopsis` the loop leaves behind always equals it |
| BbcSounds.FullSizeImageUrl | bobcat/bbc_sounds.py:208 | no `{recipe}` is left, and a template without one is unchanged |
| BbcSounds.FullSizeImageUrlAt | bobcat/bbc_sounds.py:208 | the first `{recipe}` becomes `1600x1600`, the text before it is kept, and the rest of the template is filled in turn |
| BbcSounds.GetEpisodeMetadata | bobcat/bbc_sounds.py:177-219 | the metadata holds the joined title, the first present synopsis (None exactly when there is none), the full-size image url and the availability start |
| BbcSounds.MetadataDict | bobcat/bbc_sounds.py:214-219 | the dictionary has exactly the keys title, synopsis, image_url and availability_from, and no `description` |
| BbcSoundsPkg.GetEpisodeUrls | bobcat/bbc_sounds/__init__.py:76-100 | the unfiltered loop returns the specified prefix of the pages' hrefs, keeping absent ones. The last page opened is at most one past the end, and every page before it had anchors. The crawl stops at the first page without anchors or at the first page where `max_episodes` hrefs are held |
| BbcSoundsPkg.MissingHrefSeparatesVersions | bobcat/bbc_sounds/__init__.py:87 | on a page whose only anchor lacks `href`, this version returns None and reads on, while the filtering version stops with nothing |
| Models.NewEpisode | bobcat/models.py:22-29 | the url is stored as given; the id has no slash, ends the url and follows its last slash; every descriptive column starts out None |
| Models.NewEpisodeIdOfJoin | bobcat/models.py:25 | the url `base/id` gives the key `id` |
| Models.TrailingSlashEmptyId | bobcat/models.py:25 | a url ending in `/` gives the empty key |
| Models.UrlsSharingLastSegmentCollide | bobcat/models.py:13-25 | two different urls with the same last segment get the same primary key |
| Models.EpisodeFilenames | bobcat/models.py:31-45 | the three names are id + `.m4a`, `.mp3`, `.jpg`; they are pairwise different and each determines the id |
| Episodes.RecordOf | bobcat/__main__.py:109-116 | the written record carries the episode's id, and with a url assigned it has all five keys |
| Episodes.ReadIntoCases | bobcat/__main__.py:96-106 | reading the cache as a whole succeeds exactly when the file holds a record for this id with all four keys, and gives back its fields, url included. A record for another id raises ValueError, one lacking a key KeyError, and a missing file FileNotFound |
| Episodes.ReadFileCases | bobcat/__main__.py:96-106 | the key-by-key read completes exactly when the record reads cleanly, and then the fields are the record's whatever they were. On a failure the error is the same, and no field changes unless the record is this id's and has a url |
| Episodes.ReadFileInOrder | bobcat/__main__.py:103-106 | for a record written for this id, url, title, description and image url are assigned in that order, each exactly when it and every key before it are present; the others keep their values |
| Episodes.WriteThenReadRestores | bobcat/__main__.py:96-119 | with a url assigned, writing then reading restores url, title, description and image url, also through the key-by-key read. Without one, writing raises AttributeError before the file is opened and changes nothing |
| Episodes.WriteLeavesOtherCaches | bobcat/__main__.py:109-119 | writing one episode's record leaves every other episode's cache as it was |
| Episodes.CleanTitle | bobcat.py:141-144 | `title[:-13]` after the test removes exactly one trailing ` - BBC Sounds` |
| Episodes.CleanDescription | bobcat.py:146-149 | `description[:-10]` after the test removes exactly one trailing ` Read less` |
| Episodes.BetterImageUrl | bobcat.py:153-154 | no `320x320` is left, and an url without one is unchanged |
| Episodes.BetterImageUrlAt | bobcat.py:153-154 | the first `320x320` becomes `1600x1600`, the text before it is kept, and the rest of the url is upgraded in turn |
| Episodes.FetchedKeepsUrl | bobcat.py:126-158 | fetching never changes the url, and without a url it raises AttributeError. A page fetch that raises changes nothing, and one that completes sets all three fields |
| Episodes.DictionaryFetchMissesDescription | bobcat/__main__.py:134-141 | against the dictionary `get_episode_metadata` returns, a fetch with a url assigns the title and then raises KeyError on `description` |
| Episodes.LoadKeepsCache | bobcat/__main__.py:122-127 | a cache that reads cleanly is used as it is: no fetch and no write |
| Episodes.LoadCacheCoherent | bobcat/__main__.py:122-131 | after a completed load the episode has a url and the cache holds exactly its fields. Only its own metadata file was touched, and no collaborator was called |
| Episodes.LoadIdempotent | bobcat/__main__.py:122-131 | loading again after a completed load reads the same fields back and changes nothing |
| Episodes.LoadFailureWritesNothing | bobcat/__main__.py:122-131 | a load that raises leaves the directory unchanged. The record did not read cleanly, and the error is that of the fetch made with the fields the partial read left |
| Episodes.UrlOnlyRecordFetches | bobcat/__main__.py:96-141 | a record for this id holding only its url gives the episode that url before KeyError, and the website is asked with it. The dictionary fetch then assigns the title and raises KeyError with nothing written; a page that scrapes leaves a complete record |
| Episodes.Episode.FromUrl | bobcat/__main__.py:27-33 | an episode made from a url has the url's last segment as id, the url, and no other field |
| Episodes.Episode.FromId | bobcat/__main__.py:25-26 | an episode made from a non-empty id has that id and no url |
| Episodes.Episode.ReadMetadataFile | bobcat/__main__.py:96-106 | the fields and outcome after reading are those `ReadFile` specifies: keys assigned in order up to the first missing one, and none for a missing, unreadable or foreign file |
| Episodes.Episode.WriteMetadataFile | bobcat/__main__.py:109-119 | the directory and outcome are those `Written` specifies: AttributeError with no write when the url was never assigned, otherwise the record replaces the file |
| Episodes.Episode.FetchMetadata | bobcat.py:126-158 | the fields and outcome after fetching are those `Fetched` specifies; the id never changes |
| Episodes.Episode.LoadMetadata | bobcat/__main__.py:122-131 | the directory, fields and outcome after loading are those `LoadedMetadata` specifies |
| Episodes.NewEpisode | bobcat.py:35-44 | a non-empty id is taken as given, with no url. Otherwise the id is the url's last segment, and with no url the constructor raises AttributeError |
| Episodes.SharedIdSharesFields | bobcat.py:226-229 | two urls with the same last segment end up with the same fields: the second reads the record the first wrote |
| Episodes.LoadEachCoherent | bobcat.py:228-229 | a completed loading keeps the episodes' ids and order, and every episode's cache holds exactly its fields |
| Episodes.LoadEachHasUrls | bobcat.py:228-229 | every episode of a completed loading has a url |
| Episodes.LoadEachQuiet | bobcat.py:228-229 | loading logs no download or conversion call and keeps records only in present files |
| Episodes.LoadKeepsReadable | bobcat.py:228-229 | loading one episode never disturbs a record that already reads cleanly |
| PackageMain.StepsSkipOrCallOnce | bobcat/__main__.py:153-178 | each step does nothing when its own file exists and otherwise calls its collaborator exactly once; only the audio step of an episode without a url raises AttributeError instead. Conversion looks only at the `.mp3` |
| PackageMain.EpisodeStepsOrder | bobcat/__main__.py:144-150 | for an episode with a url and without files, whose downloads complete, the calls are audio, image, ffmpeg in that order |
| PackageMain.AcquireAppend | bobcat/__main__.py:147-150 | episodes run in list order: the second part of a list runs only after the first part completed |
| PackageMain.EpisodeStepsKeep | bobcat/__main__.py:147-150 | one episode's steps keep every file but the temporary one and every metadata cache, and only append calls |
| PackageMain.AcquireKeeps | bobcat/__main__.py:144-150 | a whole run keeps every file but the temporary one and every metadata cache, and only appends calls |
| PackageMain.EpisodeStepsComplete | bobcat/__main__.py:147-178 | with reliable collaborators one episode with a url completes its steps and is left with its audio, image and mp3 |
| PackageMain.AcquireCompletes | bobcat/__main__.py:144-178 | with reliable collaborators a run over episodes with urls completes and every episode has its three files, for ids whose `.mp3` is not `temporary.mp3` |
| PackageMain.AcquireNothingToDo | bobcat/__main__.py:153-178 | when every episode has its three files a run calls nothing and changes nothing |
| PackageMain.RerunIsIdle | bobcat/__main__.py:144-178 | a run over episodes with urls right after a reliable run calls nothing and changes nothing |
| PackageMain.PartialAudioNeverRetried | bobcat/__main__.py:162-168 | a streaming failure that leaves a partial `.m4a` raises, and every later run skips that download |
| PackageMain.DownloadEpisodeAudio | bobcat/__main__.py:162-168 | the directory and outcome are those `AudioStep` specifies |
| PackageMain.DownloadEpisodeImage | bobcat/__main__.py:153-159 | the directory and outcome are those `ImageStep` specifies |
| PackageMain.ConvertEpisodeAudio | bobcat/__main__.py:171-178 | the directory and outcome are those `ConvertStep` specifies |
| PackageMain.AcquireEpisode | bobcat/__main__.py:148-150 | the three steps in order, stopping at an exception, as `EpisodeSteps` specifies |
| PackageMain.DownloadEpisodes | bobcat/__main__.py:144-150 | the loop leaves the directory and outcome that `Acquire` specifies for the episodes in order |
| PackageMain.JsonIdsExact | bobcat/__main__.py:186-188 | an id is loaded exactly when its `.json` file is among the directory entries |
| PackageMain.LoadIdCases | bobcat/__main__.py:96-141 | one id: the empty id raises AttributeError, and a clean record is used as it is. A file that is missing, unreadable, another id's or without `url` leaves the episode without a url, so the fetch raises AttributeError and nothing is written. A partial record with a url assigns it, and the load raises exactly as the fetch with that url does |
| PackageMain.LoadIdFromCacheOnly | bobcat/__main__.py:122-131 | without a partial record one id loads from the cache or raises AttributeError, and writes nothing |
| PackageMain.LoadAllNonEmpty | bobcat/__main__.py:186-191 | a completed load had no empty id |
| PackageMain.LoadAllIsLoadEach | bobcat/__main__.py:181-193 | over non-empty ids `load_episodes` is the shared per-episode load over the episodes made from the ids, with no url |
| PackageMain.LoadAllCoherent | bobcat/__main__.py:181-193 | a completed load yields one episode per id, in order, each with a url; every id's cache holds exactly its episode's fields, and no collaborator was called |
| PackageMain.LoadAllOutcome | bobcat/__main__.py:181-193 | over a directory without partial records `load_episodes` writes nothing, completes exactly when every id is non-empty and its record reads cleanly, and otherwise raises AttributeError |
| PackageMain.LoadAllFromCache | bobcat/__main__.py:181-193 | over ids that are non-empty and read cleanly the load completes, writes nothing, and yields one episode per id, in order, with the cached fields |
| PackageMain.LoadAllStopped | bobcat/__main__.py:186-191 | the first exception ends the loop: once a prefix of the ids raised, the whole list raises in that state |
| PackageMain.LoadEntry | bobcat/__main__.py:187-191 | one entry: a `.json` file gives the episode loaded from its id, any other name gives nothing |
| PackageMain.LoadEpisodes | bobcat/__main__.py:181-193 | the loop yields the episodes, directory and outcome `LoadAll` specifies for the `.json` entries in listing order |
| PackageMain.FilesInFeed | bobcat/__main__.py:247-251 | the loop builds exactly `{podcast.xml, logo.png}` plus each episode's `.mp3` and `.jpg` |
| PackageMain.PublishedKeysTyped | bobcat/__main__.py:244-253 | every key a feed uploads has a content type, so publishing never raises ValueError, and a complete sync leaves the bucket in sync with the feed |
| PackageMain.UploadPodcast | bobcat/__main__.py:244-253 | publishing completes exactly when every file of the feed is in the working directory, and then leaves the bucket's keys equal to the feed's files, each with its local digest, and makes one delete request only if there are stale keys. Otherwise it raises FileNotFoundError, the keys sent before stay, and no delete request is made |
| Script.MadeCases | bobcat.py:226 | episodes are made exactly when every href is present, one per url, in order, with the last segment as id. Otherwise AttributeError |
| Script.MissingHrefAbortsGather | bobcat.py:212-226 | an anchor without `href` raises AttributeError before any metadata is read, and the directory is unchanged |
| Script.MakeEpisodes | bobcat.py:226 | the comprehension makes fresh, distinct episodes exactly as `Made` specifies, or raises its error |
| Script.LoadEachEpisode | bobcat.py:228-229 | the loop leaves the directory, episodes and outcome `LoadEach` specifies |
| Script.GetEpisodes | bobcat.py:202-231 | the episodes and directory are those `Gather` specifies for the collected links |
| Script.AudioStepNeverRaises | bobcat.py:256-273 | the audio step never raises. It does nothing when the `.m4a` exists or the url was never assigned, and otherwise makes exactly one streaming call |
| Script.ConvertStepCases | bobcat.py:276-292 | a missing `.m4a` raises FileNotFound even when the `.mp3` exists. An existing `.mp3` skips the export. Otherwise there is exactly one export, which leaves the `.mp3` when it completes |
| Script.SwallowedAudioErrorResurfaces | bobcat.py:256-292 | a swallowed audio failure that leaves no file, or an episode without a url, makes the conversion raise FileNotFound |
| Script.EpisodeStepsGrow | bobcat.py:237-240 | one episode's steps remove no file, keep every metadata cache, and only append calls |
| Script.AcquireGrows | bobcat.py:234-240 | a run removes no file, keeps every metadata cache, and only appends calls |
| Script.EpisodeStepsComplete | bobcat.py:237-292 | with completing downloads and exports one episode with a url completes its steps and is left with its three files |
| Script.AcquireCompletes | bobcat.py:234-292 | with completing downloads and exports a run over episodes with urls completes and every episode has its three files |
| Script.AcquireNothingToDo | bobcat.py:243-292 | when every episode has its three files a run calls nothing and changes nothing |
| Script.DownloadEpisodeAudio | bobcat.py:256-273 | the directory and outcome are those `AudioStep` specifies |
| Script.ConvertEpisodeAudio | bobcat.py:276-292 | the directory and outcome are those `ConvertStep` specifies |
| Script.AcquireEpisode | bobcat.py:237-240 | the three steps as `EpisodeSteps` specifies |
| Script.DownloadEpisodes | bobcat.py:234-240 | the loop leaves the directory and outcome `Acquire` specifies for the episodes in order |
| Script.PlainObject | bobcat.py:397-402 | an uploaded object is public, typed by its suffix, and has no `md5` |
| Script.PlanCharacterised | bobcat.py:388-392 | upload and delete sets are disjoint and nothing the feed lists is deleted. A key is uploaded exactly when the bucket lacks it or it is `podcast.xml` |
| Script.MirroredIsFeed | bobcat.py:396-410 | after a sync the bucket's keys are the feed's files and the feed was just replaced. Other existing objects are kept even if their file changed |
| Script.RerunUploadsOnlyFeed | bobcat.py:380-410 | a second sync right after the first uploads only `podcast.xml` and deletes nothing |
| Script.UploadPlain | bobcat.py:396-402 | the upload loop completes exactly when every key has a content type and is in the working directory. Otherwise it raises ValueError (always, when every key is local) or FileNotFoundError (always, when every key is typed) after some keys were sent |
| Script.FeedUploadsTyped | bobcat.py:392-400 | every key `sync_with_s3` uploads has a content type |
| Script.SyncFeed | bobcat.py:380-410 | the sync completes exactly when the feed and every feed file the bucket lacks are in the working directory, leaving the mirrored bucket and one delete request only if there are stale keys. Otherwise it raises FileNotFoundError, with no delete request |
| Script.SyncWithS3 | bobcat.py:375-410 | `sync_with_s3` completes exactly when every file it uploads is in the working directory, and then leaves the bucket mirroring the episodes' feed and deletes the stale keys in at most one request. Its only error is FileNotFoundError, after which the keys sent before stay and no delete is made |

## Left out

- Browser automation (`_get_driver`, the login and cookie handling, `clean_up`, `initialise_selenium`) is not modelled. A listing page is given as its anchors' `href` values, and an episode page as its preloaded-state record or its three scraped elements.
- The HTTP, youtube-dl and yt-dlp downloads (`bobcat/download.py`, `bobcat/download/__init__.py`) are collaborators. So are ffmpeg and pydub's export. A `World` says whether each of these calls completes, fails, or fails after writing part of its target. pydub's decoding is not a call the model knows about.
- The digest `_file_md5` is a parameter: a fixed function from file name to digest during a run. Hashing file contents is not modelled; hashing a file that is not in the working directory raises FileNotFoundError.
- Script.ConvertStep: decoding the `.m4a` with `AudioSegment.from_file` (`bobcat.py:279`), and the duration it yields, are not modelled. A decode failure is not a path of the model: with an undecodable `.m4a` and an existing `.mp3` the source raises, while the model passes.
- Audio.DurationInSeconds: `int(float(output))` is given as the probe's whole seconds, because floating point is not modelled. pydub's `duration_seconds` in `bobcat.py` and the duration helpers in `bobcat/audio/__init__.py` and `audio/__init__.py` are not part of this model.
- BbcSounds.GetEpisodeMetadata: the availability date is kept as the page's text. Parsing it with `dateutil` is not modelled, and neither are missing keys in the preloaded state.
- RSS generation (`create_rss_feed`, `bobcat/feed.py`) is library calls on dates and is not modelled.
- The Overcast ping, configuration, database setup, command-line entry points, logging and printing are not part of this model.
- The `published`, `size_in_bytes` and `duration_in_seconds` accessors of the episode classes read file times and sizes, and are not modelled.
- `os.listdir` order is a parameter of `PackageMain.LoadEpisodes`.
- A metadata file that is not JSON, or whose object has no `id` key, is `Malformed`; both raise before any field is assigned, and the bare `except` in `load_metadata` treats them alike. A JSON value that is not a string where a string is expected is not modelled.
- PackageMain.LoadAllOutcome: states the outcome only for directories without partial records (a record for the id with its url but not every later key), because there the load writes nothing. `PackageMain.LoadIdCases` states what a partial record does.
- S3SyncPkg.UploadEach: on a failure it states only that some subset of the planned keys was uploaded, because the iteration order of a Python set is not modelled.
- S3SyncPkg.FilesWithBucket: on a failure it states only that some subset of the planned keys was uploaded, for the same reason.
- Script.UploadPlain: on a failure it states only that some subset of the keys was uploaded, for the same reason.
- Network and permission errors from S3 calls are not modelled. Listing, uploading and deleting always succeed once the local file exists.
- `max_episodes` is an integer. A missing limit (None), which Python would reject in the comparison, is not modelled.
- PackageMain.UploadPodcast: `bobcat/__main__.py:253` passes four arguments (credentials, bucket name, file set) to `files_with_bucket`, which takes only the file set (`bobcat/s3sync/__init__.py:55`). As written, Python raises TypeError before any transfer. The member models the sync the call was meant to run, not the call itself.

=== FILE: audio.dfy ===
/**
 * `bobcat/audio.py`: ffprobe and ffmpeg command lines, and the conversion that
 * writes to a temporary file and renames it onto the output only when ffmpeg
 * exits with 0. The processes are not run; a `World` gives each command's exit
 * code and whether it wrote its output, and a `Probe` gives ffprobe's answer.
 */
module Audio {
  import opened Wrappers
  import opened Store

  /** `TEMP_FILE`: where ffmpeg writes before the rename. */
  const TempFile: string := "temporary.mp3"

  /** The ffprobe options that print a file's duration and nothing else. */
  const ProbeOptions: seq<string> :=
    ["ffprobe", "-loglevel", "error", "-show_entries", "format=duration", "-print_format", "default=noprint_wrappers=1:nokey=1"]

  /** The ffprobe command for a file: the fixed options, then the file. */
  function ProbeCommand(filename: string): seq<string>
  {
    ProbeOptions + [filename]
  }

  /**
   * What ffprobe answers: its exit code, and the whole seconds of the duration
   * it printed (`int(float(output))`), or None when the output is not a number.
   */
  datatype Probe = Probe(exitCode: int, seconds: Option<int>)

  /**
   * `duration_in_seconds(filename)`: None when ffprobe exits non-zero, else the
   * printed duration truncated and plus one. Output that is not a number makes
   * `float` raise ValueError, which the `except KeyError` does not catch.
   */
  method DurationInSeconds(filename: string, probe: seq<string> -> Probe) returns (r: Result<Option<int>, Exc>)
    ensures r == Success(None) <==> probe(ProbeCommand(filename)).exitCode != 0
    ensures probe(ProbeCommand(filename)).exitCode == 0 ==>
              r == match probe(ProbeCommand(filename)).seconds
                   case Some(s) => Success(Some(s + 1))
                   case None => Failure(ValueError)
  {
    var command := ["ffprobe"];
    command := command + ["-loglevel", "error"];
    command := command + ["-show_entries", "format=duration"];
    command := command + ["-print_format", "default=noprint_wrappers=1:nokey=1"];
    command := command + [filename];
    assert command == ProbeCommand(filename);
    var result := probe(command);
    if result.exitCode != 0 {
      return Success(None);
    }
    match result.seconds {
      case Some(s) => r := Success(Some(s + 1));
      case None => r := Failure(ValueError);
    }
  }

  /** `'title={0}'.format(title)`: Python formats a missing title as `None`. */
  function TitleArgument(title: Option<string>): string
  {
    "title=" + match title case Some(t) => t case None => "None"
  }

  /** The ffmpeg command that converts `input` to a 128k CBR MP3 with `cover` as its art. */
  function ConvertCommand(input: string, cover: string, title: Option<string>): seq<string>
  {
    ["ffmpeg", "-y", "-i", input, "-i", cover, "-map", "0", "-map", "1",
     "-b:a", "128k", "-f", "mp3", "-codec:v", "mjpeg",
     "-metadata", TitleArgument(title), "-write_xing", "0", "-hide_banner", "-nostdin", TempFile]
  }

  /**
   * The command begins with the two inputs, names the title through
   * `-metadata`, and writes to the temporary file, last, whatever the output
   * name: ffmpeg never writes the output itself.
   */
  lemma ConvertCommandShape(input: string, cover: string, title: Option<string>)
    ensures ConvertCommand(input, cover, title)[..6] == ["ffmpeg", "-y", "-i", input, "-i", cover]
    ensures ConvertCommand(input, cover, title)[16] == "-metadata"
    ensures ConvertCommand(input, cover, title)[17] == TitleArgument(title)
    ensures TitleArgument(title)[..6] == "title="
    ensures title.Some? ==> TitleArgument(title)[6..] == title.value
    ensures Target(Ffmpeg(ConvertCommand(input, cover, title))) == TempFile
  {
  }

  /**
   * `convert_to_mp3`: run ffmpeg; on a non-zero exit raise CalledProcessError
   * and leave everything else as ffmpeg left it; on 0 rename the temporary
   * file onto the output.
   */
  function Converted(d: DirState, input: string, output: string, cover: string, title: Option<string>, w: World): Step
  {
    var command := ConvertCommand(input, cover, title);
    var ran := AfterCall(d, Ffmpeg(command), w).dir;
    var exitCode := w.ffmpeg(command).exitCode;
    if exitCode != 0 then Step(ran, Fail(CalledProcessError(exitCode)))
    else AfterRename(ran, TempFile, output)
  }

  /**
   * A failed conversion raises CalledProcessError with ffmpeg's exit code and
   * does not touch the output path: the output is present, with the same
   * content, exactly when it was before.
   */
  lemma ConvertFailureKeepsOutput(d: DirState, input: string, output: string, cover: string, title: Option<string>, w: World)
    requires w.ffmpeg(ConvertCommand(input, cover, title)).exitCode != 0
    requires output != TempFile
    ensures var s := Converted(d, input, output, cover, title, w);
      s.outcome == Fail(CalledProcessError(w.ffmpeg(ConvertCommand(input, cover, title)).exitCode)) &&
      (output in s.dir.files <==> output in d.files) && Read(s.dir, output) == Read(d, output)
  {
    var command := ConvertCommand(input, cover, title);
    assert Target(Ffmpeg(command)) == TempFile;
  }

  /**
   * A successful conversion commits: after an exit code of 0 the output is
   * present and the temporary file is gone. It fails with FileNotFound only
   * when there is no temporary file to rename.
   */
  lemma ConvertSuccessCommits(d: DirState, input: string, output: string, cover: string, title: Option<string>, w: World)
    requires w.ffmpeg(ConvertCommand(input, cover, title)).exitCode == 0
    ensures var s := Converted(d, input, output, cover, title, w);
      (s.outcome == Pass <==> w.ffmpeg(ConvertCommand(input, cover, title)).wroteOutput || TempFile in d.files) &&
      (s.outcome == Pass ==> output in s.dir.files && (output != TempFile ==> TempFile !in s.dir.files)) &&
      (s.outcome != Pass ==> s.outcome == Fail(FileNotFound))
  {
    var command := ConvertCommand(input, cover, title);
    assert Target(Ffmpeg(command)) == TempFile;
  }

  /** Converting runs ffmpeg exactly once, with the conversion command, and calls nothing else. */
  lemma ConvertCallsFfmpegOnce(d: DirState, input: string, output: string, cover: string, title: Option<string>, w: World)
    ensures Converted(d, input, output, cover, title, w).dir.calls == d.calls + [Ffmpeg(ConvertCommand(input, cover, title))]
  {
  }

  /** The argument list `convert_to_mp3` builds, one option group at a time. */
  method BuildCommand(input: string, cover: string, title: Option<string>) returns (command: seq<string>)
    ensures command == ConvertCommand(input, cover, title)
  {
    command := ["ffmpeg"];
    command := command + ["-y"];
    command := command + ["-i", input];
    command := command + ["-i", cover];
    command := command + ["-map", "0"];
    command := command + ["-map", "1"];
    command := command + ["-b:a", "128k"];
    command := command + ["-f", "mp3"];
    command := command + ["-codec:v", "mjpeg"];
    command := command + ["-metadata", TitleArgument(title)];
    command := command + ["-write_xing", "0"];
    command := command + ["-hide_banner"];
    command := command + ["-nostdin"];
    command := command + [TempFile];
  }

  /** `convert_to_mp3(input, output, cover_art, title)` */
  method ConvertToMp3(dir: WorkDir, input: string, output: string, cover: string, title: Option<string>, w: World)
      returns (out: Outcome<Exc>)
    requires dir.Valid()
    modifies dir
    ensures dir.Valid()
    ensures Step(dir.State(), out) == Converted(old(dir.State()), input, output, cover, title, w)
  {
    var command := BuildCommand(input, cover, title);
    var _ := dir.Invoke(Ffmpeg(command), w);
    var exitCode := w.ffmpeg(command).exitCode;
    if exitCode != 0 {
      return Fail(CalledProcessError(exitCode));
    }
    out := dir.Rename(TempFile, output);
  }
}

=== FILE: bbcsounds.dfy ===
/**
 * `bobcat/bbc_sounds.py`: the episode links of the subscribed shows, read page
 * by page from "My Sounds", and an episode's metadata, read from the page's
 * preloaded state. The browser is not modelled: a listing page is given as the
 * `href` attributes of its episode anchors (None when an anchor has none), and
 * an episode page as its `Programme` record.
 */
module BbcSounds {
  import opened Wrappers
  import opened Text
  import opened Pagination

  /** The links an anchor list contributes: every `href` that is present and not empty, in order. */
  function Hrefs(anchors: seq<Option<string>>): (hrefs: seq<string>)
    ensures |hrefs| <= |anchors|
    ensures forall i | 0 <= i < |hrefs| :: hrefs[i] != ""
  {
    if anchors == [] then []
    else Hrefs(anchors[..|anchors| - 1]) + KeptHref(anchors[|anchors| - 1])
  }

  /** `if href:` keeps a present, non-empty attribute. */
  function KeptHref(href: Option<string>): seq<string>
  {
    match href
    case Some(h) => if h != "" then [h] else []
    case None => []
  }

  /** A link is kept exactly when some anchor carries it and it is not empty. */
  lemma {:induction false} HrefsMembership(anchors: seq<Option<string>>, h: string)
    ensures h in Hrefs(anchors) <==> h != "" && Some(h) in anchors
    decreases |anchors|
  {
    if anchors != [] {
      var init := anchors[..|anchors| - 1];
      HrefsMembership(init, h);
      assert anchors == init + [anchors[|anchors| - 1]];
    }
  }

  /** A page counts as empty exactly when none of its anchors has a usable link. */
  lemma HrefsEmpty(anchors: seq<Option<string>>)
    ensures Hrefs(anchors) == [] <==> forall i | 0 <= i < |anchors| :: anchors[i] == None || anchors[i] == Some("")
  {
    if Hrefs(anchors) == [] {
      forall i | 0 <= i < |anchors| ensures anchors[i] == None || anchors[i] == Some("") {
        if anchors[i].Some? {
          HrefsMembership(anchors, anchors[i].value);
        }
      }
    } else {
      var h := Hrefs(anchors)[0];
      HrefsMembership(anchors, h);
      var i :| 0 <= i < |anchors| && anchors[i] == Some(h);
    }
  }

  /** Every listing page reduced to its kept links. */
  function FilteredPages(pages: seq<seq<Option<string>>>): (fp: seq<seq<string>>)
    ensures |fp| == |pages|
  {
    if pages == [] then [] else [Hrefs(pages[0])] + FilteredPages(pages[1..])
  }

  /** Each page of links is its anchor page filtered. */
  lemma {:induction false} FilteredPageAt(pages: seq<seq<Option<string>>>, i: nat)
    requires i < |pages|
    ensures FilteredPages(pages)[i] == Hrefs(pages[i])
    decreases i
  {
    if i > 0 {
      FilteredPageAt(pages[1..], i - 1);
    }
  }

  /** The anchors of one page reduced to their usable links, in order. */
  method PageLinks(anchors: seq<Option<string>>) returns (links: seq<string>)
    ensures links == Hrefs(anchors)
  {
    links := [];
    for j := 0 to |anchors|
      invariant links == Hrefs(anchors[..j])
    {
      var href := anchors[j];
      assert anchors[..j + 1][..j] == anchors[..j];
      if href.Some? && href.value != "" {
        links := links + [href.value];
      }
    }
    assert anchors[..|anchors|] == anchors;
  }

  /** Opening page `page` of the listing and keeping its usable links. */
  method OpenPage(pages: seq<seq<Option<string>>>, page: nat) returns (pageUrls: seq<string>)
    ensures pageUrls == PageAt(FilteredPages(pages), page)
  {
    var locations := PageAt(pages, page);
    pageUrls := PageLinks(locations);
    if 1 <= page <= |pages| {
      FilteredPageAt(pages, page - 1);
    }
  }

  /**
   * `get_episode_urls(max_episodes)`: opens pages 1, 2, ... in turn and keeps
   * each page's usable links; stops at the first page without one, or once at
   * least `max_episodes` links are held, which are then cut to `[:max_episodes]`.
   * Pages are opened in order from page 1 to page `lastPage`.
   */
  method GetEpisodeUrls(pages: seq<seq<Option<string>>>, maxEpisodes: int) returns (urls: seq<string>, lastPage: nat)
    ensures urls == Collected(FilteredPages(pages), maxEpisodes)
    ensures forall i | 0 <= i < |urls| :: urls[i] != ""
    ensures 1 <= lastPage <= |pages| + 1
    ensures forall i | 0 <= i < lastPage - 1 :: FilteredPages(pages)[i] != []
    ensures PageAt(FilteredPages(pages), lastPage) == [] || |Flatten(FilteredPages(pages)[..lastPage])| >= maxEpisodes
  {
    ghost var fp := FilteredPages(pages);
    urls := [];
    var page := 0;
    while true
      invariant 0 <= page <= |pages|
      invariant forall i | 0 <= i < page :: fp[i] != []
      invariant urls == Flatten(fp[..page])
      invariant page > 0 ==> |urls| < maxEpisodes
      decreases |pages| - page
    {
      page := page + 1;
      var pageUrls := OpenPage(pages, page);
      if |pageUrls| == 0 {
        StopAtEmptyPage(fp, page - 1, urls, maxEpisodes);
        break;
      }
      FlattenNext(fp, page - 1);
      urls := urls + pageUrls;
      if |urls| >= maxEpisodes {
        assert |Flatten(fp[..page])| >= maxEpisodes;
        StopAtLimit(fp, page - 1, urls, maxEpisodes);
        urls := PyPrefix(urls, maxEpisodes);
        break;
      }
    }
    lastPage := page;
    CollectedLinksNonEmpty(pages, maxEpisodes);
  }

  /** No link returned is empty. */
  lemma CollectedLinksNonEmpty(pages: seq<seq<Option<string>>>, max: int)
    ensures forall i | 0 <= i < |Collected(FilteredPages(pages), max)| :: Collected(FilteredPages(pages), max)[i] != ""
  {
    var fp := FilteredPages(pages);
    CollectedIsPrefix(fp, max);
    UpToFirstEmptyIsPrefix(fp);
    var kept := UpToFirstEmpty(fp);
    forall i | 0 <= i < |kept| ensures kept[i] == Hrefs(pages[i]) {
      FilteredPageAt(pages, i);
    }
    FlattenNonEmpty(kept);
  }

  /** Links taken from pages of non-empty links are all non-empty. */
  lemma {:induction false} FlattenNonEmpty(pages: seq<seq<string>>)
    requires forall i, j | 0 <= i < |pages| && 0 <= j < |pages[i]| :: pages[i][j] != ""
    ensures forall k | 0 <= k < |Flatten(pages)| :: Flatten(pages)[k] != ""
    decreases |pages|
  {
    if pages != [] {
      FlattenNonEmpty(pages[1..]);
    }
  }

  /** The titles of a programme: a primary title and two optional ones. */
  datatype Titles = Titles(primary: string, secondary: Option<string>, tertiary: Option<string>)

  /** The three synopses of a programme, any of which may be null. */
  datatype Synopses = Synopses(long: Option<string>, medium: Option<string>, short: Option<string>)

  /**
   * `window.__PRELOADED_STATE__['programmes']['current']`: the titles, the
   * synopses, the image url template with its `{recipe}` placeholder, and the
   * availability start as the page writes it.
   */
  datatype Programme = Programme(titles: Titles, synopses: Synopses, imageUrl: string, availableFrom: string)

  /** `synopses[kind]` */
  function SynopsisOf(s: Synopses, kind: string): Option<string>
  {
    if kind == "long" then s.long else if kind == "medium" then s.medium else s.short
  }

  /** The dictionary an episode page yields, with the keys `title`, `synopsis`, `image_url` and `availability_from`. */
  datatype EpisodeMetadata = EpisodeMetadata(title: string, synopsis: Option<string>, imageUrl: string, availableFrom: string)

  /** The size of image the episode artwork is requested in. */
  const Recipe: string := "1600x1600"

  /** The titles joined by " - ", the optional ones only when present. */
  function FullTitle(t: Titles): string
  {
    t.primary + (if t.secondary.Some? then " - " + t.secondary.value else "")
              + (if t.tertiary.Some? then " - " + t.tertiary.value else "")
  }

  /**
   * The joined title begins with the primary title, is exactly the primary
   * title when there is nothing to add, and otherwise continues with " - ".
   */
  lemma FullTitleShape(t: Titles)
    ensures |FullTitle(t)| >= |t.primary| && FullTitle(t)[..|t.primary|] == t.primary
    ensures FullTitle(t) == t.primary <==> t.secondary.None? && t.tertiary.None?
    ensures t.secondary.Some? ==> FullTitle(t)[|t.primary|..|t.primary| + 3] == " - "
    ensures t.secondary.Some? && t.tertiary.None? ==> FullTitle(t) == t.primary + " - " + t.secondary.value
  {
    if t.secondary.Some? || t.tertiary.Some? {
      assert |FullTitle(t)| > |t.primary|;
    }
  }

  /** The title: the primary one, then the secondary and the tertiary ones when present. */
  method JoinTitles(titles: Titles) returns (title: string)
    ensures title == FullTitle(titles)
  {
    title := titles.primary;
    if titles.secondary.Some? {
      title := title + " - " + titles.secondary.value;
    }
    if titles.tertiary.Some? {
      title := title + " - " + titles.tertiary.value;
    }
  }

  /**
   * The synopsis loop: the description is the first present synopsis among
   * long, medium and short. The loop variable `synopsis` survives the loop; it
   * holds the description after a `break`, and the short synopsis, None, when
   * no synopsis was present. So the two are always equal.
   */
  method ChooseSynopsis(synopses: Synopses) returns (description: Option<string>, synopsis: Option<string>)
    ensures synopsis == description
    ensures description.None? <==> synopses.long.None? && synopses.medium.None? && synopses.short.None?
    ensures synopses.long.Some? ==> description == synopses.long
    ensures synopses.long.None? && synopses.medium.Some? ==> description == synopses.medium
    ensures synopses.long.None? && synopses.medium.None? ==> description == synopses.short
  {
    description := None;
    var kinds := ["long", "medium", "short"];
    assert SynopsisOf(synopses, kinds[0]) == synopses.long;
    assert SynopsisOf(synopses, kinds[1]) == synopses.medium;
    assert SynopsisOf(synopses, kinds[2]) == synopses.short;
    synopsis := None;
    var i := 0;
    while i < |kinds|
      invariant 0 <= i <= |kinds|
      invariant description == None
      invariant forall j | 0 <= j < i :: SynopsisOf(synopses, kinds[j]) == None
      invariant i > 0 ==> synopsis == SynopsisOf(synopses, kinds[i - 1])
    {
      synopsis := SynopsisOf(synopses, kinds[i]);
      if synopsis.Some? {
        description := synopsis;
        break;
      }
      i := i + 1;
    }
  }

  /** The artwork url: the template with every `{recipe}` replaced by the full size, leaving none. */
  function FullSizeImageUrl(template: string): (url: string)
    ensures !Contains(url, "{recipe}")
    ensures !Contains(template, "{recipe}") ==> url == template
  {
    ReplaceAllRemoves(template, "{recipe}", Recipe);
    if Contains(template, "{recipe}") then ReplaceAll(template, "{recipe}", Recipe)
    else ReplaceAllIdentity(template, "{recipe}", Recipe); ReplaceAll(template, "{recipe}", Recipe)
  }

  /**
   * The first `{recipe}` of the template becomes the full-size recipe, the
   * text before it is kept, and the rest of the template is filled in turn.
   */
  lemma FullSizeImageUrlAt(a: string, b: string)
    requires forall i | 0 <= i < |a| :: !OccursAt(a + "{recipe}" + b, "{recipe}", i)
    ensures FullSizeImageUrl(a + "{recipe}" + b) == a + Recipe + FullSizeImageUrl(b)
  {
    ReplaceAllAt(a, "{recipe}", b, Recipe);
  }

  /**
   * `get_episode_metadata(url)`: the title, the first present synopsis (None
   * when there is none, the dictionary entry equal to the description), the
   * artwork url at full size, and the availability start.
   */
  method GetEpisodeMetadata(url: string, load: string -> Programme) returns (m: EpisodeMetadata)
    ensures m.title == FullTitle(load(url).titles)
    ensures var s := load(url).synopses;
      && (m.synopsis.None? <==> s.long.None? && s.medium.None? && s.short.None?)
      && (s.long.Some? ==> m.synopsis == s.long)
      && (s.long.None? && s.medium.Some? ==> m.synopsis == s.medium)
      && (s.long.None? && s.medium.None? ==> m.synopsis == s.short)
    ensures m.imageUrl == FullSizeImageUrl(load(url).imageUrl)
    ensures m.availableFrom == load(url).availableFrom
  {
    var programme := load(url);
    var title := JoinTitles(programme.titles);
    var description, synopsis := ChooseSynopsis(programme.synopses);
    var imageUrl := FullSizeImageUrl(programme.imageUrl);
    m := EpisodeMetadata(title, synopsis, imageUrl, programme.availableFrom);
  }

  /** The metadata as the dictionary the caller indexes, every value a string or None. */
  function MetadataDict(m: EpisodeMetadata): (d: map<string, Option<string>>)
    ensures d.Keys == {"title", "synopsis", "image_url", "availability_from"}
    ensures "description" !in d
    ensures d["title"] == Some(m.title) && d["synopsis"] == m.synopsis && d["image_url"] == Some(m.imageUrl)
  {
    map["title" := Some(m.title), "synopsis" := m.synopsis, "image_url" := Some(m.imageUrl),
        "availability_from" := Some(m.availableFrom)]
  }
}

=== FILE: bbcsoundspkg.dfy ===
/**
 * `bobcat/bbc_sounds/__init__.py`: the earlier version of the BBC Sounds
 * reader. Its listing loop keeps every anchor's `href` attribute as it is,
 * absent ones included, so a page counts as empty only when it has no anchors.
 * Its `get_episode_metadata` is the same as the later one's and is modelled
 * once, by `BbcSounds.GetEpisodeMetadata`.
 */
module BbcSoundsPkg {
  import opened Wrappers
  import opened Text
  import opened Pagination
  import BbcSounds

  /**
   * `get_episode_urls(max_episodes)`: opens pages 1, 2, ... in turn, appends
   * every anchor's attribute, stops at the first page without anchors or once
   * at least `max_episodes` attributes are held, then cuts to `[:max_episodes]`.
   * Pages are opened in order from page 1 to page `lastPage`.
   */
  method GetEpisodeUrls(pages: seq<seq<Option<string>>>, maxEpisodes: int) returns (urls: seq<Option<string>>, lastPage: nat)
    ensures urls == Collected(pages, maxEpisodes)
    ensures 1 <= lastPage <= |pages| + 1
    ensures forall i | 0 <= i < lastPage - 1 :: pages[i] != []
    ensures PageAt(pages, lastPage) == [] || |Flatten(pages[..lastPage])| >= maxEpisodes
  {
    urls := [];
    var page := 0;
    while true
      invariant 0 <= page <= |pages|
      invariant forall i | 0 <= i < page :: pages[i] != []
      invariant urls == Flatten(pages[..page])
      invariant page > 0 ==> |urls| < maxEpisodes
      decreases |pages| - page
    {
      page := page + 1;
      var pageUrls := PageAt(pages, page);
      if |pageUrls| == 0 {
        StopAtEmptyPage(pages, page - 1, urls, maxEpisodes);
        break;
      }
      FlattenNext(pages, page - 1);
      urls := urls + pageUrls;
      if |urls| >= maxEpisodes {
        assert |Flatten(pages[..page])| >= maxEpisodes;
        StopAtLimit(pages, page - 1, urls, maxEpisodes);
        urls := PyPrefix(urls, maxEpisodes);
        break;
      }
    }
    lastPage := page;
  }

  /**
   * The two versions part ways on an anchor without `href`: the earlier one
   * returns it as None and reads on, the later one treats its page as empty
   * and stops there.
   */
  lemma MissingHrefSeparatesVersions()
    ensures Collected([[None], [Some("a")]], 10) == [None, Some("a")]
    ensures Collected(BbcSounds.FilteredPages([[None], [Some("a")]]), 10) == []
  {
    var pages: seq<seq<Option<string>>> := [[None], [Some("a")]];
    assert pages[1..][1..] == [];
    assert UpToFirstEmpty(pages) == pages;
    assert Flatten(pages) == [None] + Flatten(pages[1..]);
    assert BbcSounds.Hrefs([None]) == BbcSounds.Hrefs([]) + [];
    assert BbcSounds.FilteredPages(pages)[0] == [];
  }
}

=== FILE: episodes.dfy ===
/**
 * The `Episode` class of `bobcat/__main__.py` and of `bobcat.py`: an episode
 * identified by an id taken from its url or given directly, four descriptive
 * fields, and a metadata cache in `{id}.json` that is read when it can be and
 * otherwise refilled from the website.
 *
 * The two files' classes agree on the id rule, the file names and the cache;
 * they differ in where `_fetch_metadata` gets its data. `__main__.py` indexes
 * the dictionary `bbc_sounds.get_episode_metadata` returns; `bobcat.py` scrapes
 * three elements off the episode page. A `Source` says which, and what the
 * website answers.
 */
module Episodes {
  import opened Wrappers
  import opened Text
  import opened Filenames
  import opened Store
  import BbcSounds

  /**
   * The fields an episode describes itself with. The url is an `Entry`: an
   * episode made from an id has none until a metadata file assigns one, and
   * a record may hold a JSON null there. Title, description and image url
   * start as None.
   */
  datatype Fields = Fields(url: Entry, title: Option<string>, description: Option<string>, imageUrl: Option<string>)

  /** The fields of an episode made from an id: no url, and None for the rest. */
  const NoFields := Fields(Missing, None, None, None)

  /** An episode's id and fields at one moment. */
  datatype Snapshot = Snapshot(id: string, fields: Fields)

  /** The record `_write_metadata_file` serialises; with a url assigned it has every key. */
  function RecordOf(id: string, f: Fields): (rec: Record)
    ensures rec.id == id
    ensures f.url.Present? ==> Complete(rec)
  {
    Record(id, f.url, Present(f.title), Present(f.description), Present(f.imageUrl))
  }

  /** The fields a complete record gives an episode. */
  function FieldsOf(rec: Record): (f: Fields)
    requires Complete(rec)
    ensures f.url.Present?
  {
    Fields(rec.url, rec.title.value, rec.description.value, rec.imageUrl.value)
  }

  /** The fields after a method that assigns them one at a time, and whether it completed. */
  datatype Assigned = Assigned(fields: Fields, outcome: Outcome<Exc>)

  /**
   * `_read_metadata_file`, starting from fields `f`. A missing or unreadable
   * file raises, and so does a record written for another id, with
   * ValueError, before anything is assigned. Then `url`, `title`,
   * `description` and `image_url` are assigned in that order, and the first
   * key the record lacks raises KeyError with the earlier ones assigned.
   */
  function ReadFile(d: DirState, id: string, f: Fields): Assigned
  {
    match Read(d, MetadataFilename(id))
    case Failure(e) => Assigned(f, Fail(e))
    case Success(rec) =>
      if rec.id != id then Assigned(f, Fail(ValueError))
      else if rec.url.Missing? then Assigned(f, Fail(KeyError))
      else
        var f1 := f.(url := rec.url);
        if rec.title.Missing? then Assigned(f1, Fail(KeyError))
        else
          var f2 := f1.(title := rec.title.value);
          if rec.description.Missing? then Assigned(f2, Fail(KeyError))
          else
            var f3 := f2.(description := rec.description.value);
            if rec.imageUrl.Missing? then Assigned(f3, Fail(KeyError))
            else Assigned(f3.(imageUrl := rec.imageUrl.value), Pass)
  }

  /**
   * What reading `{id}.json` yields as a whole: the fields of a complete
   * record written for this id, or the error that stops the read.
   */
  function ReadInto(d: DirState, id: string): Result<Fields, Exc>
  {
    match Read(d, MetadataFilename(id))
    case Failure(e) => Failure(e)
    case Success(rec) =>
      if rec.id != id then Failure(ValueError)
      else if !Complete(rec) then Failure(KeyError)
      else Success(FieldsOf(rec))
  }

  /**
   * Reading succeeds exactly when the file holds a complete record for this
   * id, and then yields that record's fields, url included; a record for
   * another id raises ValueError, a record lacking a key KeyError.
   */
  lemma ReadIntoCases(d: DirState, id: string)
    ensures var r := Read(d, MetadataFilename(id));
      ReadInto(d, id).Success? <==> r.Success? && r.value.id == id && Complete(r.value)
    ensures ReadInto(d, id).Success? ==>
              RecordOf(id, ReadInto(d, id).value) == Read(d, MetadataFilename(id)).value && ReadInto(d, id).value.url.Present?
    ensures var r := Read(d, MetadataFilename(id));
      r.Success? && r.value.id != id ==> ReadInto(d, id) == Failure(ValueError)
    ensures var r := Read(d, MetadataFilename(id));
      r.Success? && r.value.id == id && !Complete(r.value) ==> ReadInto(d, id) == Failure(KeyError)
    ensures MetadataFilename(id) !in d.files ==> ReadInto(d, id) == Failure(FileNotFound)
  {
  }

  /**
   * The read completes exactly when the record reads cleanly, and then the
   * fields are the record's whatever they were before; when it raises, the
   * error is the clean read's, and nothing is assigned unless the record is
   * this id's and has its url.
   */
  lemma ReadFileCases(d: DirState, id: string, f: Fields)
    ensures ReadFile(d, id, f).outcome.Pass? <==> ReadInto(d, id).Success?
    ensures ReadInto(d, id).Success? ==> ReadFile(d, id, f).fields == ReadInto(d, id).value
    ensures ReadInto(d, id).Failure? ==> ReadFile(d, id, f).outcome == Fail(ReadInto(d, id).error)
    ensures ReadInto(d, id).Failure? && ReadInto(d, id).error != KeyError ==> ReadFile(d, id, f).fields == f
    ensures var r := Read(d, MetadataFilename(id));
      !(r.Success? && r.value.id == id && r.value.url.Present?) ==> ReadFile(d, id, f).fields == f
  {
  }

  /**
   * For a record written for this id, each key is assigned exactly when it
   * and every key before it are there; the others keep their old values.
   */
  lemma ReadFileInOrder(d: DirState, id: string, f: Fields, rec: Record)
    requires Read(d, MetadataFilename(id)) == Success(rec) && rec.id == id
    ensures var g := ReadFile(d, id, f).fields;
      && g.url == (if rec.url.Present? then rec.url else f.url)
      && g.title == (if rec.url.Present? && rec.title.Present? then rec.title.value else f.title)
      && g.description == (if rec.url.Present? && rec.title.Present? && rec.description.Present?
                           then rec.description.value else f.description)
      && g.imageUrl == (if Complete(rec) then rec.imageUrl.value else f.imageUrl)
  {
  }

  /**
   * `_write_metadata_file`: reading an unassigned url raises AttributeError
   * before the file is opened; otherwise the record replaces the file.
   */
  function Written(d: DirState, id: string, f: Fields): Step
  {
    if f.url.Missing? then Step(d, Fail(AttributeError))
    else Step(Write(d, MetadataFilename(id), RecordOf(id, f)), Pass)
  }

  /**
   * Writing an episode's record and reading it back restores url, title,
   * description and image url; without a url nothing is written.
   */
  lemma WriteThenReadRestores(d: DirState, id: string, f: Fields)
    ensures f.url.Missing? ==> Written(d, id, f) == Step(d, Fail(AttributeError))
    ensures f.url.Present? ==> Written(d, id, f).outcome == Pass && ReadInto(Written(d, id, f).dir, id) == Success(f)
    ensures f.url.Present? ==> ReadFile(Written(d, id, f).dir, id, NoFields) == Assigned(f, Pass)
  {
  }

  /** Writing one episode's record leaves every other episode's metadata file as it was. */
  lemma WriteLeavesOtherCaches(d: DirState, id: string, f: Fields, other: string)
    requires other != id
    ensures Read(Written(d, id, f).dir, MetadataFilename(other)) == Read(d, MetadataFilename(other))
    ensures ReadInto(Written(d, id, f).dir, other) == ReadInto(d, other)
  {
    FilenamesInjective(id, other);
  }

  /** The three elements `bobcat.py` reads off an episode page: heading text, synopsis text, image `src`. */
  datatype Page = Page(heading: string, synopsis: string, imageSrc: Option<string>)

  /** Where `_fetch_metadata` gets its data. */
  datatype Source =
    | SoundsDict(get: Option<string> -> Result<map<string, Option<string>>, Exc>)  // `bbc_sounds.get_episode_metadata(url)`
    | Scraper(scrape: Option<string> -> Result<Page, Exc>)                          // the page's three elements

  /** `title[:-13]` after a title ends with " - BBC Sounds": exactly that one suffix is removed. */
  function CleanTitle(heading: string): (title: string)
    ensures title == StripSuffix(heading, " - BBC Sounds")
  {
    if EndsWith(heading, " - BBC Sounds") then PyPrefix(heading, -13) else heading
  }

  /** `description[:-10]` after a synopsis ends with " Read less": exactly that one suffix is removed. */
  function CleanDescription(synopsis: string): (description: string)
    ensures description == StripSuffix(synopsis, " Read less")
  {
    if EndsWith(synopsis, " Read less") then PyPrefix(synopsis, -10) else synopsis
  }

  /** The image at 1600x1600 instead of 320x320: every `320x320` is replaced and none is left. */
  function BetterImageUrl(src: string): (url: string)
    ensures !Contains(url, "320x320")
    ensures !Contains(src, "320x320") ==> url == src
  {
    ReplaceAllRemoves(src, "320x320", "1600x1600");
    if Contains(src, "320x320") then ReplaceAll(src, "320x320", "1600x1600")
    else ReplaceAllIdentity(src, "320x320", "1600x1600"); ReplaceAll(src, "320x320", "1600x1600")
  }

  /**
   * The first `320x320` of the url becomes `1600x1600`, the text before it is
   * kept, and the rest of the url is upgraded in turn.
   */
  lemma BetterImageUrlAt(a: string, b: string)
    requires forall i | 0 <= i < |a| :: !OccursAt(a + "320x320" + b, "320x320", i)
    ensures BetterImageUrl(a + "320x320" + b) == a + "1600x1600" + BetterImageUrl(b)
  {
    ReplaceAllAt(a, "320x320", b, "1600x1600");
  }

  /**
   * `_fetch_metadata`. Without a url it raises AttributeError; a url of None
   * is passed on, and the website answers for it. From the dictionary,
   * `title`, `description` and `image_url` are assigned in that order, and a
   * missing key raises KeyError after the earlier ones were assigned. From
   * the page, the heading and synopsis lose their trailing " - BBC Sounds"
   * and " Read less", the image url is upgraded, and all three are assigned
   * together; a missing `src` raises AttributeError first.
   */
  function Fetched(f: Fields, src: Source): Assigned
  {
    if f.url.Missing? then Assigned(f, Fail(AttributeError))
    else match src
      case SoundsDict(get) =>
        (match get(f.url.value)
         case Failure(e) => Assigned(f, Fail(e))
         case Success(m) =>
           if "title" !in m then Assigned(f, Fail(KeyError))
           else
             var f1 := f.(title := m["title"]);
             if "description" !in m then Assigned(f1, Fail(KeyError))
             else
               var f2 := f1.(description := m["description"]);
               if "image_url" !in m then Assigned(f2, Fail(KeyError))
               else Assigned(f2.(imageUrl := m["image_url"]), Pass))
      case Scraper(scrape) =>
        match scrape(f.url.value)
        case Failure(e) => Assigned(f, Fail(e))
        case Success(p) =>
          if p.imageSrc.None? then Assigned(f, Fail(AttributeError))
          else Assigned(f.(title := Some(CleanTitle(p.heading)), description := Some(CleanDescription(p.synopsis)),
                           imageUrl := Some(BetterImageUrl(p.imageSrc.value))), Pass)
  }

  /**
   * Fetching never changes the url, and a fetch that completes leaves no
   * descriptive field unassigned by the page scraper; a fetch that raises
   * from the page scraper changes nothing.
   */
  lemma FetchedKeepsUrl(f: Fields, src: Source)
    ensures Fetched(f, src).fields.url == f.url
    ensures f.url.Missing? ==> Fetched(f, src) == Assigned(f, Fail(AttributeError))
    ensures src.Scraper? && Fetched(f, src).outcome.Fail? ==> Fetched(f, src).fields == f
    ensures src.Scraper? && Fetched(f, src).outcome.Pass? ==>
              Fetched(f, src).fields.title.Some? && Fetched(f, src).fields.description.Some? && Fetched(f, src).fields.imageUrl.Some?
  {
  }

  /**
   * `__main__.py` indexes the dictionary with `description`, but the
   * dictionary `bbc_sounds.get_episode_metadata` builds names the synopsis
   * `synopsis`: against it the fetch assigns the title and then raises KeyError.
   */
  lemma DictionaryFetchMissesDescription(f: Fields, m: BbcSounds.EpisodeMetadata)
    requires f.url.Present?
    ensures Fetched(f, SoundsDict(u => Success(BbcSounds.MetadataDict(m)))) == Assigned(f.(title := Some(m.title)), Fail(KeyError))
  {
    var d := BbcSounds.MetadataDict(m);
    assert "title" in d && "description" !in d;
  }

  /** `load_metadata`'s effect: the directory and fields after it, and whether it completed. */
  datatype Loaded = Loaded(dir: DirState, fields: Fields, outcome: Outcome<Exc>)

  /**
   * `load_metadata`: read the metadata file; on any failure fetch from the
   * website with the fields as the read left them and, when that completes,
   * write a fresh record. An error from the fetch or the write propagates.
   */
  function LoadedMetadata(d: DirState, id: string, f: Fields, src: Source): Loaded
  {
    var read := ReadFile(d, id, f);
    if read.outcome.Pass? then Loaded(d, read.fields, Pass)
    else
      var fetch := Fetched(read.fields, src);
      if fetch.outcome.Fail? then Loaded(d, fetch.fields, fetch.outcome)
      else
        var written := Written(d, id, fetch.fields);
        Loaded(written.dir, fetch.fields, written.outcome)
  }

  /** A record that reads cleanly is used as it is: the website is not asked and nothing is written. */
  lemma LoadKeepsCache(d: DirState, id: string, f: Fields, src: Source)
    requires ReadInto(d, id).Success?
    ensures LoadedMetadata(d, id, f, src) == Loaded(d, ReadInto(d, id).value, Pass)
  {
    ReadFileCases(d, id, f);
  }

  /**
   * After a completed load the episode has a url and the cache holds exactly
   * its fields; only its own metadata file was touched, and no collaborator
   * was called.
   */
  lemma LoadCacheCoherent(d: DirState, id: string, f: Fields, src: Source)
    ensures var r := LoadedMetadata(d, id, f, src);
      && (r.outcome.Pass? ==> ReadInto(r.dir, id) == Success(r.fields) && r.fields.url.Present?)
      && (forall n | n != MetadataFilename(id) :: Read(r.dir, n) == Read(d, n))
      && r.dir.files <= d.files + {MetadataFilename(id)}
      && r.dir.calls == d.calls
      && (Consistent(d) ==> Consistent(r.dir))
  {
    ReadFileCases(d, id, f);
    ReadIntoCases(d, id);
    var read := ReadFile(d, id, f);
    if read.outcome.Fail? {
      FetchedKeepsUrl(read.fields, src);
      WriteThenReadRestores(d, id, Fetched(read.fields, src).fields);
    }
  }

  /** Loading again after a completed load reads the cache back: same fields, same directory, whatever the fields and the website. */
  lemma LoadIdempotent(d: DirState, id: string, f: Fields, src: Source, g: Fields, src': Source)
    requires LoadedMetadata(d, id, f, src).outcome.Pass?
    ensures var r := LoadedMetadata(d, id, f, src);
      LoadedMetadata(r.dir, id, g, src') == Loaded(r.dir, r.fields, Pass)
  {
    LoadCacheCoherent(d, id, f, src);
    LoadKeepsCache(LoadedMetadata(d, id, f, src).dir, id, g, src');
  }

  /**
   * A load that raises leaves the directory as it was. The file did not read
   * cleanly, and the error is the fetch's, made with the fields the partial
   * read left.
   */
  lemma LoadFailureWritesNothing(d: DirState, id: string, f: Fields, src: Source)
    requires LoadedMetadata(d, id, f, src).outcome.Fail?
    ensures LoadedMetadata(d, id, f, src).dir == d
    ensures ReadInto(d, id).Failure?
    ensures LoadedMetadata(d, id, f, src).outcome == Fetched(ReadFile(d, id, f).fields, src).outcome
  {
    ReadFileCases(d, id, f);
    FetchedKeepsUrl(ReadFile(d, id, f).fields, src);
  }

  /**
   * A record for this id that holds only its url is not thrown away: the
   * episode takes that url and the website is asked with it. Against the
   * dictionary `bbc_sounds.get_episode_metadata` builds, the title is
   * assigned and KeyError raised with nothing written; against a page that
   * scrapes, a complete record replaces the partial one.
   */
  lemma UrlOnlyRecordFetches(d: DirState, id: string, u: Option<string>, src: Source)
    requires Read(d, MetadataFilename(id)) == Success(Record(id, Present(u), Missing, Missing, Missing))
    ensures ReadFile(d, id, NoFields) == Assigned(Fields(Present(u), None, None, None), Fail(KeyError))
    ensures forall m: BbcSounds.EpisodeMetadata :: src == SoundsDict(v => Success(BbcSounds.MetadataDict(m))) ==>
              LoadedMetadata(d, id, NoFields, src) == Loaded(d, Fields(Present(u), Some(m.title), None, None), Fail(KeyError))
    ensures src.Scraper? && src.scrape(u).Success? && src.scrape(u).value.imageSrc.Some? ==>
              var r := LoadedMetadata(d, id, NoFields, src);
              r.outcome == Pass && r.fields.url == Present(u) && ReadInto(r.dir, id) == Success(r.fields)
  {
    forall m: BbcSounds.EpisodeMetadata | src == SoundsDict(v => Success(BbcSounds.MetadataDict(m)))
      ensures LoadedMetadata(d, id, NoFields, src) == Loaded(d, Fields(Present(u), Some(m.title), None, None), Fail(KeyError))
    {
      DictionaryFetchMissesDescription(Fields(Present(u), None, None, None), m);
    }
    LoadCacheCoherent(d, id, NoFields, src);
  }

  /** An episode of the podcast. */
  class Episode {
    var url: Entry
    var episodeId: string
    var title: Option<string>
    var description: Option<string>
    var imageUrl: Option<string>

    function Info(): Fields
      reads this
    {
      Fields(url, title, description, imageUrl)
    }

    function Snap(): Snapshot
      reads this
    {
      Snapshot(episodeId, Info())
    }

    /** `Episode(url)`: the id is the url's last segment. */
    constructor FromUrl(url: string)
      ensures episodeId == LastSegment(url)
      ensures Info() == Fields(Present(Some(url)), None, None, None)
    {
      this.url := Present(Some(url));
      episodeId := LastSegment(url);
      title, description, imageUrl := None, None, None;
    }

    /** `Episode(episode_id=id)` with a non-empty id: the url is left unassigned. */
    constructor FromId(id: string)
      requires id != ""
      ensures episodeId == id
      ensures Info() == NoFields
    {
      url := Missing;
      episodeId := id;
      title, description, imageUrl := None, None, None;
    }

    /** `_read_metadata_file` */
    method ReadMetadataFile(dir: WorkDir) returns (out: Outcome<Exc>)
      modifies this
      ensures episodeId == old(episodeId)
      ensures Assigned(Info(), out) == ReadFile(dir.State(), episodeId, old(Info()))
    {
      var r := dir.ReadRecord(MetadataFilename(episodeId));
      if r.Failure? {
        return Fail(r.error);
      }
      var rec := r.value;
      if rec.id != episodeId {
        return Fail(ValueError);
      }
      if rec.url.Missing? {
        return Fail(KeyError);
      }
      url := rec.url;
      if rec.title.Missing? {
        return Fail(KeyError);
      }
      title := rec.title.value;
      if rec.description.Missing? {
        return Fail(KeyError);
      }
      description := rec.description.value;
      if rec.imageUrl.Missing? {
        return Fail(KeyError);
      }
      imageUrl := rec.imageUrl.value;
      out := Pass;
    }

    /** `_write_metadata_file` */
    method WriteMetadataFile(dir: WorkDir) returns (out: Outcome<Exc>)
      requires dir.Valid()
      modifies dir
      ensures dir.Valid()
      ensures Step(dir.State(), out) == Written(old(dir.State()), episodeId, Info())
    {
      if url.Missing? {
        return Fail(AttributeError);
      }
      dir.WriteRecord(MetadataFilename(episodeId), Record(episodeId, url, Present(title), Present(description), Present(imageUrl)));
      out := Pass;
    }

    /** `_fetch_metadata` */
    method FetchMetadata(src: Source) returns (out: Outcome<Exc>)
      modifies this
      ensures episodeId == old(episodeId)
      ensures Assigned(Info(), out) == Fetched(old(Info()), src)
    {
      if url.Missing? {
        return Fail(AttributeError);
      }
      match src
      case SoundsDict(get) =>
        var r := get(url.value);
        if r.Failure? {
          return Fail(r.error);
        }
        var metadata := r.value;
        if "title" !in metadata {
          return Fail(KeyError);
        }
        title := metadata["title"];
        if "description" !in metadata {
          return Fail(KeyError);
        }
        description := metadata["description"];
        if "image_url" !in metadata {
          return Fail(KeyError);
        }
        imageUrl := metadata["image_url"];
        out := Pass;
      case Scraper(scrape) =>
        var r := scrape(url.value);
        if r.Failure? {
          return Fail(r.error);
        }
        var page := r.value;
        var newTitle := page.heading;
        if EndsWith(newTitle, " - BBC Sounds") {
          newTitle := PyPrefix(newTitle, -13);
        }
        var newDescription := page.synopsis;
        if EndsWith(newDescription, " Read less") {
          newDescription := PyPrefix(newDescription, -10);
        }
        if page.imageSrc.None? {
          return Fail(AttributeError);
        }
        var imgUrl := BetterImageUrl(page.imageSrc.value);
        title, description, imageUrl := Some(newTitle), Some(newDescription), Some(imgUrl);
        out := Pass;
    }

    /** `load_metadata` */
    method LoadMetadata(dir: WorkDir, src: Source) returns (out: Outcome<Exc>)
      requires dir.Valid()
      modifies this, dir
      ensures dir.Valid()
      ensures episodeId == old(episodeId)
      ensures Loaded(dir.State(), Info(), out) == LoadedMetadata(old(dir.State()), episodeId, old(Info()), src)
    {
      var read := ReadMetadataFile(dir);
      if read.Pass? {
        return Pass;
      }
      out := FetchMetadata(src);
      if out.Fail? {
        return;
      }
      out := WriteMetadataFile(dir);
    }
  }

  /**
   * `Episode(url, episode_id)`: a non-empty id is taken as given; otherwise
   * the id comes from the url, and without a url `url.split` raises
   * AttributeError.
   */
  method NewEpisode(url: Option<string>, id: Option<string>) returns (r: Result<Episode, Exc>)
    ensures r.Failure? <==> (id.None? || id == Some("")) && url.None?
    ensures r.Failure? ==> r.error == AttributeError
    ensures r.Success? ==> fresh(r.value)
    ensures r.Success? && id.Some? && id.value != "" ==> r.value.Snap() == Snapshot(id.value, NoFields)
    ensures r.Success? && (id.None? || id == Some("")) ==>
              r.value.Snap() == Snapshot(LastSegment(url.value), Fields(Present(url), None, None, None))
  {
    if id.Some? && id.value != "" {
      var e := new Episode.FromId(id.value);
      return Success(e);
    }
    if url.None? {
      return Failure(AttributeError);
    }
    var e := new Episode.FromUrl(url.value);
    r := Success(e);
  }

  /** The episodes' ids and fields, in order. */
  function Snaps(es: seq<Episode>): (snaps: seq<Snapshot>)
    reads es
    ensures |snaps| == |es|
    ensures forall i | 0 <= i < |es| :: snaps[i] == es[i].Snap()
  {
    seq(|es|, i requires 0 <= i < |es| reads es => es[i].Snap())
  }

  /** Appending episodes appends their snapshots. */
  lemma SnapsAppend(a: seq<Episode>, b: seq<Episode>)
    ensures Snaps(a + b) == Snaps(a) + Snaps(b)
  {
    assert forall i | 0 <= i < |a + b| :: (a + b)[i].Snap() == (Snaps(a) + Snaps(b))[i];
  }

  /** The ids of the episodes, in order. */
  function Ids(snaps: seq<Snapshot>): (ids: seq<string>)
    ensures |ids| == |snaps|
    ensures forall i | 0 <= i < |snaps| :: ids[i] == snaps[i].id
  {
    seq(|snaps|, i requires 0 <= i < |snaps| => snaps[i].id)
  }

  /** The ids of two lists one after the other. */
  lemma IdsAppend(a: seq<Snapshot>, b: seq<Snapshot>)
    ensures Ids(a + b) == Ids(a) + Ids(b)
  {
    assert forall i | 0 <= i < |a + b| :: Ids(a + b)[i] == (Ids(a) + Ids(b))[i];
  }

  /** The ids of a non-empty list: those of all but its last element, then the last one's. */
  lemma IdsSnoc(snaps: seq<Snapshot>)
    requires snaps != []
    ensures Ids(snaps) == Ids(snaps[..|snaps| - 1]) + [snaps[|snaps| - 1].id]
  {
    var n := |snaps|;
    assert snaps == snaps[..n - 1] + [snaps[n - 1]];
    IdsAppend(snaps[..n - 1], [snaps[n - 1]]);
  }

  /** The directory after loading episodes, the episodes loaded, and whether loading completed. */
  datatype Gathered = Gathered(dir: DirState, episodes: seq<Snapshot>, outcome: Outcome<Exc>)

  /**
   * `episode.load_metadata()` for each episode in order: the metadata file,
   * or the website and then a fresh record. There is no handler around the loop, so the
   * first exception ends it; records written before it stay.
   */
  function LoadEach(d: DirState, made: seq<Snapshot>, src: Source): Gathered
    decreases |made|
  {
    if made == [] then Gathered(d, [], Pass)
    else
      var before := LoadEach(d, made[..|made| - 1], src);
      if before.outcome.Fail? then before
      else
        var last := made[|made| - 1];
        var l := LoadedMetadata(before.dir, last.id, last.fields, src);
        if l.outcome.Fail? then Gathered(l.dir, [], l.outcome)
        else Gathered(l.dir, before.episodes + [Snapshot(last.id, l.fields)], Pass)
  }

  /** Loading one episode never disturbs a record that already reads cleanly, its own or another's. */
  lemma LoadKeepsReadable(d: DirState, id: string, other: string, f: Fields, src: Source)
    requires ReadInto(d, other).Success?
    ensures ReadInto(LoadedMetadata(d, id, f, src).dir, other) == ReadInto(d, other)
  {
    LoadCacheCoherent(d, id, f, src);
    if other == id {
      LoadKeepsCache(d, id, f, src);
    } else {
      FilenamesInjective(other, id);
    }
  }

  /** One more episode loaded: the earlier episodes' records still hold their fields. */
  lemma LoadEachCoherentStep(before: DirState, made: seq<Snapshot>, pre: seq<Snapshot>, src: Source)
    requires made != [] && |pre| == |made| - 1
    requires forall i | 0 <= i < |made| - 1 :: ReadInto(before, made[i].id) == Success(pre[i].fields)
    requires LoadedMetadata(before, made[|made| - 1].id, made[|made| - 1].fields, src).outcome.Pass?
    ensures var last := made[|made| - 1];
      var l := LoadedMetadata(before, last.id, last.fields, src);
      var loaded := pre + [Snapshot(last.id, l.fields)];
      forall i | 0 <= i < |made| :: ReadInto(l.dir, made[i].id) == Success(loaded[i].fields)
  {
    var last := made[|made| - 1];
    var l := LoadedMetadata(before, last.id, last.fields, src);
    var loaded := pre + [Snapshot(last.id, l.fields)];
    LoadCacheCoherent(before, last.id, last.fields, src);
    forall i | 0 <= i < |made| ensures ReadInto(l.dir, made[i].id) == Success(loaded[i].fields) {
      if i < |made| - 1 {
        assert loaded[i] == pre[i];
        LoadKeepsReadable(before, last.id, made[i].id, last.fields, src);
      }
    }
  }

  /** Loading calls none of the download collaborators, and keeps records only in present files. */
  lemma {:induction false} LoadEachQuiet(d: DirState, made: seq<Snapshot>, src: Source)
    ensures LoadEach(d, made, src).dir.calls == d.calls
    ensures Consistent(d) ==> Consistent(LoadEach(d, made, src).dir)
    decreases |made|
  {
    if made != [] {
      var init := made[..|made| - 1];
      LoadEachQuiet(d, init, src);
      var before := LoadEach(d, init, src);
      if before.outcome.Pass? {
        var last := made[|made| - 1];
        LoadCacheCoherent(before.dir, last.id, last.fields, src);
      }
    }
  }

  /**
   * Loading keeps the episodes' ids and order, and leaves every loaded
   * episode's cache holding exactly its fields. So two urls with the same last
   * segment load the same fields: the second reads the record the first
   * wrote, url included.
   */
  lemma {:induction false} LoadEachCoherent(d: DirState, made: seq<Snapshot>, src: Source)
    ensures var g := LoadEach(d, made, src);
      g.outcome.Pass? ==> |g.episodes| == |made| && Ids(g.episodes) == Ids(made)
    ensures var g := LoadEach(d, made, src);
      g.outcome.Pass? ==> forall i | 0 <= i < |made| :: ReadInto(g.dir, made[i].id) == Success(g.episodes[i].fields)
    decreases |made|
  {
    if made != [] {
      var init := made[..|made| - 1];
      LoadEachCoherent(d, init, src);
      var before := LoadEach(d, init, src);
      if before.outcome.Pass? {
        var last := made[|made| - 1];
        var l := LoadedMetadata(before.dir, last.id, last.fields, src);
        if l.outcome.Pass? {
          assert forall i | 0 <= i < |made| - 1 :: made[i] == init[i];
          LoadEachCoherentStep(before.dir, made, before.episodes, src);
          IdsAppend(before.episodes, [Snapshot(last.id, l.fields)]);
          IdsSnoc(made);
        }
      }
    }
  }

  /** Every episode a completed load yields has a url, so its audio can be asked for. */
  lemma LoadEachHasUrls(d: DirState, made: seq<Snapshot>, src: Source)
    ensures var g := LoadEach(d, made, src);
      g.outcome.Pass? ==> forall i | 0 <= i < |g.episodes| :: g.episodes[i].fields.url.Present?
  {
    LoadEachCoherent(d, made, src);
    var g := LoadEach(d, made, src);
    if g.outcome.Pass? {
      forall i | 0 <= i < |g.episodes| ensures g.episodes[i].fields.url.Present? {
        ReadIntoCases(g.dir, made[i].id);
      }
    }
  }

  /** Two episodes with the same id end up with the same fields. */
  lemma SharedIdSharesFields(d: DirState, made: seq<Snapshot>, src: Source, i: nat, j: nat)
    requires i < |made| && j < |made| && made[i].id == made[j].id
    requires LoadEach(d, made, src).outcome.Pass?
    ensures var g := LoadEach(d, made, src);
      |g.episodes| == |made| && g.episodes[i].fields == g.episodes[j].fields
  {
    LoadEachCoherent(d, made, src);
  }
}

=== FILE: filenames.dfy ===
/**
 * Every file an episode owns is named by its id and a fixed suffix, and the
 * podcast's bucket holds those files plus two that belong to no episode.
 */
module Filenames {
  import opened Text

  /** The feed document, uploaded beside the episodes. */
  const RssFile: string := "podcast.xml"
  /** The podcast's logo image. */
  const LogoFile: string := "logo.png"

  /** The downloaded audio file: `{id}.m4a`. */
  function AudioFilename(id: string): (f: string)
    ensures EndsWith(f, ".m4a") && f[..|f| - 4] == id
  {
    id + ".m4a"
  }

  /** The converted audio file that is published: `{id}.mp3`. */
  function OutputFilename(id: string): (f: string)
    ensures EndsWith(f, ".mp3") && f[..|f| - 4] == id
  {
    id + ".mp3"
  }

  /** The episode's cover image: `{id}.jpg`. */
  function ImageFilename(id: string): (f: string)
    ensures EndsWith(f, ".jpg") && f[..|f| - 4] == id
  {
    id + ".jpg"
  }

  /** The cached metadata record: `{id}.json`. */
  function MetadataFilename(id: string): (f: string)
    ensures EndsWith(f, ".json") && f[..|f| - 5] == id
  {
    id + ".json"
  }

  /** Each kind of filename determines the id it was made from. */
  lemma FilenamesInjective(a: string, b: string)
    ensures AudioFilename(a) == AudioFilename(b) ==> a == b
    ensures OutputFilename(a) == OutputFilename(b) ==> a == b
    ensures ImageFilename(a) == ImageFilename(b) ==> a == b
    ensures MetadataFilename(a) == MetadataFilename(b) ==> a == b
  {
  }

  /**
   * Filenames of different kinds never coincide, whatever the two ids: they
   * differ in their last character (`a`, `3`, `g`, `n`), and neither of the two
   * fixed files is the name of an episode's file.
   */
  lemma FilenameKindsDisjoint(a: string, b: string)
    ensures AudioFilename(a) != OutputFilename(b) && AudioFilename(a) != ImageFilename(b)
    ensures AudioFilename(a) != MetadataFilename(b) && OutputFilename(a) != ImageFilename(b)
    ensures OutputFilename(a) != MetadataFilename(b) && ImageFilename(a) != MetadataFilename(b)
    ensures RssFile != OutputFilename(a) && RssFile != ImageFilename(a)
    ensures LogoFile != OutputFilename(a) && LogoFile != ImageFilename(a)
    ensures RssFile != LogoFile
  {
    var au, ou, im, me := AudioFilename(a), OutputFilename(b), ImageFilename(b), MetadataFilename(b);
    assert au[|au| - 1] == 'a' && ou[|ou| - 1] == '3' && im[|im| - 1] == 'g' && me[|me| - 1] == 'n';
    var ou', im' := OutputFilename(a), ImageFilename(a);
    assert im'[|im'| - 1] == 'g' && ou'[|ou'| - 1] == '3' && AudioFilename(b)[|AudioFilename(b)| - 1] == 'a';
    assert ImageFilename(a)[|ImageFilename(a)| - 1] == 'g' && MetadataFilename(b)[|MetadataFilename(b)| - 1] == 'n';
    assert RssFile[|RssFile| - 1] == 'l' && LogoFile[|LogoFile| - 2] == 'n' && im'[|im'| - 2] == 'p';
  }

  /** The episode files the feed publishes: each episode's audio and image. */
  function EpisodeKeys(ids: seq<string>): set<string>
  {
    (set i | 0 <= i < |ids| :: OutputFilename(ids[i])) + (set i | 0 <= i < |ids| :: ImageFilename(ids[i]))
  }

  /** The keys the bucket should hold for the given episodes. */
  function FeedKeys(ids: seq<string>): set<string>
  {
    {RssFile, LogoFile} + EpisodeKeys(ids)
  }

  /** Adding one more episode adds its two files and nothing else. */
  lemma FeedKeysSnoc(ids: seq<string>, id: string)
    ensures FeedKeys(ids + [id]) == FeedKeys(ids) + {OutputFilename(id), ImageFilename(id)}
  {
    var ids' := ids + [id];
    forall k | k in FeedKeys(ids') ensures k in FeedKeys(ids) + {OutputFilename(id), ImageFilename(id)} {
      if i :| 0 <= i < |ids'| && (k == OutputFilename(ids'[i]) || k == ImageFilename(ids'[i])) {
        if i < |ids| {
          assert ids'[i] == ids[i];
        }
      }
    }
    forall k | k in FeedKeys(ids) ensures k in FeedKeys(ids') {
      if i :| 0 <= i < |ids| && (k == OutputFilename(ids[i]) || k == ImageFilename(ids[i])) {
        assert ids'[i] == ids[i];
      }
    }
    assert ids'[|ids|] == id;
  }
  /** The same for a growing prefix of a list of ids. */
  lemma FeedKeysPrefixStep(ids: seq<string>, i: nat)
    requires i < |ids|
    ensures FeedKeys(ids[..i + 1]) == FeedKeys(ids[..i]) + {OutputFilename(ids[i]), ImageFilename(ids[i])}
  {
    assert ids[..i + 1] == ids[..i] + [ids[i]];
    FeedKeysSnoc(ids[..i], ids[i]);
  }


  /** A new id's two files are not already expected. */
  lemma NewEpisodeKeysFresh(ids: seq<string>, id: string)
    requires forall i | 0 <= i < |ids| :: ids[i] != id
    ensures OutputFilename(id) !in FeedKeys(ids) && ImageFilename(id) !in FeedKeys(ids)
    ensures OutputFilename(id) != ImageFilename(id)
  {
    FilenameKindsDisjoint(id, id);
    forall i | 0 <= i < |ids|
      ensures OutputFilename(id) != OutputFilename(ids[i]) && OutputFilename(id) != ImageFilename(ids[i])
      ensures ImageFilename(id) != OutputFilename(ids[i]) && ImageFilename(id) != ImageFilename(ids[i])
    {
      FilenamesInjective(ids[i], id);
      FilenameKindsDisjoint(ids[i], id);
      FilenameKindsDisjoint(id, ids[i]);
    }
  }

  /** Two fresh, distinct elements add two to a set's size. */
  lemma AddTwoFresh<T>(a: set<T>, x: T, y: T)
    requires x != y && x !in a && y !in a
    ensures |a + {x, y}| == |a| + 2
  {
    assert a + {x, y} == (a + {x}) + {y};
  }

  /** Of distinct ids, all but the last are distinct, and the last is none of them. */
  lemma DistinctSnoc(init: seq<string>, id: string)
    requires forall i, j | 0 <= i < j < |init + [id]| :: (init + [id])[i] != (init + [id])[j]
    ensures forall i, j | 0 <= i < j < |init| :: init[i] != init[j]
    ensures forall i | 0 <= i < |init| :: init[i] != id
  {
    var ids := init + [id];
    forall i, j | 0 <= i < j < |init| ensures init[i] != init[j] {
      assert ids[i] == init[i] && ids[j] == init[j];
    }
    forall i | 0 <= i < |init| ensures init[i] != id {
      assert ids[i] == init[i] && ids[|init|] == id;
    }
  }

  /**
   * For episodes with distinct ids the expected set has exactly two fixed keys
   * and two keys per episode: no episode's files collide with another's or
   * with the feed and the logo.
   */
  lemma {:induction false} FeedKeysCount(ids: seq<string>)
    requires forall i, j | 0 <= i < j < |ids| :: ids[i] != ids[j]
    ensures |FeedKeys(ids)| == 2 + 2 * |ids|
    decreases |ids|
  {
    if ids == [] {
      assert FeedKeys(ids) == {RssFile, LogoFile};
      FilenameKindsDisjoint("", "");
    } else {
      var init, id := ids[..|ids| - 1], ids[|ids| - 1];
      assert ids == init + [id];
      DistinctSnoc(init, id);
      FeedKeysCount(init);
      FeedKeysSnoc(init, id);
      NewEpisodeKeysFresh(init, id);
      AddTwoFresh(FeedKeys(init), OutputFilename(id), ImageFilename(id));
    }
  }
}

=== FILE: models.dfy ===
/**
 * `bobcat/models.py`: the database row for an episode. Its key, `episode_id`,
 * is derived from the episode's url, and its file names from the key.
 */
module Models {
  import opened Wrappers
  import opened Text
  import opened Filenames

  /**
   * An `episodes` row. The columns the constructor does not assign
   * (`published`, `size_in_bytes`, `duration_in_seconds`) are None.
   */
  datatype Episode = Episode(
    episodeId: string,
    url: string,
    title: Option<string>,
    description: Option<string>,
    imageUrl: Option<string>,
    publishedUtc: Option<string>,
    sizeInBytes: Option<int>,
    durationInSeconds: Option<int>)

  /**
   * `Episode(url)`: the url is kept as given and the key is the text after its
   * last slash, so the key holds no slash and ends the url; the descriptive
   * columns start out None, and the ones the constructor leaves alone are None too.
   */
  function NewEpisode(url: string): (e: Episode)
    ensures e.url == url
    ensures '/' !in e.episodeId
    ensures |e.episodeId| <= |url| && url[|url| - |e.episodeId|..] == e.episodeId
    ensures |e.episodeId| < |url| ==> url[|url| - |e.episodeId| - 1] == '/'
    ensures e.title.None? && e.description.None? && e.imageUrl.None?
    ensures e.publishedUtc.None? && e.sizeInBytes.None? && e.durationInSeconds.None?
  {
    Episode(LastSegment(url), url, None, None, None, None, None, None)
  }

  /** A url of the form `base/id` gives the key `id`. */
  lemma NewEpisodeIdOfJoin(base: string, id: string)
    requires '/' !in id
    ensures NewEpisode(base + "/" + id).episodeId == id
  {
    LastSegmentOfJoin(base, id);
  }

  /** A url ending in a slash gives the empty key. */
  lemma TrailingSlashEmptyId(url: string)
    requires url != [] && url[|url| - 1] == '/'
    ensures NewEpisode(url).episodeId == ""
  {
  }

  /**
   * The key depends on the url's last segment only: two different urls that
   * end in the same segment give the same primary key, so the second row
   * cannot be stored beside the first.
   */
  lemma UrlsSharingLastSegmentCollide(a: string, b: string, id: string)
    requires '/' !in id
    requires a != b
    ensures NewEpisode(a + "/" + id).episodeId == NewEpisode(b + "/" + id).episodeId
    ensures a + "/" + id != b + "/" + id
  {
    LastSegmentOfJoin(a, id);
    LastSegmentOfJoin(b, id);
    var u, v := a + "/" + id, b + "/" + id;
    if |a| == |b| {
      assert u[..|a|] == a && v[..|b|] == b;
    } else {
      assert |u| != |v|;
    }
  }

  /**
   * The three file properties: key plus `.m4a`, `.mp3` and `.jpg`. They are
   * pairwise different, and each determines the key.
   */
  lemma EpisodeFilenames(e: Episode, other: Episode)
    ensures AudioFilename(e.episodeId) == e.episodeId + ".m4a"
    ensures OutputFilename(e.episodeId) == e.episodeId + ".mp3"
    ensures ImageFilename(e.episodeId) == e.episodeId + ".jpg"
    ensures AudioFilename(e.episodeId) != OutputFilename(e.episodeId)
    ensures AudioFilename(e.episodeId) != ImageFilename(e.episodeId)
    ensures OutputFilename(e.episodeId) != ImageFilename(e.episodeId)
    ensures AudioFilename(e.episodeId) == AudioFilename(other.episodeId) ==> e.episodeId == other.episodeId
    ensures OutputFilename(e.episodeId) == OutputFilename(other.episodeId) ==> e.episodeId == other.episodeId
    ensures ImageFilename(e.episodeId) == ImageFilename(other.episodeId) ==> e.episodeId == other.episodeId
  {
    FilenameKindsDisjoint(e.episodeId, e.episodeId);
    FilenamesInjective(e.episodeId, other.episodeId);
  }
}

=== FILE: objectstore.dfy ===
/**
 * The S3 bucket the podcast is published to, and the two pure helpers every
 * sync variant shares: the content type of a key and the bucket's public url.
 */
module ObjectStore {
  import opened Wrappers
  import opened Text
  import opened Filenames

  /**
   * `_get_content_type` / `get_content_type`: the MIME type of a file by its
   * suffix, tried in the order `.xml`, `.mp3`, `.jpg`, `.png`; any other name
   * raises ValueError.
   */
  function ContentType(filename: string): Result<string, Exc>
  {
    if EndsWith(filename, ".xml") then Success("application/rss+xml")
    else if EndsWith(filename, ".mp3") then Success("audio/mpeg")
    else if EndsWith(filename, ".jpg") then Success("image/jpeg")
    else if EndsWith(filename, ".png") then Success("image/png")
    else Failure(ValueError)
  }

  /** Each of the four suffixes gets its type, and only a name with none of them raises, with ValueError. */
  lemma ContentTypeCases(filename: string)
    ensures ContentType(filename).Failure? <==> !EndsWith(filename, ".xml") && !EndsWith(filename, ".mp3")
                                                && !EndsWith(filename, ".jpg") && !EndsWith(filename, ".png")
    ensures ContentType(filename).Failure? ==> ContentType(filename).error == ValueError
    ensures EndsWith(filename, ".xml") ==> ContentType(filename) == Success("application/rss+xml")
    ensures EndsWith(filename, ".mp3") ==> ContentType(filename) == Success("audio/mpeg")
    ensures EndsWith(filename, ".jpg") ==> ContentType(filename) == Success("image/jpeg")
    ensures EndsWith(filename, ".png") ==> ContentType(filename) == Success("image/png")
  {
    var n := |filename|;
    if n >= 4 {
      var tail := filename[n - 4..];
      assert EndsWith(filename, ".xml") <==> tail == ".xml";
      assert EndsWith(filename, ".mp3") <==> tail == ".mp3";
      assert EndsWith(filename, ".jpg") <==> tail == ".jpg";
      assert EndsWith(filename, ".png") <==> tail == ".png";
    }
  }

  /** A suffix test cannot succeed for two different four-character suffixes. */
  lemma SuffixesExclusive(filename: string, a: string, b: string)
    requires |a| == |b| && a != b
    requires EndsWith(filename, a)
    ensures !EndsWith(filename, b)
  {
  }

  /**
   * Every key the feed publishes has a content type: the feed is RSS, the logo
   * PNG, each episode's audio MP3 and its image JPEG. So publishing the feed
   * never raises ValueError.
   */
  lemma FeedKeysHaveContentType(ids: seq<string>, k: string)
    requires k in FeedKeys(ids)
    ensures ContentType(k).Success?
    ensures k == RssFile ==> ContentType(k) == Success("application/rss+xml")
    ensures k == LogoFile ==> ContentType(k) == Success("image/png")
  {
    if k == RssFile {
      assert EndsWith(k, ".xml");
    } else if k == LogoFile {
      SuffixesExclusive(k, ".png", ".xml");
      SuffixesExclusive(k, ".png", ".mp3");
      SuffixesExclusive(k, ".png", ".jpg");
    } else {
      var i :| 0 <= i < |ids| && (k == OutputFilename(ids[i]) || k == ImageFilename(ids[i]));
      if k == OutputFilename(ids[i]) {
        assert EndsWith(k, ".mp3");
        SuffixesExclusive(k, ".mp3", ".xml");
      } else {
        assert EndsWith(k, ".jpg");
        SuffixesExclusive(k, ".jpg", ".xml");
        SuffixesExclusive(k, ".jpg", ".mp3");
      }
    }
  }

  const UrlScheme: string := "https://"
  const UrlHost: string := ".s3.amazonaws.com"

  /** `bucket_url`: the public url of the named bucket. */
  function BucketUrl(name: string): (url: string)
    ensures |url| == |UrlScheme| + |name| + |UrlHost|
    ensures url[..|UrlScheme|] == UrlScheme && EndsWith(url, UrlHost)
  {
    UrlScheme + name + UrlHost
  }

  /** The bucket name inside a bucket url; the inverse of `BucketUrl`. */
  function BucketName(url: string): (name: Option<string>)
  {
    if |url| >= |UrlScheme| + |UrlHost| && url[..|UrlScheme|] == UrlScheme && EndsWith(url, UrlHost)
    then Some(url[|UrlScheme|..|url| - |UrlHost|])
    else None
  }

  /** The url determines the bucket: reading the name back out gives the name. */
  lemma BucketUrlRoundTrip(name: string)
    ensures BucketName(BucketUrl(name)) == Some(name)
  {
    var url := BucketUrl(name);
    assert url[|UrlScheme|..|url| - |UrlHost|] == name;
  }

  /** Different buckets have different urls. */
  lemma BucketUrlInjective(a: string, b: string)
    requires BucketUrl(a) == BucketUrl(b)
    ensures a == b
  {
    BucketUrlRoundTrip(a);
    BucketUrlRoundTrip(b);
  }

  /** An object as stored: its content type, whether anyone may read it, and its `md5` metadata entry. */
  datatype StoredObject = StoredObject(contentType: string, publicRead: bool, md5: Option<string>)

  /** The bucket, changed in place by uploads and batched deletes. */
  class Bucket {
    /** The objects by key. */
    var objects: map<string, StoredObject>
    /** Every `delete_objects` request made, in order, each with its keys. */
    var deleteRequests: seq<set<string>>

    constructor (objects: map<string, StoredObject>)
      ensures this.objects == objects && deleteRequests == []
    {
      this.objects := objects;
      deleteRequests := [];
    }

    /** `set(object.key for object in bucket.objects.all())` */
    method Keys() returns (keys: set<string>)
      ensures keys == objects.Keys
    {
      keys := objects.Keys;
    }

    /** `upload_file(key, key, ExtraArgs=...)`: creates or replaces one object. */
    method Upload(key: string, obj: StoredObject)
      modifies this
      ensures objects == old(objects)[key := obj]
      ensures deleteRequests == old(deleteRequests)
    {
      objects := objects[key := obj];
    }

    /** `delete_objects`: one request removing every listed key. */
    method DeleteObjects(keys: set<string>)
      modifies this
      ensures objects == old(objects) - keys
      ensures deleteRequests == old(deleteRequests) + [keys]
    {
      objects := objects - keys;
      deleteRequests := deleteRequests + [keys];
    }
  }
}

=== FILE: packagemain.dfy ===
/**
 * `bobcat/__main__.py`: fetching each episode's audio and image into the
 * working directory and converting the audio, reloading the episodes from
 * their cached metadata, and publishing the feed's files to the bucket.
 *
 * Every step works on the `Store.WorkDir`; its specification is a function of
 * the directory's state and of the episode's id and fields (`Snapshot`).
 */
module PackageMain {
  import opened Wrappers
  import opened Text
  import opened Filenames
  import opened Store
  import opened Audio
  import opened Episodes
  import opened ObjectStore
  import S3SyncPkg

  /**
   * `download_episode_audio`: skipped when `{id}.m4a` exists, else one
   * streaming download of the episode's url; an episode whose url was never
   * assigned raises AttributeError before the call.
   */
  function AudioStep(d: DirState, s: Snapshot, w: World): Step
  {
    if AudioFilename(s.id) in d.files then Step(d, Pass)
    else if s.fields.url.Missing? then Step(d, Fail(AttributeError))
    else AfterCall(d, StreamAudio(s.fields.url.value, AudioFilename(s.id)), w)
  }

  /** `download_episode_image`: skipped when `{id}.jpg` exists, else one download of the image url. */
  function ImageStep(d: DirState, s: Snapshot, w: World): Step
  {
    if ImageFilename(s.id) in d.files then Step(d, Pass)
    else AfterCall(d, DownloadFile(s.fields.imageUrl, ImageFilename(s.id)), w)
  }

  /** `convert_episode_audio`: skipped when `{id}.mp3` exists, else `convert_to_mp3` with the episode's title. */
  function ConvertStep(d: DirState, s: Snapshot, w: World): Step
  {
    if OutputFilename(s.id) in d.files then Step(d, Pass)
    else Converted(d, AudioFilename(s.id), OutputFilename(s.id), ImageFilename(s.id), s.fields.title, w)
  }

  /** The three steps of one episode in order; an exception ends them. */
  function EpisodeSteps(d: DirState, s: Snapshot, w: World): Step
  {
    var a := AudioStep(d, s, w);
    if a.outcome.Fail? then a
    else
      var i := ImageStep(a.dir, s, w);
      if i.outcome.Fail? then i
      else ConvertStep(i.dir, s, w)
  }

  /**
   * `download_episodes`: the episodes in list order. There is no handler, so
   * the first exception ends the whole run.
   */
  function Acquire(d: DirState, snaps: seq<Snapshot>, w: World): Step
    decreases |snaps|
  {
    if snaps == [] then Step(d, Pass)
    else
      var s := EpisodeSteps(d, snaps[0], w);
      if s.outcome.Fail? then s else Acquire(s.dir, snaps[1..], w)
  }

  /**
   * Each step does nothing when its own file exists, and otherwise calls its
   * collaborator exactly once; only the audio step, for an episode without a
   * url, raises instead. The conversion looks only at the `.mp3`: it runs
   * ffmpeg whether or not the audio and the image are there.
   */
  lemma StepsSkipOrCallOnce(d: DirState, s: Snapshot, w: World)
    ensures AudioFilename(s.id) in d.files ==> AudioStep(d, s, w) == Step(d, Pass)
    ensures ImageFilename(s.id) in d.files ==> ImageStep(d, s, w) == Step(d, Pass)
    ensures OutputFilename(s.id) in d.files ==> ConvertStep(d, s, w) == Step(d, Pass)
    ensures AudioFilename(s.id) !in d.files && s.fields.url.Missing? ==> AudioStep(d, s, w) == Step(d, Fail(AttributeError))
    ensures AudioFilename(s.id) !in d.files && s.fields.url.Present? ==>
              AudioStep(d, s, w).dir.calls == d.calls + [StreamAudio(s.fields.url.value, AudioFilename(s.id))]
    ensures ImageFilename(s.id) !in d.files ==>
              ImageStep(d, s, w).dir.calls == d.calls + [DownloadFile(s.fields.imageUrl, ImageFilename(s.id))]
    ensures OutputFilename(s.id) !in d.files ==>
              ConvertStep(d, s, w).dir.calls == d.calls + [Ffmpeg(ConvertCommand(AudioFilename(s.id), ImageFilename(s.id), s.fields.title))]
  {
    ConvertCallsFfmpegOnce(d, AudioFilename(s.id), OutputFilename(s.id), ImageFilename(s.id), s.fields.title, w);
  }

  /**
   * For an episode with a url and none of its files, whose downloads
   * complete, the collaborators are called in the order audio, image, ffmpeg.
   */
  lemma EpisodeStepsOrder(d: DirState, s: Snapshot, w: World)
    requires s.fields.url.Present?
    requires AudioFilename(s.id) !in d.files && ImageFilename(s.id) !in d.files && OutputFilename(s.id) !in d.files
    requires w.effect(StreamAudio(s.fields.url.value, AudioFilename(s.id))) == Completed
    requires w.effect(DownloadFile(s.fields.imageUrl, ImageFilename(s.id))) == Completed
    ensures EpisodeSteps(d, s, w).dir.calls == d.calls + [StreamAudio(s.fields.url.value, AudioFilename(s.id)),
              DownloadFile(s.fields.imageUrl, ImageFilename(s.id)),
              Ffmpeg(ConvertCommand(AudioFilename(s.id), ImageFilename(s.id), s.fields.title))]
  {
    FilenameKindsDisjoint(s.id, s.id);
    var a := AudioStep(d, s, w);
    var i := ImageStep(a.dir, s, w);
    StepsSkipOrCallOnce(d, s, w);
    StepsSkipOrCallOnce(a.dir, s, w);
    StepsSkipOrCallOnce(i.dir, s, w);
  }

  /**
   * The episodes are taken in list order: running a list that is the
   * concatenation of two runs the first part, and the second only when the
   * first completed.
   */
  lemma {:induction false} AcquireAppend(d: DirState, first: seq<Snapshot>, second: seq<Snapshot>, w: World)
    ensures Acquire(d, first + second, w) ==
              if Acquire(d, first, w).outcome.Fail? then Acquire(d, first, w)
              else Acquire(Acquire(d, first, w).dir, second, w)
    decreases |first|
  {
    if first == [] {
      assert first + second == second;
    } else {
      assert (first + second)[0] == first[0];
      assert (first + second)[1..] == first[1..] + second;
      var s := EpisodeSteps(d, first[0], w);
      if s.outcome.Pass? {
        AcquireAppend(s.dir, first[1..], second, w);
      }
    }
  }

  /** Neither the audio nor the image file of an episode is the temporary file. */
  lemma MediaNotTemporary(id: string)
    ensures AudioFilename(id) != TempFile && ImageFilename(id) != TempFile
  {
    var a, i := AudioFilename(id), ImageFilename(id);
    assert a[|a| - 1] == 'a' && i[|i| - 1] == 'g' && TempFile[|TempFile| - 1] == '3';
  }

  /** Every metadata file name ends in `n`, which no audio, image or converted file name does. */
  lemma MetadataNameEnd(id: string)
    ensures |MetadataFilename(id)| > 0 && MetadataFilename(id)[|MetadataFilename(id)| - 1] == 'n'
  {
  }

  /**
   * `r` is `d` after steps that only add media: every file but the temporary
   * one stays, every episode's metadata file reads the same, calls are only
   * appended, and only present files hold records.
   */
  ghost predicate Keeps(d: DirState, r: DirState)
  {
    && (forall n | n in d.files && n != TempFile :: n in r.files)
    && (forall id :: Read(r, MetadataFilename(id)) == Read(d, MetadataFilename(id)))
    && d.calls <= r.calls
    && (Consistent(d) ==> Consistent(r))
  }

  lemma KeepsTransitive(a: DirState, b: DirState, c: DirState)
    requires Keeps(a, b) && Keeps(b, c)
    ensures Keeps(a, c)
  {
  }

  /** A call whose target is not a metadata file keeps the directory in the sense of `Keeps`. */
  lemma CallKeeps(d: DirState, c: Call, w: World)
    requires |Target(c)| > 0 && Target(c)[|Target(c)| - 1] != 'n'
    ensures Keeps(d, AfterCall(d, c, w).dir)
  {
    var r := AfterCall(d, c, w).dir;
    forall id ensures Read(r, MetadataFilename(id)) == Read(d, MetadataFilename(id)) {
      MetadataNameEnd(id);
      assert Read(r, MetadataFilename(id)) == Read(d, MetadataFilename(id));
    }
  }

  /** The conversion's ffmpeg run and rename keep the directory in the sense of `Keeps`. */
  lemma ConvertKeeps(d: DirState, s: Snapshot, w: World)
    ensures Keeps(d, ConvertStep(d, s, w).dir)
  {
    if OutputFilename(s.id) !in d.files {
      var command := ConvertCommand(AudioFilename(s.id), ImageFilename(s.id), s.fields.title);
      ConvertCommandShape(AudioFilename(s.id), ImageFilename(s.id), s.fields.title);
      CallKeeps(d, Ffmpeg(command), w);
      var ran := AfterCall(d, Ffmpeg(command), w).dir;
      if w.ffmpeg(command).exitCode == 0 {
        var r := AfterRename(ran, TempFile, OutputFilename(s.id)).dir;
        forall id ensures Read(r, MetadataFilename(id)) == Read(ran, MetadataFilename(id)) {
          MetadataNameEnd(id);
          var o := OutputFilename(s.id);
          assert o[|o| - 1] == '3';
        }
        KeepsTransitive(d, ran, r);
      }
    }
  }

  /**
   * One episode's steps keep every file but the temporary one, keep every
   * episode's metadata cache, and only append to the call log.
   */
  lemma EpisodeStepsKeep(d: DirState, s: Snapshot, w: World)
    ensures Keeps(d, EpisodeSteps(d, s, w).dir)
  {
    var a, i := AudioFilename(s.id), ImageFilename(s.id);
    assert a[|a| - 1] == 'a' && i[|i| - 1] == 'g';
    var da := AudioStep(d, s, w).dir;
    if a !in d.files && s.fields.url.Present? {
      CallKeeps(d, StreamAudio(s.fields.url.value, a), w);
    }
    var di := ImageStep(da, s, w).dir;
    if i !in da.files {
      CallKeeps(da, DownloadFile(s.fields.imageUrl, i), w);
    }
    KeepsTransitive(d, da, di);
    ConvertKeeps(di, s, w);
    KeepsTransitive(d, di, ConvertStep(di, s, w).dir);
  }

  /**
   * Acquisition never loses a file other than the temporary one, never
   * disturbs the metadata cache, and only appends to the call log.
   */
  lemma {:induction false} AcquireKeeps(d: DirState, snaps: seq<Snapshot>, w: World)
    ensures Keeps(d, Acquire(d, snaps, w).dir)
    decreases |snaps|
  {
    if snaps != [] {
      EpisodeStepsKeep(d, snaps[0], w);
      var s := EpisodeSteps(d, snaps[0], w);
      if s.outcome.Pass? {
        AcquireKeeps(s.dir, snaps[1..], w);
        KeepsTransitive(d, s.dir, Acquire(s.dir, snaps[1..], w).dir);
      }
    }
  }

  /** Every download and export completes, and ffmpeg exits with 0 after writing its output. */
  ghost predicate Reliable(w: World)
  {
    (forall c :: w.effect(c) == Completed) && (forall cmd :: w.ffmpeg(cmd) == Process(0, true))
  }

  /** The three files an episode owns once it is acquired. */
  predicate Acquired(d: DirState, id: string)
  {
    AudioFilename(id) in d.files && ImageFilename(id) in d.files && OutputFilename(id) in d.files
  }

  /** With reliable collaborators one episode with a url completes its steps and is left with its three files. */
  lemma EpisodeStepsComplete(d: DirState, s: Snapshot, w: World)
    requires Reliable(w) && s.fields.url.Present?
    ensures EpisodeSteps(d, s, w).outcome == Pass
    ensures Acquired(EpisodeSteps(d, s, w).dir, s.id)
  {
    MediaNotTemporary(s.id);
    FilenameKindsDisjoint(s.id, s.id);
    var a := AudioStep(d, s, w);
    var i := ImageStep(a.dir, s, w);
    ConvertCommandShape(AudioFilename(s.id), ImageFilename(s.id), s.fields.title);
    if OutputFilename(s.id) !in i.dir.files {
      ConvertSuccessCommits(i.dir, AudioFilename(s.id), OutputFilename(s.id), ImageFilename(s.id), s.fields.title, w);
    }
  }

  /**
   * With reliable collaborators, episodes that all have a url (as loaded
   * episodes do) and no episode whose `.mp3` is the temporary file itself, a
   * run completes and every episode ends with its audio, its image and its
   * converted audio.
   */
  lemma {:induction false} AcquireCompletes(d: DirState, snaps: seq<Snapshot>, w: World)
    requires Reliable(w)
    requires forall i | 0 <= i < |snaps| :: snaps[i].fields.url.Present?
    requires forall i | 0 <= i < |snaps| :: OutputFilename(snaps[i].id) != TempFile
    ensures Acquire(d, snaps, w).outcome == Pass
    ensures forall i | 0 <= i < |snaps| :: Acquired(Acquire(d, snaps, w).dir, snaps[i].id)
    decreases |snaps|
  {
    if snaps != [] {
      var s := EpisodeSteps(d, snaps[0], w);
      EpisodeStepsComplete(d, snaps[0], w);
      assert forall i | 0 <= i < |snaps| - 1 :: snaps[1..][i] == snaps[i + 1];
      AcquireCompletes(s.dir, snaps[1..], w);
      AcquireKeeps(s.dir, snaps[1..], w);
      var r := Acquire(d, snaps, w);
      MediaNotTemporary(snaps[0].id);
      forall i | 0 <= i < |snaps| ensures Acquired(r.dir, snaps[i].id) {
        if i > 0 {
          assert snaps[i] == snaps[1..][i - 1];
        }
      }
    }
  }

  /** When every episode already has its three files, a run calls nothing and changes nothing. */
  lemma {:induction false} AcquireNothingToDo(d: DirState, snaps: seq<Snapshot>, w: World)
    requires forall i | 0 <= i < |snaps| :: Acquired(d, snaps[i].id)
    ensures Acquire(d, snaps, w) == Step(d, Pass)
    decreases |snaps|
  {
    if snaps != [] {
      AcquireNothingToDo(d, snaps[1..], w);
    }
  }

  /** With reliable collaborators a second run right after the first calls nothing and changes nothing. */
  lemma RerunIsIdle(d: DirState, snaps: seq<Snapshot>, w: World, w': World)
    requires Reliable(w)
    requires forall i | 0 <= i < |snaps| :: snaps[i].fields.url.Present?
    requires forall i | 0 <= i < |snaps| :: OutputFilename(snaps[i].id) != TempFile
    ensures var r := Acquire(d, snaps, w).dir;
      Acquire(r, snaps, w') == Step(r, Pass)
  {
    AcquireCompletes(d, snaps, w);
    AcquireNothingToDo(Acquire(d, snaps, w).dir, snaps, w');
  }

  /**
   * A streaming download that fails after writing part of the file raises, and
   * the partial `.m4a` makes every later run skip the download.
   */
  lemma PartialAudioNeverRetried(d: DirState, s: Snapshot, w: World, w': World)
    requires AudioFilename(s.id) !in d.files && s.fields.url.Present?
    requires w.effect(StreamAudio(s.fields.url.value, AudioFilename(s.id))) == Failed(true)
    ensures AudioStep(d, s, w).outcome == Fail(DownloadFailed)
    ensures AudioStep(AudioStep(d, s, w).dir, s, w') == Step(AudioStep(d, s, w).dir, Pass)
  {
  }

  /** `download_episode_audio(episode)` */
  method DownloadEpisodeAudio(dir: WorkDir, e: Episode, w: World) returns (out: Outcome<Exc>)
    requires dir.Valid()
    modifies dir
    ensures dir.Valid()
    ensures Step(dir.State(), out) == AudioStep(old(dir.State()), e.Snap(), w)
  {
    var downloaded := dir.Exists(AudioFilename(e.episodeId));
    if downloaded {
      return Pass;
    }
    if e.url.Missing? {
      return Fail(AttributeError);
    }
    out := dir.Invoke(StreamAudio(e.url.value, AudioFilename(e.episodeId)), w);
  }

  /** `download_episode_image(episode)` */
  method DownloadEpisodeImage(dir: WorkDir, e: Episode, w: World) returns (out: Outcome<Exc>)
    requires dir.Valid()
    modifies dir
    ensures dir.Valid()
    ensures Step(dir.State(), out) == ImageStep(old(dir.State()), e.Snap(), w)
  {
    var downloaded := dir.Exists(ImageFilename(e.episodeId));
    if downloaded {
      return Pass;
    }
    out := dir.Invoke(DownloadFile(e.imageUrl, ImageFilename(e.episodeId)), w);
  }

  /** `convert_episode_audio(episode)` */
  method ConvertEpisodeAudio(dir: WorkDir, e: Episode, w: World) returns (out: Outcome<Exc>)
    requires dir.Valid()
    modifies dir
    ensures dir.Valid()
    ensures Step(dir.State(), out) == ConvertStep(old(dir.State()), e.Snap(), w)
  {
    var converted := dir.Exists(OutputFilename(e.episodeId));
    if converted {
      return Pass;
    }
    out := ConvertToMp3(dir, AudioFilename(e.episodeId), OutputFilename(e.episodeId), ImageFilename(e.episodeId), e.title, w);
  }

  /** The body of `download_episodes`' loop for one episode. */
  method AcquireEpisode(dir: WorkDir, e: Episode, w: World) returns (out: Outcome<Exc>)
    requires dir.Valid()
    modifies dir
    ensures dir.Valid()
    ensures Step(dir.State(), out) == EpisodeSteps(old(dir.State()), e.Snap(), w)
  {
    out := DownloadEpisodeAudio(dir, e, w);
    if out.Fail? {
      return;
    }
    out := DownloadEpisodeImage(dir, e, w);
    if out.Fail? {
      return;
    }
    out := ConvertEpisodeAudio(dir, e, w);
  }

  /** `download_episodes(episodes)` */
  method DownloadEpisodes(dir: WorkDir, episodes: seq<Episode>, w: World) returns (out: Outcome<Exc>)
    requires dir.Valid()
    modifies dir
    ensures dir.Valid()
    ensures Step(dir.State(), out) == Acquire(old(dir.State()), Snaps(episodes), w)
  {
    ghost var snaps := Snaps(episodes);
    var i := 0;
    while i < |episodes|
      invariant 0 <= i <= |episodes| && dir.Valid()
      invariant Snaps(episodes) == snaps
      invariant Acquire(old(dir.State()), snaps, w) == Acquire(dir.State(), snaps[i..], w)
      decreases |episodes| - i
    {
      var episode := episodes[i];
      assert snaps[i..][0] == episode.Snap() && snaps[i..][1..] == snaps[i + 1..];
      out := AcquireEpisode(dir, episode, w);
      if out.Fail? {
        return;
      }
      i := i + 1;
    }
    out := Pass;
  }

  /** The ids of the `.json` entries of a directory listing, in listing order: each name without its last five characters. */
  function JsonIds(entries: seq<string>): seq<string>
  {
    if entries == [] then []
    else (if EndsWith(entries[0], ".json") then [PyPrefix(entries[0], -5)] else []) + JsonIds(entries[1..])
  }

  /** An id is loaded exactly when its metadata file is among the entries. */
  lemma {:induction false} JsonIdsExact(entries: seq<string>, id: string)
    ensures id in JsonIds(entries) <==> MetadataFilename(id) in entries
    decreases |entries|
  {
    if entries != [] {
      JsonIdsExact(entries[1..], id);
      var e := entries[0];
      if EndsWith(e, ".json") {
        assert e == PyPrefix(e, -5) + ".json";
        FilenamesInjective(id, PyPrefix(e, -5));
      } else {
        assert e != MetadataFilename(id);
      }
      assert entries == [e] + entries[1..];
    }
  }

  /**
   * The metadata file of `id` holds a record for this id that has its url but
   * lacks a later key: reading it assigns the url and then raises KeyError.
   */
  predicate PartialRecord(d: DirState, id: string)
  {
    var r := Read(d, MetadataFilename(id));
    r.Success? && r.value.id == id && r.value.url.Present? && !Complete(r.value)
  }

  /**
   * One id of `load_episodes()`: the episode made from it, once its metadata
   * is loaded. The empty id is not truthy, so the url branch runs on None and
   * raises AttributeError. Otherwise the episode starts without a url and
   * `load_metadata` runs on it.
   */
  function LoadId(d: DirState, id: string, src: Source): Gathered
  {
    if id == "" then Gathered(d, [], Fail(AttributeError))
    else
      var l := LoadedMetadata(d, id, NoFields, src);
      Gathered(l.dir, if l.outcome.Pass? then [Snapshot(id, l.fields)] else [], l.outcome)
  }

  /**
   * What loading one id comes to. A clean record is used as it is. A file
   * that is missing, unreadable, another id's or without a url key leaves the
   * episode without a url, so the fetch raises AttributeError and nothing is
   * written. A partial record with a url makes the website be asked with
   * that url, and the load turns out as that fetch does.
   */
  lemma LoadIdCases(d: DirState, id: string, src: Source)
    ensures id == "" ==> LoadId(d, id, src) == Gathered(d, [], Fail(AttributeError))
    ensures id != "" && ReadInto(d, id).Success? ==>
              LoadId(d, id, src) == Gathered(d, [Snapshot(id, ReadInto(d, id).value)], Pass)
    ensures id != "" && ReadInto(d, id).Failure? && !PartialRecord(d, id) ==>
              LoadId(d, id, src) == Gathered(d, [], Fail(AttributeError))
    ensures id != "" && PartialRecord(d, id) ==>
              && ReadFile(d, id, NoFields).fields.url == Read(d, MetadataFilename(id)).value.url
              && LoadId(d, id, src).outcome == Fetched(ReadFile(d, id, NoFields).fields, src).outcome
  {
    ReadIntoCases(d, id);
    ReadFileCases(d, id, NoFields);
    if id != "" && ReadInto(d, id).Success? {
      LoadKeepsCache(d, id, NoFields, src);
    }
    if id != "" && PartialRecord(d, id) {
      ReadFileInOrder(d, id, NoFields, Read(d, MetadataFilename(id)).value);
    }
  }

  /**
   * `load_episodes()` over the ids in listing order. There is no handler
   * around the loop, so the first exception ends it; records written before
   * it stay.
   */
  function LoadAll(d: DirState, ids: seq<string>, src: Source): Gathered
    decreases |ids|
  {
    if ids == [] then Gathered(d, [], Pass)
    else
      var before := LoadAll(d, ids[..|ids| - 1], src);
      if before.outcome.Fail? then before
      else
        var g := LoadId(before.dir, ids[|ids| - 1], src);
        if g.outcome.Fail? then g else Gathered(g.dir, before.episodes + g.episodes, Pass)
  }

  /** The episodes made from the ids, before any metadata is loaded. */
  function Unloaded(ids: seq<string>): (made: seq<Snapshot>)
    ensures |made| == |ids| && Ids(made) == ids
    ensures forall i | 0 <= i < |ids| :: made[i] == Snapshot(ids[i], NoFields)
  {
    var made := seq(|ids|, i requires 0 <= i < |ids| => Snapshot(ids[i], NoFields));
    assert Ids(made) == ids;
    made
  }

  /** The episodes made from all ids but the last, then the one made from the last. */
  lemma UnloadedSnoc(ids: seq<string>)
    requires ids != []
    ensures Unloaded(ids)[..|ids| - 1] == Unloaded(ids[..|ids| - 1])
    ensures Unloaded(ids)[|ids| - 1] == Snapshot(ids[|ids| - 1], NoFields)
  {
  }

  /** A completed `load_episodes()` had no empty id: the empty id raises. */
  lemma {:induction false} LoadAllNonEmpty(d: DirState, ids: seq<string>, src: Source)
    ensures LoadAll(d, ids, src).outcome.Pass? ==> forall i | 0 <= i < |ids| :: ids[i] != ""
    decreases |ids|
  {
    if ids != [] {
      var init := ids[..|ids| - 1];
      LoadAllNonEmpty(d, init, src);
      assert forall i | 0 <= i < |init| :: init[i] == ids[i];
    }
  }

  /** Over ids that are all non-empty, `load_episodes()` is the list load of the episodes made from them. */
  lemma {:induction false} LoadAllIsLoadEach(d: DirState, ids: seq<string>, src: Source)
    requires forall i | 0 <= i < |ids| :: ids[i] != ""
    ensures LoadAll(d, ids, src) == LoadEach(d, Unloaded(ids), src)
    decreases |ids|
  {
    if ids != [] {
      var init := ids[..|ids| - 1];
      assert forall i | 0 <= i < |init| :: init[i] == ids[i];
      LoadAllIsLoadEach(d, init, src);
      UnloadedSnoc(ids);
      var before := LoadAll(d, init, src);
      if before.outcome.Pass? {
        var l := LoadedMetadata(before.dir, ids[|ids| - 1], NoFields, src);
        if l.outcome.Pass? {
          assert LoadAll(d, ids, src).episodes == before.episodes + [Snapshot(ids[|ids| - 1], l.fields)];
        }
      }
    }
  }

  /**
   * A completed `load_episodes()` yields one episode per id, in order, each
   * with a url, and leaves every id's metadata file holding exactly that
   * episode's fields; no collaborator was called.
   */
  lemma LoadAllCoherent(d: DirState, ids: seq<string>, src: Source)
    ensures var g := LoadAll(d, ids, src);
      g.outcome.Pass? ==> |g.episodes| == |ids| && Ids(g.episodes) == ids && g.dir.calls == d.calls
    ensures var g := LoadAll(d, ids, src);
      g.outcome.Pass? ==> forall i | 0 <= i < |ids| ::
        ReadInto(g.dir, ids[i]) == Success(g.episodes[i].fields) && g.episodes[i].fields.url.Present?
  {
    LoadAllNonEmpty(d, ids, src);
    if LoadAll(d, ids, src).outcome.Pass? {
      LoadAllIsLoadEach(d, ids, src);
      LoadEachCoherent(d, Unloaded(ids), src);
      LoadEachHasUrls(d, Unloaded(ids), src);
      LoadEachQuiet(d, Unloaded(ids), src);
    }
  }

  /** The id is non-empty and its record reads cleanly. */
  predicate Loadable(d: DirState, id: string)
  {
    id != "" && ReadInto(d, id).Success?
  }

  /** Without a partial record, one id loads from the cache or raises AttributeError, and writes nothing. */
  lemma LoadIdFromCacheOnly(d: DirState, id: string, src: Source)
    requires !PartialRecord(d, id)
    ensures LoadId(d, id, src).dir == d
    ensures LoadId(d, id, src).outcome.Pass? <==> Loadable(d, id)
    ensures LoadId(d, id, src).outcome.Fail? ==> LoadId(d, id, src).outcome == Fail(AttributeError)
  {
    LoadIdCases(d, id, src);
  }

  /**
   * Over a directory without partial records, `load_episodes()` loads from
   * the cache only and writes nothing: it completes exactly when every id is
   * non-empty and its record reads cleanly, and otherwise raises
   * AttributeError.
   */
  lemma {:induction false} LoadAllOutcome(d: DirState, ids: seq<string>, src: Source)
    requires forall i | 0 <= i < |ids| :: !PartialRecord(d, ids[i])
    ensures LoadAll(d, ids, src).dir == d
    ensures LoadAll(d, ids, src).outcome.Pass? <==> forall i | 0 <= i < |ids| :: Loadable(d, ids[i])
    ensures LoadAll(d, ids, src).outcome.Fail? ==> LoadAll(d, ids, src).outcome == Fail(AttributeError)
    decreases |ids|
  {
    if ids != [] {
      var init := ids[..|ids| - 1];
      var last := ids[|ids| - 1];
      assert ids == init + [last];
      LoadAllOutcome(d, init, src);
      if LoadAll(d, init, src).outcome.Pass? {
        LoadIdFromCacheOnly(d, last, src);
      } else {
        var j :| 0 <= j < |init| && !Loadable(d, init[j]);
        assert !Loadable(d, ids[j]);
      }
    }
  }

  /** Over ids that are all non-empty and read cleanly, `load_episodes()` completes with the cached fields and writes nothing. */
  lemma LoadAllFromCache(d: DirState, ids: seq<string>, src: Source)
    requires forall i | 0 <= i < |ids| :: Loadable(d, ids[i])
    ensures var g := LoadAll(d, ids, src);
      g.outcome == Pass && g.dir == d && Ids(g.episodes) == ids
    ensures var g := LoadAll(d, ids, src);
      forall i | 0 <= i < |ids| :: ReadInto(d, ids[i]) == Success(g.episodes[i].fields)
  {
    assert forall i | 0 <= i < |ids| :: !PartialRecord(d, ids[i]);
    LoadAllOutcome(d, ids, src);
    LoadAllCoherent(d, ids, src);
  }

  /** Once a prefix of the ids raised, the whole list raises in the same state. */
  lemma {:induction false} LoadAllStopped(d: DirState, ids: seq<string>, k: nat, src: Source)
    requires k <= |ids|
    requires LoadAll(d, ids[..k], src).outcome.Fail?
    ensures LoadAll(d, ids, src) == LoadAll(d, ids[..k], src)
    decreases |ids| - k
  {
    if k < |ids| {
      assert ids[..k + 1][..k] == ids[..k];
      LoadAllStopped(d, ids, k + 1, src);
    } else {
      assert ids[..k] == ids;
    }
  }

  /** The ids of two listings one after the other are the ids of the first followed by those of the second. */
  lemma {:induction false} JsonIdsAppend(a: seq<string>, b: seq<string>)
    ensures JsonIds(a + b) == JsonIds(a) + JsonIds(b)
    decreases |a|
  {
    if a == [] {
      assert a + b == b;
    } else {
      assert (a + b)[0] == a[0] && (a + b)[1..] == a[1..] + b;
      JsonIdsAppend(a[1..], b);
    }
  }

  /** What one directory entry contributes: a `.json` entry loads the id before its suffix, any other is skipped. */
  function LoadEntrySpec(d: DirState, file: string, src: Source): Gathered
  {
    if EndsWith(file, ".json") then LoadId(d, PyPrefix(file, -5), src) else Gathered(d, [], Pass)
  }

  /** One entry of `load_episodes()`: for a `.json` file, the episode made from its id, once its metadata is loaded. */
  method LoadEntry(dir: WorkDir, file: string, src: Source) returns (loaded: seq<Episode>, out: Outcome<Exc>)
    requires dir.Valid()
    modifies dir
    ensures dir.Valid()
    ensures Gathered(dir.State(), Snaps(loaded), out) == LoadEntrySpec(old(dir.State()), file, src)
  {
    if !EndsWith(file, ".json") {
      return [], Pass;
    }
    var episodeId := PyPrefix(file, -5);
    var made := NewEpisode(None, Some(episodeId));
    if made.Failure? {
      return [], Fail(made.error);
    }
    var episode := made.value;
    out := episode.LoadMetadata(dir, src);
    loaded := if out.Fail? then [] else [episode];
  }

  /** Loading one more id after a completed load: that id's load, after the episodes already loaded. */
  lemma LoadAllSnoc(d: DirState, ids: seq<string>, id: string, src: Source, before: DirState, pre: seq<Snapshot>)
    requires LoadAll(d, ids, src) == Gathered(before, pre, Pass)
    ensures var g := LoadId(before, id, src);
      LoadAll(d, ids + [id], src) == if g.outcome.Fail? then g else Gathered(g.dir, pre + g.episodes, Pass)
  {
    assert (ids + [id])[..|ids|] == ids;
  }

  /** The ids of a listing's prefix one entry longer. */
  lemma JsonIdsSnoc(entries: seq<string>, i: nat)
    requires i < |entries|
    ensures JsonIds(entries[..i + 1]) ==
              JsonIds(entries[..i]) + if EndsWith(entries[i], ".json") then [PyPrefix(entries[i], -5)] else []
  {
    assert entries[..i + 1] == entries[..i] + [entries[i]];
    JsonIdsAppend(entries[..i], [entries[i]]);
    assert [entries[i]][1..] == [];
  }

  /** The ids of a listing's prefix are a prefix of the listing's ids. */
  lemma JsonIdsPrefix(entries: seq<string>, i: nat)
    requires i <= |entries|
    ensures |JsonIds(entries[..i])| <= |JsonIds(entries)|
    ensures JsonIds(entries)[..|JsonIds(entries[..i])|] == JsonIds(entries[..i])
  {
    assert entries == entries[..i] + entries[i..];
    JsonIdsAppend(entries[..i], entries[i..]);
  }

  /** How the loop of `load_episodes()` advances over one entry. */
  lemma LoadEntryStep(d: DirState, entries: seq<string>, i: nat, src: Source, before: DirState, pre: seq<Snapshot>)
    requires i < |entries|
    requires LoadAll(d, JsonIds(entries[..i]), src) == Gathered(before, pre, Pass)
    ensures var g := LoadEntrySpec(before, entries[i], src);
      g.outcome.Fail? ==> LoadAll(d, JsonIds(entries), src) == g
    ensures var g := LoadEntrySpec(before, entries[i], src);
      g.outcome.Pass? ==> LoadAll(d, JsonIds(entries[..i + 1]), src) == Gathered(g.dir, pre + g.episodes, Pass)
  {
    JsonIdsSnoc(entries, i);
    var g := LoadEntrySpec(before, entries[i], src);
    if EndsWith(entries[i], ".json") {
      LoadAllSnoc(d, JsonIds(entries[..i]), PyPrefix(entries[i], -5), src, before, pre);
      if g.outcome.Fail? {
        JsonIdsPrefix(entries, i + 1);
        LoadAllStopped(d, JsonIds(entries), |JsonIds(entries[..i + 1])|, src);
      }
    } else {
      assert JsonIds(entries[..i + 1]) == JsonIds(entries[..i]);
      assert pre + [] == pre;
    }
  }

  /**
   * `load_episodes()` over a directory listing given in `os.listdir` order.
   * A load that raises ends the function, so no episodes are returned then.
   */
  method LoadEpisodes(dir: WorkDir, entries: seq<string>, src: Source) returns (episodes: seq<Episode>, out: Outcome<Exc>)
    requires dir.Valid()
    modifies dir
    ensures dir.Valid()
    ensures Gathered(dir.State(), Snaps(episodes), out) == LoadAll(old(dir.State()), JsonIds(entries), src)
  {
    ghost var d := dir.State();
    episodes := [];
    var i := 0;
    assert entries[..0] == [];
    assert Snaps(episodes) == [];
    while i < |entries|
      invariant 0 <= i <= |entries| && dir.Valid()
      invariant LoadAll(d, JsonIds(entries[..i]), src) == Gathered(dir.State(), Snaps(episodes), Pass)
      decreases |entries| - i
    {
      ghost var before := dir.State();
      ghost var pre := Snaps(episodes);
      var loaded;
      loaded, out := LoadEntry(dir, entries[i], src);
      LoadEntryStep(d, entries, i, src, before, pre);
      if out.Fail? {
        return [], out;
      }
      SnapsAppend(episodes, loaded);
      episodes := episodes + loaded;
      i := i + 1;
    }
    assert entries[..i] == entries;
    out := Pass;
  }

  /** `upload_podcast`'s `files_in_feed`: the feed, the logo, and each episode's `.mp3` and `.jpg`. */
  method FilesInFeed(episodes: seq<Episode>) returns (files: set<string>)
    ensures files == FeedKeys(Ids(Snaps(episodes)))
  {
    ghost var ids := Ids(Snaps(episodes));
    files := {RssFile, LogoFile};
    assert ids[..0] == [];
    var i := 0;
    while i < |episodes|
      invariant 0 <= i <= |episodes|
      invariant files == FeedKeys(ids[..i])
      decreases |episodes| - i
    {
      var episode := episodes[i];
      files := files + {OutputFilename(episode.episodeId)};
      files := files + {ImageFilename(episode.episodeId)};
      assert episode.episodeId == ids[i];
      FeedKeysPrefixStep(ids, i);
      i := i + 1;
    }
    assert ids[..i] == ids;
  }

  /**
   * Whatever the bucket held, every key the feed uploads has a content type, so
   * publishing cannot raise ValueError, and a complete sync leaves the bucket
   * in sync with the feed.
   */
  lemma PublishedKeysTyped(objects: map<string, StoredObject>, ids: seq<string>, md5: string -> string)
    ensures S3SyncPkg.AllTyped(S3SyncPkg.UploadSet(objects, FeedKeys(ids), md5))
    ensures S3SyncPkg.InSync(S3SyncPkg.Synced(objects, FeedKeys(ids), md5), FeedKeys(ids), md5)
  {
    forall k | k in S3SyncPkg.UploadSet(objects, FeedKeys(ids), md5) ensures ContentType(k).Success? {
      FeedKeysHaveContentType(ids, k);
    }
    S3SyncPkg.SyncedIsInSync(objects, FeedKeys(ids), md5);
  }

  /**
   * `upload_podcast`: syncs the bucket with the feed's files, read from the
   * working directory. The call passes the credentials and bucket name as
   * well, which `files_with_bucket` does not take; here the bucket is the one
   * the sync works on. Publishing completes exactly when every file of the
   * feed is in the working directory; otherwise it raises FileNotFoundError
   * and makes no delete request.
   */
  method UploadPodcast(bucket: Bucket, dir: WorkDir, episodes: seq<Episode>, md5: string -> string) returns (out: Outcome<Exc>)
    modifies bucket
    ensures out.Pass? <==> FeedKeys(Ids(Snaps(episodes))) <= dir.State().files
    ensures out.Fail? ==> out.error == FileNotFound
    ensures out.Fail? ==> bucket.deleteRequests == old(bucket.deleteRequests)
    ensures out.Fail? ==> exists done | done <= S3SyncPkg.UploadSet(old(bucket.objects), FeedKeys(Ids(Snaps(episodes))), md5) ::
              bucket.objects == S3SyncPkg.WithUploads(old(bucket.objects), done, md5)
    ensures out.Pass? ==> bucket.objects == S3SyncPkg.Synced(old(bucket.objects), FeedKeys(Ids(Snaps(episodes))), md5)
    ensures out.Pass? ==> (bucket.deleteRequests == old(bucket.deleteRequests) +
              var stale := S3SyncPkg.DeleteSet(old(bucket.objects), FeedKeys(Ids(Snaps(episodes))));
              if stale == {} then [] else [stale])
    ensures out.Pass? ==> S3SyncPkg.InSync(bucket.objects, FeedKeys(Ids(Snaps(episodes))), md5)
  {
    var filesInFeed := FilesInFeed(episodes);
    PublishedKeysTyped(bucket.objects, Ids(Snaps(episodes)), md5);
    out := S3SyncPkg.FilesWithBucket(bucket, filesInFeed, md5, dir.files);
  }
}

=== FILE: pagination.dfy ===
/**
 * The "My Sounds" listing is read page by page: pages 1, 2, 3, ... are opened
 * in turn, their episode links are appended, and reading stops at the first
 * page without links or as soon as `max_episodes` links have been collected,
 * in which case the list is cut with Python's slice `[:max_episodes]`.
 *
 * The pages are an input, `pages[i]` being page `i + 1`; every page after the
 * last given one is empty.
 */
module Pagination {
  import opened Text

  /** Page number `n` (numbered from 1); pages past the end are empty. */
  function PageAt<T>(pages: seq<seq<T>>, n: nat): (page: seq<T>)
    ensures 1 <= n <= |pages| ==> page == pages[n - 1]
    ensures n == 0 || n > |pages| ==> page == []
  {
    if 1 <= n <= |pages| then pages[n - 1] else []
  }

  /** The pages before the first empty one. */
  function UpToFirstEmpty<T>(pages: seq<seq<T>>): seq<seq<T>>
  {
    if pages == [] || pages[0] == [] then [] else [pages[0]] + UpToFirstEmpty(pages[1..])
  }

  /** The pages' links, one page after the other. */
  function Flatten<T>(pages: seq<seq<T>>): seq<T>
  {
    if pages == [] then [] else pages[0] + Flatten(pages[1..])
  }

  /**
   * What reading the pages yields. With a non-negative limit it is the first
   * `max` links of the pages before the first empty one. A negative limit is
   * reached by the first non-empty page, whose links are then cut by the
   * slice `[:max]`, which drops its last `-max` links.
   */
  function Collected<T>(pages: seq<seq<T>>, max: int): seq<T>
  {
    if max >= 0 then PyPrefix(Flatten(UpToFirstEmpty(pages)), max)
    else if pages == [] || pages[0] == [] then []
    else PyPrefix(pages[0], max)
  }

  lemma {:induction false} FlattenAppend<T>(a: seq<seq<T>>, b: seq<seq<T>>)
    ensures Flatten(a + b) == Flatten(a) + Flatten(b)
    decreases |a|
  {
    if a == [] {
      assert a + b == b;
    } else {
      assert (a + b)[0] == a[0];
      assert (a + b)[1..] == a[1..] + b;
      FlattenAppend(a[1..], b);
    }
  }

  /** Non-empty pages before `k` all belong to the part before the first empty page. */
  lemma {:induction false} UpToFirstEmptySplit<T>(pages: seq<seq<T>>, k: nat)
    requires k <= |pages|
    requires forall i | 0 <= i < k :: pages[i] != []
    ensures UpToFirstEmpty(pages) == pages[..k] + UpToFirstEmpty(pages[k..])
    decreases k
  {
    if k > 0 {
      assert pages[1..][k - 1..] == pages[k..];
      UpToFirstEmptySplit(pages[1..], k - 1);
      assert pages[..k] == [pages[0]] + pages[1..][..k - 1];
    }
  }

  /** The link list only grows: the first `k` pages' links are a prefix of the links before the first empty page. */
  lemma FlattenPrefix<T>(pages: seq<seq<T>>, k: nat)
    requires k <= |pages|
    requires forall i | 0 <= i < k :: pages[i] != []
    ensures Flatten(pages[..k]) <= Flatten(UpToFirstEmpty(pages))
  {
    UpToFirstEmptySplit(pages, k);
    FlattenAppend(pages[..k], UpToFirstEmpty(pages[k..]));
  }

  /** The pages before the first empty one are a prefix of all pages. */
  lemma {:induction false} UpToFirstEmptyIsPrefix<T>(pages: seq<seq<T>>)
    ensures UpToFirstEmpty(pages) <= pages
    ensures |UpToFirstEmpty(pages)| < |pages| ==> pages[|UpToFirstEmpty(pages)|] == []
    ensures forall i | 0 <= i < |UpToFirstEmpty(pages)| :: pages[i] != []
    decreases |pages|
  {
    if pages != [] && pages[0] != [] {
      UpToFirstEmptyIsPrefix(pages[1..]);
    }
  }

  /** With a non-negative limit, at most `max` links are returned. */
  lemma CollectedBound<T>(pages: seq<seq<T>>, max: int)
    requires max >= 0
    ensures |Collected(pages, max)| <= max
  {
  }

  /**
   * What is returned is a prefix of the links of the pages before the first
   * empty one, so nothing from a page after an empty page is ever returned.
   */
  lemma CollectedIsPrefix<T>(pages: seq<seq<T>>, max: int)
    ensures Collected(pages, max) <= Flatten(UpToFirstEmpty(pages))
  {
    if max < 0 && pages != [] && pages[0] != [] {
      FlattenPrefix(pages, 1);
      assert Flatten(pages[..1]) == pages[0] + Flatten([]);
    }
  }

  /** A large enough limit returns every link before the first empty page. */
  lemma CollectedAll<T>(pages: seq<seq<T>>, max: int)
    requires max >= |Flatten(UpToFirstEmpty(pages))|
    ensures Collected(pages, max) == Flatten(UpToFirstEmpty(pages))
  {
  }

  /** An empty page hides every page after it: they could be anything. */
  lemma {:induction false} CollectedIgnoresAfterEmpty<T>(pages: seq<seq<T>>, i: nat, rest: seq<seq<T>>, max: int)
    requires i < |pages| && pages[i] == []
    ensures Collected(pages, max) == Collected(pages[..i + 1] + rest, max)
  {
    var other := pages[..i + 1] + rest;
    assert UpToFirstEmpty(pages) == UpToFirstEmpty(other) by {
      SameUpToEmpty(pages, other, i);
    }
  }

  /** Two page lists that agree up to an empty page have the same pages before their first empty one. */
  lemma {:induction false} SameUpToEmpty<T>(a: seq<seq<T>>, b: seq<seq<T>>, i: nat)
    requires i < |a| && i < |b| && a[..i + 1] == b[..i + 1] && a[i] == []
    ensures UpToFirstEmpty(a) == UpToFirstEmpty(b)
    decreases i
  {
    assert a[0] == b[0];
    if i > 0 && a[0] != [] {
      assert a[1..][..i] == b[1..][..i];
      SameUpToEmpty(a[1..], b[1..], i - 1);
    }
  }

  /**
   * The loop's exit case where a page was empty: every page read before was
   * non-empty and the limit had not been reached, so the links collected so
   * far are the answer.
   */
  lemma StopAtEmptyPage<T>(pages: seq<seq<T>>, page: nat, urls: seq<T>, max: int)
    requires page <= |pages|
    requires forall i | 0 <= i < page :: pages[i] != []
    requires PageAt(pages, page + 1) == []
    requires urls == Flatten(pages[..page])
    requires page > 0 ==> |urls| < max
    ensures urls == Collected(pages, max)
  {
    UpToFirstEmptySplit(pages, page);
    if page < |pages| {
      assert pages[page..][0] == [];
    }
    assert UpToFirstEmpty(pages[page..]) == [];
    assert pages[..page] + [] == pages[..page];
    if page == 0 {
      assert urls == [];
    }
  }

  /**
   * The loop's exit case where the limit was reached on page `page + 1`: the
   * answer is the links so far plus that page's, cut at the limit.
   */
  lemma StopAtLimit<T>(pages: seq<seq<T>>, page: nat, urls: seq<T>, max: int)
    requires page < |pages|
    requires forall i | 0 <= i <= page :: pages[i] != []
    requires urls == Flatten(pages[..page + 1])
    requires page > 0 ==> |Flatten(pages[..page])| < max
    requires |urls| >= max
    ensures PyPrefix(urls, max) == Collected(pages, max)
  {
    FlattenPrefix(pages, page + 1);
    if max < 0 {
      assert page == 0;
      assert pages[..1] == [pages[0]];
      assert Flatten(pages[..1]) == pages[0] + Flatten([]);
    }
  }

  /** Reading one more non-empty page appends its links. */
  lemma FlattenNext<T>(pages: seq<seq<T>>, page: nat)
    requires page < |pages|
    ensures Flatten(pages[..page + 1]) == Flatten(pages[..page]) + pages[page]
  {
    assert pages[..page + 1] == pages[..page] + [pages[page]];
    FlattenAppend(pages[..page], [pages[page]]);
    assert Flatten([pages[page]]) == pages[page] + Flatten([]);
  }
}

=== FILE: s3sync.dfy ===
/**
 * `bobcat/s3sync.py`: the later, smaller bucket interface. The caller decides
 * what to upload and delete; these operations only list, upload and delete.
 * Uploads carry no `md5` metadata. `local` is the set of files in the working
 * directory: uploading a file that is not there raises FileNotFoundError.
 */
module S3Sync {
  import opened Wrappers
  import opened ObjectStore

  /** `get_bucket_contents`: the keys of every object in the bucket. */
  method GetBucketContents(bucket: Bucket) returns (keys: set<string>)
    ensures keys == bucket.objects.Keys
    ensures forall k | k in keys :: k in bucket.objects
  {
    keys := bucket.Keys();
  }

  /** The bucket's objects after a run of uploads, and whether the run completed. */
  datatype Uploads = Uploads(objects: map<string, StoredObject>, outcome: Outcome<Exc>)

  /**
   * Uploading the names in order: each one is typed by its suffix and then
   * sent from the working directory, and stored publicly. The first name
   * without a content type raises ValueError, the first one not in the working
   * directory FileNotFoundError, and the names before it stay uploaded.
   */
  function PutAll(objects: map<string, StoredObject>, names: seq<string>, local: set<string>): Uploads
    decreases |names|
  {
    if names == [] then Uploads(objects, Pass)
    else match ContentType(names[0])
      case Failure(e) => Uploads(objects, Fail(e))
      case Success(t) =>
        if names[0] !in local then Uploads(objects, Fail(FileNotFound))
        else PutAll(objects[names[0] := StoredObject(t, true, None)], names[1..], local)
  }

  /** Every name has a content type. */
  predicate AllTyped(names: seq<string>)
  {
    forall i | 0 <= i < |names| :: ContentType(names[i]).Success?
  }

  /** Every name is a file in the working directory. */
  predicate AllLocal(names: seq<string>, local: set<string>)
  {
    forall i | 0 <= i < |names| :: names[i] in local
  }

  /**
   * The uploads complete exactly when every name has a content type and is in
   * the working directory; then every name is a key, stored publicly with its
   * type. A failure is ValueError when every name is local, and
   * FileNotFoundError when every name is typed. Whatever the outcome, keys
   * that were not named are left as they were, and no key appears that was
   * neither there nor named.
   */
  lemma {:induction false} PutAllEffect(objects: map<string, StoredObject>, names: seq<string>, local: set<string>)
    ensures PutAll(objects, names, local).outcome.Pass? <==> AllTyped(names) && AllLocal(names, local)
    ensures PutAll(objects, names, local).outcome.Fail? ==>
              PutAll(objects, names, local).outcome.error == ValueError || PutAll(objects, names, local).outcome.error == FileNotFound
    ensures PutAll(objects, names, local).outcome.Fail? && AllLocal(names, local) ==>
              PutAll(objects, names, local).outcome.error == ValueError
    ensures PutAll(objects, names, local).outcome.Fail? && AllTyped(names) ==>
              PutAll(objects, names, local).outcome.error == FileNotFound
    ensures PutAll(objects, names, local).outcome.Pass? ==> forall i | 0 <= i < |names| ::
              names[i] in PutAll(objects, names, local).objects &&
              PutAll(objects, names, local).objects[names[i]] == StoredObject(ContentType(names[i]).value, true, None)
    ensures forall k | k !in names :: (k in PutAll(objects, names, local).objects <==> k in objects)
    ensures forall k | k !in names && k in objects :: PutAll(objects, names, local).objects[k] == objects[k]
    decreases |names|
  {
    if names != [] {
      ContentTypeCases(names[0]);
      match ContentType(names[0])
      case Failure(e) =>
        assert !AllTyped(names);
      case Success(t) =>
        if names[0] !in local {
          assert !AllLocal(names, local);
        } else {
          var next := objects[names[0] := StoredObject(t, true, None)];
          PutAllEffect(next, names[1..], local);
          var r := PutAll(next, names[1..], local);
          assert AllTyped(names) <==> AllTyped(names[1..]) by {
            if AllTyped(names[1..]) {
              forall i | 0 <= i < |names| ensures ContentType(names[i]).Success? {
                if i > 0 { assert names[i] == names[1..][i - 1]; }
              }
            }
          }
          assert AllLocal(names, local) <==> AllLocal(names[1..], local) by {
            if AllLocal(names[1..], local) {
              forall i | 0 <= i < |names| ensures names[i] in local {
                if i > 0 { assert names[i] == names[1..][i - 1]; }
              }
            }
          }
          if r.outcome.Pass? {
            forall i | 0 <= i < |names|
              ensures names[i] in r.objects && r.objects[names[i]] == StoredObject(ContentType(names[i]).value, true, None)
            {
              if i > 0 {
                assert names[i] == names[1..][i - 1];
              } else if names[0] in names[1..] {
                var j :| 0 <= j < |names[1..]| && names[1..][j] == names[0];
              }
            }
          }
        }
    }
  }

  /**
   * At the first name that has no content type or is not in the working
   * directory, the uploads stop: the bucket holds exactly what uploading the
   * names before it gives, and the error says which of the two it was.
   */
  lemma {:induction false} PutAllStopsAtUnsendable(objects: map<string, StoredObject>, names: seq<string>, local: set<string>, i: nat)
    requires i < |names| && (ContentType(names[i]).Failure? || names[i] !in local)
    requires forall j | 0 <= j < i :: ContentType(names[j]).Success? && names[j] in local
    ensures PutAll(objects, names, local) ==
              Uploads(PutAll(objects, names[..i], local).objects,
                      Fail(if ContentType(names[i]).Failure? then ValueError else FileNotFound))
    decreases i
  {
    ContentTypeCases(names[i]);
    if i > 0 {
      var next := objects[names[0] := StoredObject(ContentType(names[0]).value, true, None)];
      assert names[1..][i - 1] == names[i];
      PutAllStopsAtUnsendable(next, names[1..], local, i - 1);
      assert names[..i][1..] == names[1..][..i - 1];
    }
  }

  /**
   * `upload_files([f])`: one name is uploaded when it has a content type and is
   * in the working directory, and otherwise nothing changes.
   */
  lemma PutAllSingle(objects: map<string, StoredObject>, f: string, local: set<string>)
    ensures ContentType(f).Success? && f in local ==>
              PutAll(objects, [f], local) == Uploads(objects[f := StoredObject(ContentType(f).value, true, None)], Pass)
    ensures ContentType(f).Failure? ==> PutAll(objects, [f], local) == Uploads(objects, Fail(ValueError))
    ensures ContentType(f).Success? && f !in local ==> PutAll(objects, [f], local) == Uploads(objects, Fail(FileNotFound))
  {
    ContentTypeCases(f);
  }

  /** `upload_files(filenames)`: uploads the names in order. */
  method UploadFiles(bucket: Bucket, filenames: seq<string>, local: set<string>) returns (out: Outcome<Exc>)
    modifies bucket
    ensures Uploads(bucket.objects, out) == PutAll(old(bucket.objects), filenames, local)
    ensures bucket.deleteRequests == old(bucket.deleteRequests)
  {
    var i := 0;
    while i < |filenames|
      invariant 0 <= i <= |filenames|
      invariant PutAll(old(bucket.objects), filenames, local) == PutAll(bucket.objects, filenames[i..], local)
      invariant bucket.deleteRequests == old(bucket.deleteRequests)
      decreases |filenames| - i
    {
      var filename := filenames[i];
      assert filenames[i..][1..] == filenames[i + 1..];
      var contentType := ContentType(filename);
      if contentType.Failure? {
        return Fail(contentType.error);
      }
      if filename !in local {
        return Fail(FileNotFound);
      }
      bucket.Upload(filename, StoredObject(contentType.value, true, None));
      i := i + 1;
    }
    out := Pass;
  }

  /** `upload_file(f)`: exactly `upload_files([f])`. */
  method UploadFile(bucket: Bucket, filename: string, local: set<string>) returns (out: Outcome<Exc>)
    modifies bucket
    ensures Uploads(bucket.objects, out) == PutAll(old(bucket.objects), [filename], local)
    ensures bucket.deleteRequests == old(bucket.deleteRequests)
  {
    out := UploadFiles(bucket, [filename], local);
  }

  /** `delete_files(filenames)`: one request that removes every named key and nothing else. */
  method DeleteFiles(bucket: Bucket, filenames: seq<string>)
    modifies bucket
    ensures bucket.objects == old(bucket.objects) - set f | f in filenames
    ensures bucket.deleteRequests == old(bucket.deleteRequests) + [set f | f in filenames]
  {
    var keys := set f | f in filenames;
    bucket.DeleteObjects(keys);
  }
}

=== FILE: s3syncpkg.dfy ===
/**
 * `bobcat/s3sync/__init__.py`: reconciles the bucket with the set of files the
 * feed publishes. Files missing from the bucket are uploaded, files whose
 * stored `md5` differs from the local digest are uploaded again, and objects
 * the feed no longer lists are deleted in one request. The local digest
 * (`_file_md5`) is a parameter: a fixed function of the filename during a run.
 * `local` is the set of files in the working directory: hashing a file that is
 * not there raises FileNotFoundError.
 */
module S3SyncPkg {
  import opened Wrappers
  import opened ObjectStore

  /** The stored object is missing its digest or has another one than the local file. */
  predicate Changed(objects: map<string, StoredObject>, k: string, md5: string -> string)
    requires k in objects
  {
    objects[k].md5 != Some(md5(k))
  }

  /** Keys in both the bucket and the list, whose digests are compared. */
  function ToCheck(objects: map<string, StoredObject>, files: set<string>): set<string>
  {
    files * objects.Keys
  }

  /** The keys among `keys` whose stored object changed. */
  function ChangedAmong(objects: map<string, StoredObject>, keys: set<string>, md5: string -> string): set<string>
  {
    set k | k in keys && k in objects && Changed(objects, k, md5)
  }

  /** What is uploaded: every listed file the bucket lacks, and every listed file that changed. */
  function UploadSet(objects: map<string, StoredObject>, files: set<string>, md5: string -> string): set<string>
  {
    (files - objects.Keys) + ChangedAmong(objects, ToCheck(objects, files), md5)
  }

  /** What is deleted: every object the list does not name. */
  function DeleteSet(objects: map<string, StoredObject>, files: set<string>): set<string>
  {
    objects.Keys - files
  }

  /**
   * The three initial sets split the keys: new files and checked files make up
   * the list, checked files and stale objects make up the bucket, and no key is
   * in two of them.
   */
  lemma InitialPartition(objects: map<string, StoredObject>, files: set<string>)
    ensures (files - objects.Keys) + ToCheck(objects, files) == files
    ensures ToCheck(objects, files) + DeleteSet(objects, files) == objects.Keys
    ensures (files - objects.Keys) !! ToCheck(objects, files)
    ensures ToCheck(objects, files) !! DeleteSet(objects, files)
    ensures (files - objects.Keys) !! DeleteSet(objects, files)
  {
  }

  /**
   * A listed key is uploaded exactly when the bucket lacks it or its stored
   * digest is not the local one; a missing stored digest always counts as a
   * change. The final upload set stays inside the list, so it never meets the
   * delete set.
   */
  lemma UploadSetCharacterised(objects: map<string, StoredObject>, files: set<string>, md5: string -> string, k: string)
    ensures k in UploadSet(objects, files, md5) <==>
              k in files && (k !in objects || objects[k].md5 != Some(md5(k)))
    ensures k in objects && objects[k].md5 == None && k in files ==> k in UploadSet(objects, files, md5)
    ensures UploadSet(objects, files, md5) <= files
    ensures UploadSet(objects, files, md5) !! DeleteSet(objects, files)
  {
  }

  /** The object an upload stores: public, typed by its suffix, with the local digest as `md5`. */
  function UploadedObject(k: string, md5: string -> string): (obj: StoredObject)
    ensures obj.publicRead && obj.md5 == Some(md5(k))
    ensures ContentType(k).Success? ==> obj.contentType == ContentType(k).value
  {
    StoredObject(match ContentType(k) case Success(t) => t case Failure(_) => "", true, Some(md5(k)))
  }

  /** The bucket after `keys` have been uploaded. */
  function WithUploads(objects: map<string, StoredObject>, keys: set<string>, md5: string -> string): map<string, StoredObject>
  {
    objects + map k | k in keys :: UploadedObject(k, md5)
  }

  /** The bucket after a complete sync: uploads, then the batched delete. */
  function Synced(objects: map<string, StoredObject>, files: set<string>, md5: string -> string): map<string, StoredObject>
  {
    WithUploads(objects, UploadSet(objects, files, md5), md5) - DeleteSet(objects, files)
  }

  /** The bucket holds exactly the listed files, each stored with its local digest. */
  predicate InSync(objects: map<string, StoredObject>, files: set<string>, md5: string -> string)
  {
    objects.Keys == files && forall k | k in objects :: objects[k].md5 == Some(md5(k))
  }

  /** After a complete sync the bucket's keys are the list, and every object carries the local digest. */
  lemma SyncedIsInSync(objects: map<string, StoredObject>, files: set<string>, md5: string -> string)
    ensures InSync(Synced(objects, files, md5), files, md5)
  {
    var s := Synced(objects, files, md5);
    var up := UploadSet(objects, files, md5);
    forall k | k in files ensures k in s {
      if k !in objects {
        assert k in up;
      }
    }
    forall k | k in s ensures s[k].md5 == Some(md5(k)) {
      if k !in up {
        assert k in objects && !Changed(objects, k, md5);
      }
    }
  }

  /** A bucket in sync plans no upload and no delete: an immediate re-run transfers nothing. */
  lemma InSyncPlansNothing(objects: map<string, StoredObject>, files: set<string>, md5: string -> string)
    requires InSync(objects, files, md5)
    ensures UploadSet(objects, files, md5) == {}
    ensures DeleteSet(objects, files) == {}
  {
    forall k | k in UploadSet(objects, files, md5) ensures false {
      UploadSetCharacterised(objects, files, md5, k);
    }
  }

  /** Syncing twice with unchanged local files: the second run uploads nothing and deletes nothing. */
  lemma RerunTransfersNothing(objects: map<string, StoredObject>, files: set<string>, md5: string -> string)
    ensures UploadSet(Synced(objects, files, md5), files, md5) == {}
    ensures DeleteSet(Synced(objects, files, md5), files) == {}
  {
    SyncedIsInSync(objects, files, md5);
    InSyncPlansNothing(Synced(objects, files, md5), files, md5);
  }

  /**
   * Every listed file is in the working directory exactly when the checked
   * keys and the planned uploads are: a listed file is either checked or new,
   * and every new file is planned.
   */
  lemma PlannedFilesLocal(objects: map<string, StoredObject>, files: set<string>, md5: string -> string, local: set<string>)
    ensures files <= local <==> ToCheck(objects, files) <= local && UploadSet(objects, files, md5) <= local
  {
    InitialPartition(objects, files);
    if ToCheck(objects, files) <= local && UploadSet(objects, files, md5) <= local {
      forall k | k in files ensures k in local {
        if k !in objects {
          assert k in UploadSet(objects, files, md5);
        }
      }
    }
  }

  /**
   * The first half of `files_with_bucket`: list the bucket, split the keys,
   * and compare each checked key's stored digest with the local one. Hashing a
   * checked key that is not in the working directory raises FileNotFoundError.
   */
  method PlanSync(bucket: Bucket, files: set<string>, md5: string -> string, local: set<string>)
    returns (out: Outcome<Exc>, toUpload: set<string>, toDelete: set<string>)
    ensures out.Pass? <==> ToCheck(bucket.objects, files) <= local
    ensures out.Fail? ==> out.error == FileNotFound
    ensures out.Pass? ==> toUpload == UploadSet(bucket.objects, files, md5)
    ensures out.Pass? ==> toDelete == DeleteSet(bucket.objects, files)
  {
    var uploaded := bucket.Keys();
    toUpload := files - uploaded;
    toDelete := uploaded - files;
    var toCheck := files * uploaded;
    var remaining := toCheck;
    while remaining != {}
      invariant remaining <= toCheck
      invariant toCheck - remaining <= local
      invariant forall k :: k in toUpload <==>
                  (k in files && k !in uploaded) || (k in toCheck && k !in remaining && Changed(bucket.objects, k, md5))
      decreases |remaining|
    {
      var filename :| filename in remaining;
      var remoteMd5 := bucket.objects[filename].md5;
      if filename !in local {
        return Fail(FileNotFound), toUpload, toDelete;
      }
      var localMd5 := md5(filename);
      if remoteMd5 != Some(localMd5) {
        toUpload := toUpload + {filename};
      }
      remaining := remaining - {filename};
    }
    out := Pass;
  }

  /** Uploading one more key extends the uploaded set by that key. */
  lemma WithUploadsStep(objects: map<string, StoredObject>, done: set<string>, k: string, md5: string -> string)
    ensures WithUploads(objects, done, md5)[k := UploadedObject(k, md5)] == WithUploads(objects, done + {k}, md5)
  {
  }

  /** Every key has a content type, so uploading them cannot raise. */
  predicate AllTyped(keys: set<string>)
  {
    forall k | k in keys :: ContentType(k).Success?
  }

  /**
   * The upload loop of `files_with_bucket`: each key in turn, typed by its
   * suffix and carrying the local digest. A key without a content type raises
   * ValueError, and a key not in the working directory raises
   * FileNotFoundError when it is hashed; either way before it is sent, leaving
   * the keys already sent in place.
   */
  method UploadEach(bucket: Bucket, toUpload: set<string>, md5: string -> string, local: set<string>) returns (out: Outcome<Exc>)
    modifies bucket
    ensures out.Pass? <==> AllTyped(toUpload) && toUpload <= local
    ensures out.Pass? ==> bucket.objects == WithUploads(old(bucket.objects), toUpload, md5)
    ensures out.Fail? ==> out.error == ValueError || out.error == FileNotFound
    ensures out.Fail? && toUpload <= local ==> out.error == ValueError
    ensures out.Fail? && AllTyped(toUpload) ==> out.error == FileNotFound
    ensures out.Fail? ==> exists done | done <= toUpload :: bucket.objects == WithUploads(old(bucket.objects), done, md5)
    ensures bucket.deleteRequests == old(bucket.deleteRequests)
  {
    ghost var before := bucket.objects;
    var remaining := toUpload;
    ghost var done: set<string> := {};
    assert WithUploads(before, done, md5) == before;
    while remaining != {}
      invariant remaining <= toUpload && done == toUpload - remaining
      invariant AllTyped(done) && done <= local
      invariant bucket.objects == WithUploads(before, done, md5)
      invariant bucket.deleteRequests == old(bucket.deleteRequests)
      decreases |remaining|
    {
      var filename :| filename in remaining;
      var contentType := ContentType(filename);
      if contentType.Failure? {
        assert !AllTyped(toUpload) by {
          assert filename in toUpload && ContentType(filename).Failure?;
        }
        return Fail(contentType.error);
      }
      if filename !in local {
        assert !(toUpload <= local) by {
          assert filename in toUpload;
        }
        return Fail(FileNotFound);
      }
      var obj := StoredObject(contentType.value, true, Some(md5(filename)));
      assert obj == UploadedObject(filename, md5);
      bucket.Upload(filename, obj);
      WithUploadsStep(before, done, filename, md5);
      remaining := remaining - {filename};
      done := done + {filename};
    }
    assert done == toUpload;
    out := Pass;
  }

  /**
   * `files_with_bucket(files_to_sync)`: plans the sync, uploads every planned
   * key, then deletes the stale objects in one request when there are any. A
   * listed file missing from the working directory raises FileNotFoundError
   * and a key without a content type ValueError; either aborts the rest and
   * skips the delete.
   */
  method FilesWithBucket(bucket: Bucket, files: set<string>, md5: string -> string, local: set<string>) returns (out: Outcome<Exc>)
    modifies bucket
    ensures out.Pass? <==> files <= local && AllTyped(UploadSet(old(bucket.objects), files, md5))
    ensures out.Pass? ==> bucket.objects == Synced(old(bucket.objects), files, md5)
    ensures out.Pass? ==> (bucket.deleteRequests == old(bucket.deleteRequests) +
              if DeleteSet(old(bucket.objects), files) == {} then [] else [DeleteSet(old(bucket.objects), files)])
    ensures out.Fail? ==> out.error == ValueError || out.error == FileNotFound
    ensures out.Fail? ==> bucket.deleteRequests == old(bucket.deleteRequests)
    ensures out.Fail? && files <= local ==> out.error == ValueError
    ensures out.Fail? && AllTyped(UploadSet(old(bucket.objects), files, md5)) ==> out.error == FileNotFound
    ensures out.Fail? ==> exists done | done <= UploadSet(old(bucket.objects), files, md5) ::
              bucket.objects == WithUploads(old(bucket.objects), done, md5)
  {
    PlannedFilesLocal(bucket.objects, files, md5, local);
    var toUpload, toDelete;
    out, toUpload, toDelete := PlanSync(bucket, files, md5, local);
    if out.Fail? {
      assert bucket.objects == WithUploads(old(bucket.objects), {}, md5);
      return;
    }
    out := UploadEach(bucket, toUpload, md5, local);
    if out.Fail? {
      return;
    }
    if toDelete != {} {
      bucket.DeleteObjects(toDelete);
    }
  }
}

=== FILE: script.dfy ===
/**
 * `bobcat.py`, the single-file version of the tool: it gathers the episodes
 * from the subscription pages, fetches their audio and image, converts the
 * audio with pydub, and mirrors the feed's files into the bucket without
 * comparing digests. Its `Episode` class, `download_episode_image` and
 * `load_episodes` behave as the package's and are the ones in `Episodes`
 * and `PackageMain`.
 */
module Script {
  import opened Wrappers
  import opened Text
  import opened Filenames
  import opened Store
  import opened Episodes
  import opened ObjectStore
  import opened Pagination
  import BbcSoundsPkg
  import S3SyncPkg
  import PackageMain

  // ---------------------------------------------------------------------------
  // get_episodes

  /**
   * `[Episode(url) for url in episode_urls]`: each url gives the episode whose
   * id is the url's last segment. An anchor without `href` gives None, whose
   * `split` raises AttributeError before any episode loads.
   */
  function Made(urls: seq<Option<string>>): Result<seq<Snapshot>, Exc>
    decreases |urls|
  {
    if urls == [] then Success([])
    else match Made(urls[..|urls| - 1])
      case Failure(e) => Failure(e)
      case Success(init) =>
        match urls[|urls| - 1]
        case None => Failure(AttributeError)
        case Some(u) => Success(init + [Snapshot(LastSegment(u), Fields(Present(Some(u)), None, None, None))])
  }

  /** The episodes are made exactly when every url is present, one per url, in order, with the url's last segment as id. */
  lemma {:induction false} MadeCases(urls: seq<Option<string>>)
    ensures Made(urls).Success? <==> forall i | 0 <= i < |urls| :: urls[i].Some?
    ensures Made(urls).Failure? ==> Made(urls).error == AttributeError
    ensures Made(urls).Success? ==> |Made(urls).value| == |urls|
    ensures Made(urls).Success? ==>
              forall i | 0 <= i < |urls| :: Made(urls).value[i] == Snapshot(LastSegment(urls[i].value), Fields(Present(urls[i]), None, None, None))
    decreases |urls|
  {
    if urls != [] {
      var init := urls[..|urls| - 1];
      MadeCases(init);
      assert forall k | 0 <= k < |init| :: init[k] == urls[k];
      if Made(urls).Success? {
        var m := Made(urls).value;
        forall i | 0 <= i < |urls|
          ensures urls[i].Some? && m[i] == Snapshot(LastSegment(urls[i].value), Fields(Present(urls[i]), None, None, None))
        {
          if i < |urls| - 1 {
            assert urls[i] == init[i] && m[i] == Made(init).value[i];
          }
        }
      }
    }
  }

  /** `get_episodes(max_episodes)` as a function of the pages and the page scraper. */
  function Gather(d: DirState, urls: seq<Option<string>>, src: Source): Gathered
  {
    match Made(urls)
    case Failure(e) => Gathered(d, [], Fail(e))
    case Success(made) => LoadEach(d, made, src)
  }

  /**
   * `get_episodes` ends the whole run on an anchor without `href`: AttributeError
   * is raised before any metadata is read, and the directory is unchanged.
   */
  lemma MissingHrefAbortsGather(d: DirState, urls: seq<Option<string>>, src: Source, k: nat)
    requires k < |urls| && urls[k].None?
    ensures Gather(d, urls, src) == Gathered(d, [], Fail(AttributeError))
  {
    MadeCases(urls);
  }

  /** How the list of made episodes grows by one url. */
  lemma MadeStep(urls: seq<Option<string>>, i: nat, pre: seq<Snapshot>, next: Snapshot)
    requires i < |urls| && urls[i].Some?
    requires Made(urls[..i]) == Success(pre)
    requires next == Snapshot(LastSegment(urls[i].value), Fields(Present(urls[i]), None, None, None))
    ensures Made(urls[..i + 1]) == Success(pre + [next])
  {
    var x := urls[..i + 1];
    assert x[..|x| - 1] == urls[..i];
    assert x[|x| - 1] == Some(urls[i].value);
  }

  /** One turn of the list comprehension: the episode for the next url, or the AttributeError that ends it. */
  method MakeNext(urls: seq<Option<string>>, i: nat, ghost made: seq<Snapshot>) returns (r: Result<Episode, Exc>)
    requires i < |urls| && Made(urls[..i]) == Success(made)
    ensures r.Failure? ==> Made(urls) == Failure(r.error)
    ensures r.Success? ==> fresh(r.value) && Made(urls[..i + 1]) == Success(made + [r.value.Snap()])
  {
    r := NewEpisode(urls[i], None);
    if r.Failure? {
      MadeCases(urls);
      return;
    }
    MadeStep(urls, i, made, r.value.Snap());
  }

  /** Episodes whose snapshots agree one by one with `made` have `made` as their snapshots. */
  lemma SnapsPointwise(es: seq<Episode>, made: seq<Snapshot>)
    requires |es| == |made| && forall j | 0 <= j < |es| :: es[j].Snap() == made[j]
    ensures Snaps(es) == made
  {
  }

  /** `[Episode(url) for url in episode_urls]` */
  method MakeEpisodes(urls: seq<Option<string>>) returns (episodes: seq<Episode>, out: Outcome<Exc>)
    ensures forall j | 0 <= j < |episodes| :: fresh(episodes[j])
    ensures forall j, k | 0 <= j < k < |episodes| :: episodes[j] != episodes[k]
    ensures match Made(urls)
            case Success(made) => out == Pass && Snaps(episodes) == made
            case Failure(e) => out == Fail(e) && episodes == []
  {
    episodes := [];
    ghost var made: seq<Snapshot> := [];
    var i := 0;
    while i < |urls|
      invariant 0 <= i <= |urls| && |episodes| == i
      invariant forall j | 0 <= j < i :: fresh(episodes[j])
      invariant forall j, k | 0 <= j < k < i :: episodes[j] != episodes[k]
      invariant |made| == i && forall j | 0 <= j < i :: episodes[j].Snap() == made[j]
      invariant Made(urls[..i]) == Success(made)
      decreases |urls| - i
    {
      var next := MakeNext(urls, i, made);
      if next.Failure? {
        return [], Fail(next.error);
      }
      assert forall j | 0 <= j < i :: episodes[j] != next.value;
      episodes := episodes + [next.value];
      made := made + [next.value.Snap()];
      i := i + 1;
    }
    assert urls[..i] == urls;
    SnapsPointwise(episodes, made);
    out := Pass;
  }

  /** How the loading loop advances over one episode. */
  lemma LoadEachStep(d: DirState, made: seq<Snapshot>, i: nat, src: Source, pre: seq<Snapshot>, before: DirState, l: Loaded)
    requires i < |made|
    requires LoadEach(d, made[..i], src) == Gathered(before, pre, Pass)
    requires l == LoadedMetadata(before, made[i].id, made[i].fields, src)
    ensures l.outcome.Fail? ==> LoadEach(d, made, src) == Gathered(l.dir, [], l.outcome)
    ensures l.outcome.Pass? ==> LoadEach(d, made[..i + 1], src) == Gathered(l.dir, pre + [Snapshot(made[i].id, l.fields)], Pass)
  {
    assert made[..i + 1][..i] == made[..i];
    if l.outcome.Fail? {
      LoadEachStopped(d, made, i + 1, src);
    }
  }

  /** Once a prefix raised, the whole list raises in the same state. */
  lemma {:induction false} LoadEachStopped(d: DirState, made: seq<Snapshot>, k: nat, src: Source)
    requires k <= |made|
    requires LoadEach(d, made[..k], src).outcome.Fail?
    ensures LoadEach(d, made, src) == LoadEach(d, made[..k], src)
    decreases |made| - k
  {
    if k < |made| {
      assert made[..k + 1][..k] == made[..k];
      LoadEachStopped(d, made, k + 1, src);
    } else {
      assert made[..k] == made;
    }
  }

  /** One turn of the loading loop: the next episode loads, or the loop ends with its error. */
  method LoadNext(dir: WorkDir, episodes: seq<Episode>, i: nat, src: Source, ghost d: DirState, ghost made: seq<Snapshot>, ghost loaded: seq<Snapshot>)
      returns (out: Outcome<Exc>, ghost loaded': seq<Snapshot>)
    requires dir.Valid() && i < |episodes| == |made| && |loaded| == i
    requires forall j, k | 0 <= j < k < |episodes| :: episodes[j] != episodes[k]
    requires forall j | 0 <= j < i :: episodes[j].Snap() == loaded[j]
    requires forall j | i <= j < |episodes| :: episodes[j].Snap() == made[j]
    requires LoadEach(d, made[..i], src) == Gathered(dir.State(), loaded, Pass)
    modifies dir, episodes[i]
    ensures dir.Valid()
    ensures out.Fail? ==> LoadEach(d, made, src) == Gathered(dir.State(), [], out)
    ensures out.Pass? ==> |loaded'| == i + 1
    ensures out.Pass? ==> forall j | 0 <= j < i + 1 :: episodes[j].Snap() == loaded'[j]
    ensures out.Pass? ==> forall j | i + 1 <= j < |episodes| :: episodes[j].Snap() == made[j]
    ensures out.Pass? ==> LoadEach(d, made[..i + 1], src) == Gathered(dir.State(), loaded', Pass)
  {
    var episode := episodes[i];
    ghost var before := dir.State();
    out := episode.LoadMetadata(dir, src);
    ghost var l := Loaded(dir.State(), episode.Info(), out);
    LoadEachStep(d, made, i, src, loaded, before, l);
    loaded' := loaded + [episode.Snap()];
  }

  /** The loop `for episode in episodes: episode.load_metadata()`. */
  method LoadEachEpisode(dir: WorkDir, episodes: seq<Episode>, src: Source) returns (out: Outcome<Exc>)
    requires dir.Valid()
    requires forall j, k | 0 <= j < k < |episodes| :: episodes[j] != episodes[k]
    modifies dir, set e | e in episodes
    ensures dir.Valid()
    ensures Gathered(dir.State(), if out.Pass? then Snaps(episodes) else [], out) == LoadEach(old(dir.State()), old(Snaps(episodes)), src)
  {
    ghost var d := dir.State();
    ghost var made := Snaps(episodes);
    ghost var loaded: seq<Snapshot> := [];
    assert made[..0] == [];
    var i := 0;
    while i < |episodes|
      invariant 0 <= i <= |episodes| && dir.Valid() && |loaded| == i
      invariant forall j | 0 <= j < i :: episodes[j].Snap() == loaded[j]
      invariant forall j | i <= j < |episodes| :: episodes[j].Snap() == made[j]
      invariant LoadEach(d, made[..i], src) == Gathered(dir.State(), loaded, Pass)
      decreases |episodes| - i
    {
      ghost var loaded';
      out, loaded' := LoadNext(dir, episodes, i, src, d, made, loaded);
      if out.Fail? {
        return;
      }
      loaded := loaded';
      i := i + 1;
    }
    assert made[..i] == made;
    assert Snaps(episodes) == loaded;
    out := Pass;
  }

  /**
   * `get_episodes(max_episodes)`: the subscription pages are read as
   * `bbc_sounds/__init__.py` reads them (every anchor's `href`, absent ones
   * included), the episodes are made, then each loads its metadata.
   */
  method GetEpisodes(dir: WorkDir, pages: seq<seq<Option<string>>>, maxEpisodes: int, scrape: Option<string> -> Result<Page, Exc>)
      returns (episodes: seq<Episode>, out: Outcome<Exc>)
    requires dir.Valid()
    modifies dir
    ensures dir.Valid()
    ensures Gathered(dir.State(), Snaps(episodes), out) == Gather(old(dir.State()), Collected(pages, maxEpisodes), Scraper(scrape))
  {
    var urls, _ := BbcSoundsPkg.GetEpisodeUrls(pages, maxEpisodes);
    episodes, out := MakeEpisodes(urls);
    if out.Fail? {
      return;
    }
    out := LoadEachEpisode(dir, episodes, Scraper(scrape));
    if out.Fail? {
      episodes := [];
    }
  }

  // ---------------------------------------------------------------------------
  // download_episodes

  /**
   * `download_episode_audio`: skipped when `{id}.m4a` exists, else one
   * streaming download whose failure is swallowed by the bare `except`. An
   * episode whose url was never assigned raises AttributeError inside the
   * `try`, which is swallowed as well, before any call.
   */
  function AudioStep(d: DirState, s: Snapshot, w: World): Step
  {
    if AudioFilename(s.id) in d.files || s.fields.url.Missing? then Step(d, Pass)
    else Step(AfterCall(d, StreamAudio(s.fields.url.value, AudioFilename(s.id)), w).dir, Pass)
  }

  /**
   * `convert_episode_audio`: pydub opens the `.m4a` first, so a missing audio
   * file raises even when the `.mp3` exists; with the audio there, the step is
   * skipped when the `.mp3` exists and otherwise exports it, with the title
   * as its tag and the `.jpg` as its cover. Decoding the audio and its
   * duration are not modelled.
   */
  function ConvertStep(d: DirState, s: Snapshot, w: World): Step
  {
    if AudioFilename(s.id) !in d.files then Step(d, Fail(FileNotFound))
    else if OutputFilename(s.id) in d.files then Step(d, Pass)
    else AfterCall(d, Export(AudioFilename(s.id), OutputFilename(s.id), s.fields.title, ImageFilename(s.id)), w)
  }

  /** The three steps of one episode in order: audio, image, conversion; an exception ends them. */
  function EpisodeSteps(d: DirState, s: Snapshot, w: World): Step
  {
    var a := AudioStep(d, s, w);
    var i := PackageMain.ImageStep(a.dir, s, w);
    if i.outcome.Fail? then i else ConvertStep(i.dir, s, w)
  }

  /** `download_episodes(episodes)`: the episodes in list order; the first exception ends the run. */
  function Acquire(d: DirState, snaps: seq<Snapshot>, w: World): Step
    decreases |snaps|
  {
    if snaps == [] then Step(d, Pass)
    else
      var s := EpisodeSteps(d, snaps[0], w);
      if s.outcome.Fail? then s else Acquire(s.dir, snaps[1..], w)
  }

  /**
   * The audio step never raises: it does nothing when the `.m4a` exists or
   * the episode has no url, and otherwise makes exactly one streaming call,
   * whatever its outcome.
   */
  lemma AudioStepNeverRaises(d: DirState, s: Snapshot, w: World)
    ensures AudioStep(d, s, w).outcome == Pass
    ensures AudioFilename(s.id) in d.files || s.fields.url.Missing? ==> AudioStep(d, s, w).dir == d
    ensures AudioFilename(s.id) !in d.files && s.fields.url.Present? ==>
              AudioStep(d, s, w).dir.calls == d.calls + [StreamAudio(s.fields.url.value, AudioFilename(s.id))]
  {
  }

  /**
   * The conversion needs the `.m4a`: without it FileNotFound is raised, even
   * for an episode already converted. With it, an existing `.mp3` skips the
   * export, and otherwise exactly one export is made, which leaves the `.mp3`
   * when it completes.
   */
  lemma ConvertStepCases(d: DirState, s: Snapshot, w: World)
    ensures AudioFilename(s.id) !in d.files ==> ConvertStep(d, s, w) == Step(d, Fail(FileNotFound))
    ensures AudioFilename(s.id) in d.files && OutputFilename(s.id) in d.files ==> ConvertStep(d, s, w) == Step(d, Pass)
    ensures AudioFilename(s.id) in d.files && OutputFilename(s.id) !in d.files ==>
              ConvertStep(d, s, w).dir.calls == d.calls + [Export(AudioFilename(s.id), OutputFilename(s.id), s.fields.title, ImageFilename(s.id))]
    ensures AudioFilename(s.id) in d.files && OutputFilename(s.id) !in d.files &&
            w.effect(Export(AudioFilename(s.id), OutputFilename(s.id), s.fields.title, ImageFilename(s.id))) == Completed ==>
              ConvertStep(d, s, w).outcome == Pass && OutputFilename(s.id) in ConvertStep(d, s, w).dir.files
  {
  }

  /**
   * The audio error swallowed by the first step comes back: when the episode
   * has no url, or the stream fails without leaving a file, and the image is
   * fetched, the conversion raises FileNotFound and the run ends there.
   */
  lemma SwallowedAudioErrorResurfaces(d: DirState, s: Snapshot, w: World)
    requires AudioFilename(s.id) !in d.files
    requires s.fields.url.Missing? || w.effect(StreamAudio(s.fields.url.value, AudioFilename(s.id))) == Failed(false)
    requires w.effect(DownloadFile(s.fields.imageUrl, ImageFilename(s.id))) == Completed
    ensures EpisodeSteps(d, s, w).outcome == Fail(FileNotFound)
  {
    FilenameKindsDisjoint(s.id, s.id);
  }

  /**
   * `r` is `d` after steps that only add media: no file is removed, every
   * episode's metadata cache reads the same, calls are only appended, and
   * only present files hold records.
   */
  ghost predicate Grows(d: DirState, r: DirState)
  {
    && d.files <= r.files
    && (forall id :: Read(r, MetadataFilename(id)) == Read(d, MetadataFilename(id)))
    && d.calls <= r.calls
    && (Consistent(d) ==> Consistent(r))
  }

  lemma GrowsTransitive(a: DirState, b: DirState, c: DirState)
    requires Grows(a, b) && Grows(b, c)
    ensures Grows(a, c)
  {
  }

  /** A call whose target is not a metadata file only adds media. */
  lemma CallGrows(d: DirState, c: Call, w: World)
    requires |Target(c)| > 0 && Target(c)[|Target(c)| - 1] != 'n'
    ensures Grows(d, AfterCall(d, c, w).dir)
  {
    var r := AfterCall(d, c, w).dir;
    forall id ensures Read(r, MetadataFilename(id)) == Read(d, MetadataFilename(id)) {
      PackageMain.MetadataNameEnd(id);
      assert Read(r, MetadataFilename(id)) == Read(d, MetadataFilename(id));
    }
  }

  /** One episode's steps only add media. */
  lemma EpisodeStepsGrow(d: DirState, s: Snapshot, w: World)
    ensures Grows(d, EpisodeSteps(d, s, w).dir)
  {
    var a, i, o := AudioFilename(s.id), ImageFilename(s.id), OutputFilename(s.id);
    assert a[|a| - 1] == 'a' && i[|i| - 1] == 'g' && o[|o| - 1] == '3';
    var da := AudioStep(d, s, w).dir;
    if a !in d.files && s.fields.url.Present? {
      CallGrows(d, StreamAudio(s.fields.url.value, a), w);
    }
    var di := PackageMain.ImageStep(da, s, w).dir;
    if i !in da.files {
      CallGrows(da, DownloadFile(s.fields.imageUrl, i), w);
    }
    GrowsTransitive(d, da, di);
    if a in di.files && o !in di.files {
      CallGrows(di, Export(a, o, s.fields.title, i), w);
      GrowsTransitive(d, di, ConvertStep(di, s, w).dir);
    }
  }

  /** A run never removes a file, never disturbs the metadata cache, and only appends to the call log. */
  lemma {:induction false} AcquireGrows(d: DirState, snaps: seq<Snapshot>, w: World)
    ensures Grows(d, Acquire(d, snaps, w).dir)
    decreases |snaps|
  {
    if snaps != [] {
      EpisodeStepsGrow(d, snaps[0], w);
      var s := EpisodeSteps(d, snaps[0], w);
      if s.outcome.Pass? {
        AcquireGrows(s.dir, snaps[1..], w);
        GrowsTransitive(d, s.dir, Acquire(s.dir, snaps[1..], w).dir);
      }
    }
  }

  /** Every download and export completes. */
  ghost predicate EffectsComplete(w: World)
  {
    forall c :: w.effect(c) == Completed
  }

  /** With every download and export completing, one episode with a url completes its steps and is left with its three files. */
  lemma EpisodeStepsComplete(d: DirState, s: Snapshot, w: World)
    requires EffectsComplete(w) && s.fields.url.Present?
    ensures EpisodeSteps(d, s, w).outcome == Pass
    ensures PackageMain.Acquired(EpisodeSteps(d, s, w).dir, s.id)
  {
    FilenameKindsDisjoint(s.id, s.id);
  }

  /**
   * With every download and export completing, and episodes that all have a
   * url (as loaded episodes do), a run completes and every episode ends with
   * its three files.
   */
  lemma {:induction false} AcquireCompletes(d: DirState, snaps: seq<Snapshot>, w: World)
    requires EffectsComplete(w)
    requires forall i | 0 <= i < |snaps| :: snaps[i].fields.url.Present?
    ensures Acquire(d, snaps, w).outcome == Pass
    ensures forall i | 0 <= i < |snaps| :: PackageMain.Acquired(Acquire(d, snaps, w).dir, snaps[i].id)
    decreases |snaps|
  {
    if snaps != [] {
      var s := EpisodeSteps(d, snaps[0], w);
      EpisodeStepsComplete(d, snaps[0], w);
      assert forall i | 0 <= i < |snaps| - 1 :: snaps[1..][i] == snaps[i + 1];
      AcquireCompletes(s.dir, snaps[1..], w);
      AcquireGrows(s.dir, snaps[1..], w);
      var r := Acquire(d, snaps, w);
      assert r == Acquire(s.dir, snaps[1..], w);
      forall i | 0 <= i < |snaps| ensures PackageMain.Acquired(r.dir, snaps[i].id) {
        if i > 0 {
          assert snaps[i] == snaps[1..][i - 1];
        }
      }
    }
  }

  /** How a run advances over one episode: it ends with that episode's exception, or goes on with the rest. */
  lemma AcquireNext(d: DirState, snaps: seq<Snapshot>, i: nat, w: World)
    requires i < |snaps|
    ensures var s := EpisodeSteps(d, snaps[i], w);
      Acquire(d, snaps[i..], w) == if s.outcome.Fail? then s else Acquire(s.dir, snaps[i + 1..], w)
  {
    assert snaps[i..][0] == snaps[i] && snaps[i..][1..] == snaps[i + 1..];
  }

  /** When every episode has its three files, a run calls nothing and changes nothing. */
  lemma {:induction false} AcquireNothingToDo(d: DirState, snaps: seq<Snapshot>, w: World)
    requires forall i | 0 <= i < |snaps| :: PackageMain.Acquired(d, snaps[i].id)
    ensures Acquire(d, snaps, w) == Step(d, Pass)
    decreases |snaps|
  {
    if snaps != [] {
      AcquireNothingToDo(d, snaps[1..], w);
    }
  }

  /** `download_episode_audio(episode)` */
  method DownloadEpisodeAudio(dir: WorkDir, e: Episode, w: World) returns (out: Outcome<Exc>)
    requires dir.Valid()
    modifies dir
    ensures dir.Valid()
    ensures Step(dir.State(), out) == AudioStep(old(dir.State()), e.Snap(), w)
  {
    var downloaded := dir.Exists(AudioFilename(e.episodeId));
    if !downloaded && e.url.Present? {
      var _ := dir.Invoke(StreamAudio(e.url.value, AudioFilename(e.episodeId)), w);
    }
    out := Pass;
  }

  /** `convert_episode_audio(episode)` */
  method ConvertEpisodeAudio(dir: WorkDir, e: Episode, w: World) returns (out: Outcome<Exc>)
    requires dir.Valid()
    modifies dir
    ensures dir.Valid()
    ensures Step(dir.State(), out) == ConvertStep(old(dir.State()), e.Snap(), w)
  {
    var audio := dir.Exists(AudioFilename(e.episodeId));
    if !audio {
      return Fail(FileNotFound);
    }
    var converted := dir.Exists(OutputFilename(e.episodeId));
    if converted {
      return Pass;
    }
    out := dir.Invoke(Export(AudioFilename(e.episodeId), OutputFilename(e.episodeId), e.title, ImageFilename(e.episodeId)), w);
  }

  /** The body of `download_episodes`' loop for one episode. */
  method AcquireEpisode(dir: WorkDir, e: Episode, w: World) returns (out: Outcome<Exc>)
    requires dir.Valid()
    modifies dir
    ensures dir.Valid()
    ensures Step(dir.State(), out) == EpisodeSteps(old(dir.State()), e.Snap(), w)
  {
    out := DownloadEpisodeAudio(dir, e, w);
    out := PackageMain.DownloadEpisodeImage(dir, e, w);
    if out.Fail? {
      return;
    }
    out := ConvertEpisodeAudio(dir, e, w);
  }

  /** One turn of `download_episodes`: the next episode's steps, and what remains of the run after them. */
  method AcquireNextEpisode(dir: WorkDir, episodes: seq<Episode>, i: nat, w: World, ghost snaps: seq<Snapshot>) returns (out: Outcome<Exc>)
    requires dir.Valid() && i < |episodes| == |snaps| && episodes[i].Snap() == snaps[i]
    modifies dir
    ensures dir.Valid()
    ensures out.Fail? ==> Step(dir.State(), out) == old(Acquire(dir.State(), snaps[i..], w))
    ensures out.Pass? ==> Acquire(dir.State(), snaps[i + 1..], w) == old(Acquire(dir.State(), snaps[i..], w))
  {
    AcquireNext(dir.State(), snaps, i, w);
    out := AcquireEpisode(dir, episodes[i], w);
  }

  /** `download_episodes(episodes)` */
  method DownloadEpisodes(dir: WorkDir, episodes: seq<Episode>, w: World) returns (out: Outcome<Exc>)
    requires dir.Valid()
    modifies dir
    ensures dir.Valid()
    ensures Step(dir.State(), out) == Acquire(old(dir.State()), Snaps(episodes), w)
  {
    ghost var snaps := Snaps(episodes);
    ghost var goal := Acquire(dir.State(), snaps, w);
    var i := 0;
    while i < |episodes|
      invariant 0 <= i <= |episodes| && dir.Valid()
      invariant forall j | 0 <= j < |episodes| :: episodes[j].Snap() == snaps[j]
      invariant goal == Acquire(dir.State(), snaps[i..], w)
      decreases |episodes| - i
    {
      out := AcquireNextEpisode(dir, episodes, i, w, snaps);
      if out.Fail? {
        assert Snaps(episodes) == snaps;
        return;
      }
      i := i + 1;
    }
    assert snaps[i..] == [];
    assert Snaps(episodes) == snaps;
    out := Pass;
  }



  // ---------------------------------------------------------------------------
  // sync_with_s3

  /** `to_upload`: the feed's files the bucket lacks, and always the feed itself. */
  function UploadSet(keys: set<string>, inFeed: set<string>): set<string>
  {
    (inFeed - keys) + {RssFile}
  }

  /** `to_delete`: the bucket's keys the feed no longer lists. */
  function DeleteSet(keys: set<string>, inFeed: set<string>): set<string>
  {
    keys - inFeed
  }

  /** The object an upload stores: public and typed by its suffix, with no `md5` metadata. */
  function PlainObject(k: string): (obj: StoredObject)
    ensures obj.publicRead && obj.md5.None?
    ensures ContentType(k).Success? ==> obj.contentType == ContentType(k).value
  {
    StoredObject(match ContentType(k) case Success(t) => t case Failure(_) => "", true, None)
  }

  /** The bucket after `keys` have been uploaded. */
  function WithPlainUploads(objects: map<string, StoredObject>, keys: set<string>): map<string, StoredObject>
  {
    objects + map k | k in keys :: PlainObject(k)
  }

  /** The bucket after a complete sync. */
  function Mirrored(objects: map<string, StoredObject>, inFeed: set<string>): map<string, StoredObject>
  {
    WithPlainUploads(objects, UploadSet(objects.Keys, inFeed)) - DeleteSet(objects.Keys, inFeed)
  }

  /**
   * For a feed, which lists `podcast.xml`: the upload and delete sets are
   * disjoint, nothing the feed lists is ever deleted, and a key is uploaded
   * exactly when the bucket lacks it or it is the feed itself.
   */
  lemma PlanCharacterised(keys: set<string>, ids: seq<string>, k: string)
    ensures UploadSet(keys, FeedKeys(ids)) !! DeleteSet(keys, FeedKeys(ids))
    ensures k in FeedKeys(ids) ==> k !in DeleteSet(keys, FeedKeys(ids))
    ensures k in UploadSet(keys, FeedKeys(ids)) <==> k == RssFile || (k in FeedKeys(ids) && k !in keys)
    ensures UploadSet(keys, FeedKeys(ids)) <= FeedKeys(ids)
  {
  }

  /**
   * After a complete sync the bucket's keys are the feed's files, and the feed
   * itself has just been replaced. Objects already there are kept as they were,
   * even if the local file changed since: only the feed is ever refreshed.
   */
  lemma MirroredIsFeed(objects: map<string, StoredObject>, ids: seq<string>)
    ensures Mirrored(objects, FeedKeys(ids)).Keys == FeedKeys(ids)
    ensures Mirrored(objects, FeedKeys(ids))[RssFile] == PlainObject(RssFile)
    ensures forall k | k in objects && k in FeedKeys(ids) && k != RssFile :: Mirrored(objects, FeedKeys(ids))[k] == objects[k]
  {
    var m := Mirrored(objects, FeedKeys(ids));
    forall k | k in FeedKeys(ids) ensures k in m {
      if k !in objects {
        assert k in UploadSet(objects.Keys, FeedKeys(ids));
      }
    }
  }

  /** A second sync right after the first uploads only the feed and deletes nothing. */
  lemma RerunUploadsOnlyFeed(objects: map<string, StoredObject>, ids: seq<string>)
    ensures UploadSet(Mirrored(objects, FeedKeys(ids)).Keys, FeedKeys(ids)) == {RssFile}
    ensures DeleteSet(Mirrored(objects, FeedKeys(ids)).Keys, FeedKeys(ids)) == {}
  {
    MirroredIsFeed(objects, ids);
  }

  /** Uploading one more key: the map gains that key's plain object. */
  lemma WithPlainUploadsStep(objects: map<string, StoredObject>, done: set<string>, k: string)
    ensures WithPlainUploads(objects, done)[k := PlainObject(k)] == WithPlainUploads(objects, done + {k})
  {
  }

  /**
   * The upload loop of `sync_with_s3`: each key in turn. A key without a
   * content type raises ValueError, and a key not in the working directory
   * FileNotFoundError; either way before it is sent, leaving the keys already
   * sent in place.
   */
  method UploadPlain(bucket: Bucket, toUpload: set<string>, local: set<string>) returns (out: Outcome<Exc>)
    modifies bucket
    ensures out.Pass? <==> S3SyncPkg.AllTyped(toUpload) && toUpload <= local
    ensures out.Pass? ==> bucket.objects == WithPlainUploads(old(bucket.objects), toUpload)
    ensures out.Fail? ==> out.error == ValueError || out.error == FileNotFound
    ensures out.Fail? && toUpload <= local ==> out.error == ValueError
    ensures out.Fail? && S3SyncPkg.AllTyped(toUpload) ==> out.error == FileNotFound
    ensures out.Fail? ==> exists done | done <= toUpload :: bucket.objects == WithPlainUploads(old(bucket.objects), done)
    ensures bucket.deleteRequests == old(bucket.deleteRequests)
  {
    ghost var before := bucket.objects;
    var remaining := toUpload;
    ghost var done: set<string> := {};
    assert WithPlainUploads(before, done) == before;
    while remaining != {}
      invariant remaining <= toUpload && done == toUpload - remaining
      invariant S3SyncPkg.AllTyped(done) && done <= local
      invariant bucket.objects == WithPlainUploads(before, done)
      invariant bucket.deleteRequests == old(bucket.deleteRequests)
      decreases |remaining|
    {
      var file :| file in remaining;
      var contentType := ContentType(file);
      if contentType.Failure? {
        assert !S3SyncPkg.AllTyped(toUpload) by {
          assert file in toUpload && ContentType(file).Failure?;
        }
        return Fail(contentType.error);
      }
      if file !in local {
        assert !(toUpload <= local) by {
          assert file in toUpload;
        }
        return Fail(FileNotFound);
      }
      var obj := StoredObject(contentType.value, true, None);
      assert obj == PlainObject(file);
      bucket.Upload(file, obj);
      WithPlainUploadsStep(before, done, file);
      remaining := remaining - {file};
      done := done + {file};
    }
    assert done == toUpload;
    out := Pass;
  }

  /** Every key a feed's sync uploads has a content type. */
  lemma FeedUploadsTyped(keys: set<string>, ids: seq<string>)
    ensures S3SyncPkg.AllTyped(UploadSet(keys, FeedKeys(ids)))
  {
    forall k | k in UploadSet(keys, FeedKeys(ids)) ensures ContentType(k).Success? {
      FeedKeysHaveContentType(ids, k);
    }
  }

  /**
   * The body of `sync_with_s3` once the feed's files are known. It completes
   * exactly when the feed and every file of it the bucket lacks are in the
   * working directory; files the bucket already holds are not read.
   */
  method SyncFeed(bucket: Bucket, inFeed: set<string>, ghost ids: seq<string>, local: set<string>) returns (out: Outcome<Exc>)
    requires inFeed == FeedKeys(ids)
    modifies bucket
    ensures out.Pass? <==> UploadSet(old(bucket.objects).Keys, inFeed) <= local
    ensures out.Fail? ==> out.error == FileNotFound
    ensures out.Fail? ==> bucket.deleteRequests == old(bucket.deleteRequests)
    ensures out.Fail? ==> exists done | done <= UploadSet(old(bucket.objects).Keys, inFeed) ::
              bucket.objects == WithPlainUploads(old(bucket.objects), done)
    ensures out.Pass? ==> bucket.objects == Mirrored(old(bucket.objects), inFeed)
    ensures out.Pass? ==> (bucket.deleteRequests == old(bucket.deleteRequests) +
              var stale := DeleteSet(old(bucket.objects).Keys, inFeed);
              if stale == {} then [] else [stale])
  {
    var uploaded := bucket.Keys();
    var toUpload := inFeed - uploaded;
    var toDelete := uploaded - inFeed;
    toUpload := toUpload + {RssFile};
    FeedUploadsTyped(uploaded, ids);
    out := UploadPlain(bucket, toUpload, local);
    if out.Fail? {
      return;
    }
    if toDelete != {} {
      bucket.DeleteObjects(toDelete);
    }
  }

  /**
   * `sync_with_s3(episodes, ...)`: the feed's files are computed as
   * `upload_podcast` computes them, the missing ones and the feed are
   * uploaded, and the stale objects are deleted in one request when there are
   * any. Every file of a feed has a content type, so the only error is a file
   * to upload that is missing from the working directory: FileNotFoundError,
   * with no delete request.
   */
  method SyncWithS3(bucket: Bucket, dir: WorkDir, episodes: seq<Episode>) returns (out: Outcome<Exc>)
    modifies bucket
    ensures out.Pass? <==> UploadSet(old(bucket.objects).Keys, FeedKeys(Ids(Snaps(episodes)))) <= dir.State().files
    ensures out.Fail? ==> out.error == FileNotFound
    ensures out.Fail? ==> bucket.deleteRequests == old(bucket.deleteRequests)
    ensures out.Fail? ==> exists done | done <= UploadSet(old(bucket.objects).Keys, FeedKeys(Ids(Snaps(episodes)))) ::
              bucket.objects == WithPlainUploads(old(bucket.objects), done)
    ensures out.Pass? ==> bucket.objects == Mirrored(old(bucket.objects), FeedKeys(Ids(Snaps(episodes))))
    ensures out.Pass? ==> (bucket.deleteRequests == old(bucket.deleteRequests) +
              var stale := DeleteSet(old(bucket.objects).Keys, FeedKeys(Ids(Snaps(episodes))));
              if stale == {} then [] else [stale])
  {
    ghost var ids := Ids(Snaps(episodes));
    var inFeed := PackageMain.FilesInFeed(episodes);
    out := SyncFeed(bucket, inFeed, ids, dir.files);
    assert Ids(Snaps(episodes)) == ids;
  }
}

=== FILE: store.dfy ===
/**
 * The podcast's working directory, seen as a content store: which files are
 * present, which of them hold a metadata record, and the log of calls made to
 * the collaborators (downloader, streaming downloader, ffmpeg, pydub) that put
 * files into it. The collaborators themselves are not modelled; a `World`
 * says how each call turns out.
 */
module Store {
  import opened Wrappers

  /**
   * One key of a record, or one attribute of an object: absent (never
   * assigned), or present with a string or a JSON null / Python None.
   */
  datatype Entry = Missing | Present(value: Option<string>)

  /**
   * A metadata record as `json.loads` gives it back from `{id}.json`: an `id`
   * and four keys, each of which the file may lack.
   */
  datatype Record = Record(
    id: string,
    url: Entry,
    title: Entry,
    description: Entry,
    imageUrl: Entry)

  /** A record that has all four keys after `id`, as `_write_metadata_file` writes them. */
  predicate Complete(rec: Record)
  {
    rec.url.Present? && rec.title.Present? && rec.description.Present? && rec.imageUrl.Present?
  }

  /** A call to a collaborator that writes one file into the directory. */
  datatype Call =
    | StreamAudio(url: Option<string>, target: string)       // stream an episode page's audio to a file
    | DownloadFile(url: Option<string>, target: string)      // fetch a url into a file
    | Ffmpeg(command: seq<string>)                           // run ffmpeg; its output file is the last argument
    | Export(source: string, target: string, title: Option<string>, cover: string)  // pydub's mp3 export

  /** The file a call writes. */
  function Target(c: Call): (t: string)
    ensures c.Ffmpeg? && c.command != [] ==> t == c.command[|c.command| - 1]
  {
    match c
    case StreamAudio(_, target) => target
    case DownloadFile(_, target) => target
    case Ffmpeg(command) => if command == [] then "" else command[|command| - 1]
    case Export(_, target, _, _) => target
  }

  /**
   * How a download or export turns out: it completes and writes its target, or
   * it raises, possibly after writing part of its target.
   */
  datatype Effect = Completed | Failed(partial: bool)

  /** How an ffmpeg run turns out: its exit code, and whether it wrote its output file. */
  datatype Process = Process(exitCode: int, wroteOutput: bool)

  /** The collaborators' behaviour, a fixed function of the call during one run. */
  datatype World = World(effect: Call -> Effect, ffmpeg: seq<string> -> Process)

  /** The directory's content: its files, the metadata records among them, and the calls made so far. */
  datatype DirState = DirState(files: set<string>, records: map<string, Record>, calls: seq<Call>)

  /** The new directory state after an operation, and whether it completed or raised. */
  datatype Step = Step(dir: DirState, outcome: Outcome<Exc>)

  /** Only files that are present hold records. */
  predicate Consistent(d: DirState)
  {
    d.records.Keys <= d.files
  }

  /** `name` now holds content that is not a metadata record. */
  function Overwrite(d: DirState, name: string): (d': DirState)
    ensures d'.files == d.files + {name} && name !in d'.records
    ensures Consistent(d) ==> Consistent(d')
  {
    d.(files := d.files + {name}, records := d.records - {name})
  }

  /**
   * One call to a collaborator, appended to the log. A download or export
   * that completes writes its target; one that fails raises and leaves a
   * partial target when its effect says so. ffmpeg itself never raises here:
   * it writes its output when it says it did, and its exit code is left for
   * the caller to inspect.
   */
  function AfterCall(d: DirState, c: Call, w: World): (s: Step)
    ensures s.dir.calls == d.calls + [c]
    ensures s.dir.files == d.files || s.dir.files == d.files + {Target(c)}
    ensures Consistent(d) ==> Consistent(s.dir)
    ensures s.outcome.Fail? ==> !c.Ffmpeg?
  {
    var logged := d.(calls := d.calls + [c]);
    match c
    case Ffmpeg(command) =>
      Step(if w.ffmpeg(command).wroteOutput then Overwrite(logged, Target(c)) else logged, Pass)
    case _ =>
      match w.effect(c)
      case Completed => Step(Overwrite(logged, Target(c)), Pass)
      case Failed(partial) =>
        var err := if c.Export? then ExportFailed else DownloadFailed;
        Step(if partial then Overwrite(logged, Target(c)) else logged, Fail(err))
  }

  /** Reading a file as a metadata record: it must be present and hold one. */
  function Read(d: DirState, name: string): (r: Result<Record, Exc>)
    ensures r.Success? <==> name in d.records && name in d.files
    ensures r.Success? ==> r.value == d.records[name]
    ensures name !in d.files ==> r == Failure(FileNotFound)
  {
    if name !in d.files then Failure(FileNotFound)
    else if name !in d.records then Failure(Malformed)
    else Success(d.records[name])
  }

  /** Writing a metadata record creates or replaces the file. */
  function Write(d: DirState, name: string, rec: Record): (d': DirState)
    ensures Read(d', name) == Success(rec)
    ensures forall n | n != name :: Read(d', n) == Read(d, n)
    ensures d'.files == d.files + {name} && d'.calls == d.calls
    ensures Consistent(d) ==> Consistent(d')
  {
    d.(files := d.files + {name}, records := d.records[name := rec])
  }

  /**
   * `os.rename(src, dst)`: the file and its content move to `dst`, replacing
   * whatever was there; a missing `src` raises and changes nothing.
   */
  function AfterRename(d: DirState, src: string, dst: string): (s: Step)
    ensures src !in d.files <==> s == Step(d, Fail(FileNotFound))
    ensures src in d.files ==> s.outcome == Pass && s.dir.files == d.files - {src} + {dst}
    ensures src in d.files ==> Read(s.dir, dst) == Read(d, src)
    ensures forall n | n != src && n != dst :: Read(s.dir, n) == Read(d, n)
    ensures s.dir.calls == d.calls
    ensures Consistent(d) ==> Consistent(s.dir)
  {
    if src !in d.files then Step(d, Fail(FileNotFound))
    else
      var records := if src in d.records then (d.records - {src})[dst := d.records[src]] else d.records - {src, dst};
      Step(d.(files := d.files - {src} + {dst}, records := records), Pass)
  }

  /** The working directory, changed in place by the steps that fill it. */
  class WorkDir {
    var files: set<string>
    var records: map<string, Record>
    var calls: seq<Call>

    ghost predicate Valid()
      reads this
    {
      Consistent(State())
    }

    function State(): DirState
      reads this
    {
      DirState(files, records, calls)
    }

    constructor (d: DirState)
      requires Consistent(d)
      ensures Valid() && State() == d
    {
      files, records, calls := d.files, d.records, d.calls;
    }

    /** `Path(name).exists()` */
    method Exists(name: string) returns (present: bool)
      ensures present <==> name in State().files
    {
      present := name in files;
    }

    /** Calls a collaborator. */
    method Invoke(c: Call, w: World) returns (out: Outcome<Exc>)
      requires Valid()
      modifies this
      ensures Valid()
      ensures Step(State(), out) == AfterCall(old(State()), c, w)
    {
      var s := AfterCall(State(), c, w);
      files, records, calls := s.dir.files, s.dir.records, s.dir.calls;
      out := s.outcome;
    }

    /** Reads a metadata record. */
    method ReadRecord(name: string) returns (r: Result<Record, Exc>)
      ensures r == Read(State(), name)
    {
      if name !in files {
        r := Failure(FileNotFound);
      } else if name !in records {
        r := Failure(Malformed);
      } else {
        r := Success(records[name]);
      }
    }

    /** Writes a metadata record. */
    method WriteRecord(name: string, rec: Record)
      requires Valid()
      modifies this
      ensures Valid()
      ensures State() == Write(old(State()), name, rec)
    {
      files := files + {name};
      records := records[name := rec];
    }

    /** Renames a file. */
    method Rename(src: string, dst: string) returns (out: Outcome<Exc>)
      requires Valid()
      modifies this
      ensures Valid()
      ensures Step(State(), out) == AfterRename(old(State()), src, dst)
    {
      if src !in files {
        out := Fail(FileNotFound);
      } else {
        if src in records {
          records := (records - {src})[dst := records[src]];
        } else {
          records := records - {src, dst};
        }
        files := files - {src} + {dst};
        out := Pass;
      }
    }
  }
}

=== FILE: text.dfy ===
/** The handful of Python string operations the modelled code relies on. */
module Text {

  /** `s.endswith(suffix)` */
  predicate EndsWith(s: string, suffix: string)
  {
    |suffix| <= |s| && s[|s| - |suffix|..] == suffix
  }

  /** `pat` occurs in `s` starting at index `i`. */
  predicate OccursAt(s: string, pat: string, i: int)
  {
    0 <= i && i + |pat| <= |s| && s[i..i + |pat|] == pat
  }

  /** `pat in s` */
  predicate Contains(s: string, pat: string)
  {
    exists i | 0 <= i <= |s| :: OccursAt(s, pat, i)
  }

  /**
   * `s.split('/')[-1]`: the text after the last slash, or all of `s` when it has
   * none. The three postconditions characterise it: it is a slash-free suffix
   * of `s`, and it is either all of `s` or preceded by a slash.
   */
  function LastSegment(s: string): (seg: string)
    ensures '/' !in seg
    ensures EndsWith(s, seg)
    ensures |seg| < |s| ==> s[|s| - |seg| - 1] == '/'
  {
    if s == [] then []
    else if s[|s| - 1] == '/' then []
    else LastSegment(s[..|s| - 1]) + [s[|s| - 1]]
  }

  /** The characterisation above determines the segment: any slash-free suffix that is all of `s` or follows a slash is it. */
  lemma {:induction false} LastSegmentUnique(s: string, t: string)
    requires '/' !in t
    requires |t| <= |s| && s[|s| - |t|..] == t
    requires |t| < |s| ==> s[|s| - |t| - 1] == '/'
    ensures t == LastSegment(s)
  {
    var seg := LastSegment(s);
    if |t| == |seg| {
      assert t == s[|s| - |t|..] == seg;
    }
  }

  /** Building a url as `base + "/" + id` and splitting it again gives back `id`. */
  lemma LastSegmentOfJoin(base: string, id: string)
    requires '/' !in id
    ensures LastSegment(base + "/" + id) == id
  {
    var s := base + "/" + id;
    assert s[|s| - |id|..] == id;
    LastSegmentUnique(s, id);
  }

  /** `s[:-len(suffix)] if s.endswith(suffix) else s`: one trailing copy of `suffix` removed. */
  function StripSuffix(s: string, suffix: string): (r: string)
    ensures EndsWith(s, suffix) ==> r + suffix == s
    ensures !EndsWith(s, suffix) ==> r == s
  {
    if EndsWith(s, suffix) then s[..|s| - |suffix|] else s
  }

  /** `seq[:n]` with Python's slice bound: a negative `n` counts from the end. */
  function PyPrefix<T>(s: seq<T>, n: int): (r: seq<T>)
    ensures r <= s
    ensures 0 <= n ==> |r| == if n < |s| then n else |s|
    ensures n < 0 ==> |r| == if |s| + n < 0 then 0 else |s| + n
  {
    if 0 <= n then (if n < |s| then s[..n] else s)
    else if |s| + n < 0 then []
    else s[..|s| + n]
  }

  /**
   * `s.replace(pat, rep)`: scanning left to right, every occurrence of `pat`
   * that does not overlap an earlier replaced one becomes `rep`.
   */
  function ReplaceAll(s: string, pat: string, rep: string): string
    requires pat != []
    decreases |s|
  {
    if |s| < |pat| then s
    else if s[..|pat|] == pat then rep + ReplaceAll(s[|pat|..], pat, rep)
    else [s[0]] + ReplaceAll(s[1..], pat, rep)
  }

  /** A string in which `pat` does not occur is left as it is. */
  lemma {:induction false} ReplaceAllIdentity(s: string, pat: string, rep: string)
    requires pat != []
    requires !Contains(s, pat)
    ensures ReplaceAll(s, pat, rep) == s
    decreases |s|
  {
    if |s| >= |pat| {
      assert !OccursAt(s, pat, 0);
      assert !Contains(s[1..], pat) by {
        forall i | OccursAt(s[1..], pat, i) ensures OccursAt(s, pat, i + 1) {
          assert s[1..][i..i + |pat|] == s[i + 1..i + 1 + |pat|];
        }
      }
      ReplaceAllIdentity(s[1..], pat, rep);
    }
  }

  /** An occurrence in the tail of `s` is one in `s`, one place later. */
  lemma OccursInTail(s: string, pat: string, i: int)
    requires s != [] && OccursAt(s[1..], pat, i)
    ensures OccursAt(s, pat, i + 1)
  {
    assert s[1..][i..i + |pat|] == s[i + 1..i + 1 + |pat|];
  }

  /** Where the pattern does not start the input, its first character is kept. */
  lemma ReplaceAllKeepsHead(s: string, pat: string, rep: string)
    requires pat != [] && s != [] && !OccursAt(s, pat, 0)
    ensures ReplaceAll(s, pat, rep) == [s[0]] + ReplaceAll(s[1..], pat, rep)
  {
  }

  /**
   * At the first occurrence of the pattern, the replacement takes its place:
   * the text before it is kept as it is, and the rest is replaced in turn.
   */
  lemma {:induction false} ReplaceAllAt(a: string, pat: string, b: string, rep: string)
    requires pat != []
    requires forall i | 0 <= i < |a| :: !OccursAt(a + pat + b, pat, i)
    ensures ReplaceAll(a + pat + b, pat, rep) == a + rep + ReplaceAll(b, pat, rep)
    decreases |a|
  {
    var s := a + pat + b;
    if a == [] {
      assert s[..|pat|] == pat && s[|pat|..] == b;
    } else {
      var t := a[1..] + pat + b;
      assert s[0] == a[0] && s[1..] == t;
      forall i | 0 <= i < |a[1..]| ensures !OccursAt(t, pat, i) {
        if OccursAt(t, pat, i) {
          OccursInTail(s, pat, i);
        }
      }
      ReplaceAllKeepsHead(s, pat, rep);
      ReplaceAllAt(a[1..], pat, b, rep);
      var r := ReplaceAll(b, pat, rep);
      assert [a[0]] + (a[1..] + rep + r) == a + rep + r by {
        assert a == [a[0]] + a[1..];
      }
    }
  }

  /** Where the pattern starts the input, the replacement starts the result. */
  lemma ReplaceAllStartsWithReplacement(t: string, pat: string, rep: string)
    requires pat != [] && rep != []
    requires |pat| <= |t| && t[..|pat|] == pat
    ensures ReplaceAll(t, pat, rep)[0] == rep[0]
  {
  }

  /**
   * As long as no character of the result is the first character of the
   * replacement, the result agrees with the input: no replacement happened there.
   */
  lemma {:induction false} ReplaceAllPrefixUntouched(t: string, pat: string, rep: string, k: nat)
    requires pat != [] && rep != []
    requires k <= |ReplaceAll(t, pat, rep)|
    requires forall j | 0 <= j < k :: ReplaceAll(t, pat, rep)[j] != rep[0]
    ensures k <= |t| && ReplaceAll(t, pat, rep)[..k] == t[..k]
    decreases |t|
  {
    var r := ReplaceAll(t, pat, rep);
    if |t| < |pat| {
    } else if t[..|pat|] == pat {
      if k > 0 {
        ReplaceAllStartsWithReplacement(t, pat, rep);
        assert false;
      }
    } else if k > 0 {
      var r' := ReplaceAll(t[1..], pat, rep);
      assert r == [t[0]] + r';
      forall j | 0 <= j < k - 1 ensures r'[j] != rep[0] {
        assert r'[j] == r[j + 1];
      }
      ReplaceAllPrefixUntouched(t[1..], pat, rep, k - 1);
      assert r[..k] == [t[0]] + r'[..k - 1];
      assert t[..k] == [t[0]] + t[1..][..k - 1];
    }
  }

  /** An occurrence in `prefix + r` at or past `|prefix|` is an occurrence in `r`. */
  lemma OccursAtShift(prefix: string, r: string, pat: string, i: int)
    requires |prefix| <= i && OccursAt(prefix + r, pat, i)
    ensures OccursAt(r, pat, i - |prefix|)
  {
    assert (prefix + r)[i..i + |pat|] == r[i - |prefix|..i - |prefix| + |pat|];
  }

  /**
   * When the pattern cannot begin inside the replacement and the replacement
   * cannot continue a pattern, no occurrence of the pattern survives the replacement.
   */
  lemma {:induction false} ReplaceAllRemoves(s: string, pat: string, rep: string)
    requires pat != [] && rep != []
    requires pat[0] !in rep && rep[0] !in pat
    ensures !Contains(ReplaceAll(s, pat, rep), pat)
    decreases |s|
  {
    var r := ReplaceAll(s, pat, rep);
    if |s| < |pat| {
      assert |r| < |pat|;
    } else if s[..|pat|] == pat {
      ReplaceAllRemoves(s[|pat|..], pat, rep);
      RemovedAfterReplacement(s, pat, rep);
    } else {
      ReplaceAllRemoves(s[1..], pat, rep);
      RemovedAfterKept(s, pat, rep);
    }
  }

  /** The step of `ReplaceAllRemoves` where the input starts with the pattern. */
  lemma RemovedAfterReplacement(s: string, pat: string, rep: string)
    requires pat != [] && rep != [] && pat[0] !in rep
    requires |pat| <= |s| && s[..|pat|] == pat
    requires !Contains(ReplaceAll(s[|pat|..], pat, rep), pat)
    ensures !Contains(ReplaceAll(s, pat, rep), pat)
  {
    var r' := ReplaceAll(s[|pat|..], pat, rep);
    assert ReplaceAll(s, pat, rep) == rep + r';
    forall i | OccursAt(rep + r', pat, i) ensures false {
      if i >= |rep| {
        OccursAtShift(rep, r', pat, i);
      }
    }
  }

  /** The step of `ReplaceAllRemoves` where the first character is kept. */
  lemma RemovedAfterKept(s: string, pat: string, rep: string)
    requires pat != [] && rep != [] && rep[0] !in pat
    requires |pat| <= |s| && s[..|pat|] != pat
    requires !Contains(ReplaceAll(s[1..], pat, rep), pat)
    ensures !Contains(ReplaceAll(s, pat, rep), pat)
  {
    var r' := ReplaceAll(s[1..], pat, rep);
    var r := [s[0]] + r';
    assert ReplaceAll(s, pat, rep) == r;
    forall i | OccursAt(r, pat, i) ensures false {
      if i == 0 {
        KeptHeadStartsNoMatch(s, pat, rep);
      } else {
        OccursAtShift([s[0]], r', pat, i);
      }
    }
  }

  /**
   * A kept first character cannot start a match in the result: the match would
   * have to continue with unreplaced input, which would then match the pattern.
   */
  lemma KeptHeadStartsNoMatch(s: string, pat: string, rep: string)
    requires pat != [] && rep != [] && rep[0] !in pat
    requires |pat| <= |s| && s[..|pat|] != pat
    ensures !OccursAt([s[0]] + ReplaceAll(s[1..], pat, rep), pat, 0)
  {
    var r' := ReplaceAll(s[1..], pat, rep);
    var r := [s[0]] + r';
    if OccursAt(r, pat, 0) {
      var k := |pat| - 1;
      forall j | 0 <= j < k ensures r'[j] != rep[0] {
        assert r'[j] == r[j + 1] == pat[j + 1];
      }
      ReplaceAllPrefixUntouched(s[1..], pat, rep, k);
      assert false;
    }
  }
}

=== FILE: wrappers.dfy ===
/** Option and Result values, and the exceptions the modelled code raises or lets through. */
module Wrappers {

  datatype Option<+T> = None | Some(value: T)

  datatype Result<+T, +E> = Success(value: T) | Failure(error: E)

  /** The outcome of a step that produces no value: it completes, or it raises. */
  datatype Outcome<+E> = Pass | Fail(error: E)

  /** The exceptions of the modelled code, by the Python class that carries them. */
  datatype Exc =
    | ValueError            // unknown file suffix, metadata file of another episode
    | KeyError              // a dictionary key that is not there
    | AttributeError        // an attribute that was never assigned, or a method called on None
    | FileNotFound          // opening or renaming a file that does not exist
    | Malformed             // a metadata file whose text is not a JSON object with an `id`
    | DownloadFailed        // the HTTP or streaming download collaborator failed
    | ExportFailed          // pydub's export failed
    | CalledProcessError(exitCode: int)  // ffmpeg exited with a non-zero code
}
